=== FILE: README.md ===
# CruiseMapper lookup core, in Dafny

The CruiseMapper MCP servers answer four questions about cruise ships by
scraping cruisemapper.com: list the ships, show a ship's schedule, show a
ship's details, and show a port's schedule. Three generations of the server
exist side by side:

- the **fixed enhanced** server (`fixed-cruisemapper-server-enhanced.js`);
- the **older enhanced** server (`cruisemapper-server-enhanced.js`);
- the **plain** server (`cruisemapper-server.js`).

Two self-test scripts (`test-fixes.js`, `test-real-ships.js`) carry their
own copies of the helpers.

This project models the part of those programs that turns a ship or port
name into a page and a page into an answer:

- name normalisation (`safeToLowerCase`, the URL slug, the cache key);
- the four-pattern ship-id extractor;
- the page validator;
- the strategy chains that thread the `name → id` cache: cached id, listing
  search, browser search, id sweep, bare slug;
- the fetch-backend policy;
- the listing scans;
- the specification, label, amenity, schedule-table and port-table
  extractors;
- the three tool handlers of each server.

Everything is a pure function over immutable data:

- A fetched page is a `Doc` record of what the selectors read: title, first
  `<h1>`, ordered node texts, ordered `(text, href)` links, tables and list
  items.
- Fetching is an uninterpreted `string → Option<Doc>` oracle, with one
  oracle per backend: the browser and the HTTP client.
- The browser's site search is an oracle `string → Option<Link>`.
- Whether the process runs on Render or in production is a parameter.
- The spec registry's regular expressions are an abstract matcher
  `(key, text) → Option<capture>`. The id and href regular expressions are
  written out as functions, each next to a declarative description of what
  it matches.

Modules, in dependency order:

- `Wrappers`: `Option`.
- `Text`: JS `toLowerCase` (ASCII), `trim`, `split(/\s+/)`, `replace(/\s+/g, …)`, `includes`, `replace(str, '')`.
- `Seqs`: filter, take, `Map` insertion order, dedupe, first/last position.
- `Names`: `safeToLowerCase`, slug, cache key, site URLs.
- `Document`: the page record.
- `ShipId`: the id regexes.
- `Validator`: `validateShipPage` and the self-test's strict check.
- `Fetch`: `scrapeCruiseMapper` and the browser search.
- `Specs`: the spec registry, the label extractor, amenities.
- `Tables`: schedule and port tables, itinerary links.
- `Listing`: the shared link scan loop and its cache writes.
- `ShipList`: `list_all_ships` in both enhanced servers.
- `Chain`: the strategies and the first-hit-wins chain runner.
- `Handlers`: the schedule, details and port handlers of each server.

## Behaviour that departs from the code's evident intent

The model follows the code in each case. The intent is the one the code's
own names, comments and log lines express.

- **Empty or padded titles validate.** `validateShipPage` is meant to
  reject a page that is not about the queried ship. Yet an empty or
  whitespace-padded page title or `<h1>` validates a page for any query
  with a word longer than two characters, because `''.split(/\s+/)` is
  `['']` and every string includes `''`. See
  `Validator.EmptyTitleValidates` and `Validator.PaddedTextValidates`.
- **The cache is written before validation.** The listing search and the
  browser search write the cache before the page is fetched or validated. In
  the older server, no strategy validates at all. See
  `Chain.ListingWritesBeforeFetch` and `Chain.OldScheduleSweepUnvalidated`.
- **The slug and the cache key are different normalisations.** The slug
  collapses whitespace runs; the cache key does not. See
  `Names.WiderRunSameSlugOtherKey`.
- **The second id pattern never decides.** The extractor's second pattern,
  `ships\/.*-(\d+)$`, can only match where the first already did. See
  `ShipId.ShipsPathSubsumed`.
- **The browser fetch can escape as an error.** In the fixed schedule
  handler, a failed page fetch after a successful browser search sits
  outside any `try`. The handler rejects and the dispatcher reports an error,
  so the chain stops there. See `Chain.BrowserFetchFailureAborts`.
- **The fixed schedule reply prefers the cache over the URL.** Its `ship_id`
  is the cached id when there is one, else the id read from the URL.
- **The old table pass ignores the filter.** The older `list_all_ships`
  table-row pass ignores the `cruise_line` filter. In the browser listing
  the line filter runs after the URL dedupe, so a rejected first link hides
  an accepted later one with the same href (`Listing.FilterAfterUrlDedupe`).
- **The older details `ship_id` needs two hyphens.** It is only set for
  URLs ending in `--digits`. So it is not set for the canonical `slug-id`
  URL when the slug does not end in `-`
  (`Handlers.EnhancedDetailsMissCanonicalId`). A name with a trailing space
  slugs to a trailing `-` and then gets a `ship_id` of `-` followed by the
  id (`ShipId.DoubleDashOnPaddedName`).

## Model

| member | source | states |
|---|---|---|
| Names.SafeLower | fixed-cruisemapper-server-enhanced.js:151-153 | a non-string or empty argument gives `''`; a string gives a lowercase string of the same length that lowercases like the argument |
| Names.Slug | fixed-cruisemapper-server-enhanced.js:635 | the slug has no whitespace and no uppercase letter and is never longer than the name |
| Names.SlugIdempotent | fixed-cruisemapper-server-enhanced.js:635 | slugging a slug changes nothing |
| Names.SlugIgnoresCaseAndSpacing | fixed-cruisemapper-server-enhanced.js:633-636 | names that lowercase alike after each whitespace run becomes one space share a slug |
| Names.CacheKeyCaseOnly | fixed-cruisemapper-server-enhanced.js:633 | two names share a cache key exactly when they agree character by character up to ASCII letter case; names of different lengths, such as ones whose whitespace runs differ, never share one |
| Names.WiderRunSameSlugOtherKey | fixed-cruisemapper-server-enhanced.js:633-636 | widening a space into a longer run keeps the slug but changes the cache key |
| Names.ShipUrlOfWords | test-fixes.js:161-173 | a name whose lowercase form is single-spaced words gets `/ships/<words joined by '-'>-<id>` |
| Names.SlugKeepsOuterRuns | cruisemapper-server.js:233 | the slug is not trimmed: surrounding whitespace becomes leading and trailing hyphens |
| ShipId.SepDigits | fixed-cruisemapper-server-enhanced.js:87-90 | the capture of `-(\d+)$` or `\/(\d+)$` is the maximal trailing digit run right after the separator, and is absent exactly when no position matches |
| ShipId.ShipsPathSubsumed | fixed-cruisemapper-server-enhanced.js:88 | wherever `ships\/.*-(\d+)$` matches, `-(\d+)$` already matches with the same capture |
| ShipId.IdParam | fixed-cruisemapper-server-enhanced.js:89 | `id[=:](\d+)` matches exactly when some position holds `id=` or `id:` followed by a digit, and its capture is a non-empty digit run |
| ShipId.ExtractShipId | fixed-cruisemapper-server-enhanced.js:82-102 | the result is `'unknown'` or a non-empty digit string, and it differs from `'unknown'` exactly when the href is non-empty and one of the patterns matches |
| ShipId.ExtractDashDigits | fixed-cruisemapper-server-enhanced.js:85-94 | an href ending in `-<digits>` yields exactly those digits |
| ShipId.ExtractUnderPrefix | fixed-cruisemapper-server-enhanced.js:82-102 | putting a prefix that ends in none of a digit, `-`, `/` or `i`, and holds no `id`, in front of an href does not change the extracted id |
| ShipId.SiteRootQuiet | fixed-cruisemapper-server-enhanced.js:136 | the site root `https://www.cruisemapper.com` is such a prefix, so a relative href and its absolute URL have the same id |
| ShipId.ExtractIdParam | fixed-cruisemapper-server-enhanced.js:85-94 | without a trailing `-<digits>`, the leftmost `id=`/`id:` parameter decides, even when the href also ends in `/<digits>` |
| ShipId.ExtractSlashDigits | fixed-cruisemapper-server-enhanced.js:85-94 | a trailing `/<digits>` decides only when the earlier patterns all fail |
| ShipId.NoDigitsUnknown | test-real-ships.js:43-61 | an href without a digit yields `'unknown'` |
| ShipId.ShipUrlIdRoundTrip | fixed-cruisemapper-server-enhanced.js:82-102 | the id read back from a ship URL built from any name and a digit id is that id |
| ShipId.ExtractorSamples | test-fixes.js:74-86 | `/ships/icon-of-the-seas-737` yields `737` and `/ships/symphony-of-the-seas-1000` yields `1000` |
| ShipId.InvalidSample | test-fixes.js:74-86 | `invalid-url` yields `'unknown'` |
| ShipId.ShipHref | fixed-cruisemapper-server-enhanced.js:510 | `/\/ships\/[A-Za-z0-9-]+-\d+$/` (or the lowercase-only class) holds exactly when some position matches its declarative description |
| ShipId.ShipHrefHasId | fixed-cruisemapper-server-enhanced.js:510-511 | every href the ship-link filter accepts has a numeric id, namely its trailing digits |
| ShipId.ShipHrefLowerVersusUpper | cruisemapper-server-enhanced.js:204 | the older lowercase-only filter accepts fewer hrefs, and the same ones on hrefs without uppercase letters |
| ShipId.CanonicalHrefIsShipHref | fixed-cruisemapper-server-enhanced.js:510 | a ship link built from a slug in the class and a digit id passes the filter |
| ShipId.DashIdOrEmpty | fixed-cruisemapper-server-enhanced.js:838 | the `-(\d+)$` capture or `''`: empty exactly when nothing matches, otherwise the extractor's id |
| ShipId.DoubleDashId | cruisemapper-server-enhanced.js:636-639 | `-(-\d+)$` captures a value starting with `-` exactly when the URL ends in `--digits` |
| ShipId.DoubleDashMissesCanonical | cruisemapper-server-enhanced.js:636-639 | the canonical URL of a name without trailing whitespace never yields a details `ship_id` |
| ShipId.DoubleDashOnPaddedName | cruisemapper-server-enhanced.js:636-639 | a name with a trailing space gets a `ship_id` of `-` followed by the id |
| Validator.AnyRelated | fixed-cruisemapper-server-enhanced.js:168-170 | true exactly when some page token includes the word or is included in it |
| Validator.AnyLongWordRelated | fixed-cruisemapper-server-enhanced.js:167-171 | true exactly when some query word longer than two characters is related to a page token |
| Validator.ValidateShipPage | fixed-cruisemapper-server-enhanced.js:156-193 | a title or heading that contains the full lowercase query always validates |
| Validator.StrictNameCheck | test-fixes.js:197-198 | the strict full-name check accepts only pages the validator accepts |
| Validator.ShortWordsNeedFullName | fixed-cruisemapper-server-enhanced.js:167-181 | when no query word is longer than two characters, the validator is exactly full-name containment |
| Validator.PaddedTextValidates | fixed-cruisemapper-server-enhanced.js:162-177 | a title or heading with leading whitespace validates any query with a word longer than two characters |
| Validator.EmptyTitleValidates | fixed-cruisemapper-server-enhanced.js:162-177 | an empty title validates any query with a word longer than two characters |
| Validator.DisjointPageFails | fixed-cruisemapper-server-enhanced.js:156-193 | for a non-empty query, a page whose lowercase title and heading are both non-empty, have no leading or trailing whitespace, and share no character with the query fails |
| Validator.LenientBeyondStrict | test-real-ships.js:69-95 | a title that only shares a long word with the query validates but fails the strict check |
| Fetch.Scrape | fixed-cruisemapper-server-enhanced.js:196-250 | the browser is used only with `usePlaywright` off Render/production; its failure falls back to HTTP; the call fails only when every backend tried fails |
| Fetch.BrowserIrrelevantWhenOff | fixed-cruisemapper-server-enhanced.js:200-228 | with the browser off or on Render, the browser's behaviour cannot change the result |
| Fetch.BrowserFirstOffRender | fixed-cruisemapper-server-enhanced.js:202-225 | off Render with the browser on, a browser page wins whatever HTTP would give |
| Fetch.FallbackOnBrowserFailure | fixed-cruisemapper-server-enhanced.js:219-249 | a failed browser fetch gives exactly the HTTP result |
| Fetch.SearchShip | fixed-cruisemapper-server-enhanced.js:105-148 | the browser search finds nothing on Render; otherwise it finds a ship exactly when the site search finds a link, reporting the trimmed link text, the site root in front of the href, and the id extracted from the href |
| Fetch.SearchIdMatchesUrl | fixed-cruisemapper-server-enhanced.js:130-137 | for any found link, the reported id is the id extracted from the reported absolute URL |
| Fetch.SearchCanonicalIdReal | fixed-cruisemapper-server-enhanced.js:130-137 | for a found canonical `/ships/<slug>-<digits>` href, the reported id is not `'unknown'` |
| Specs.Step | fixed-cruisemapper-server-enhanced.js:961-965 | one pattern touches only its own key, stores a value exactly when it matches or the key was present, and never replaces a truthy value unless it overwrites |
| Specs.ScanNode | fixed-cruisemapper-server-enhanced.js:961-966 | keys outside the registry are left as they are |
| Specs.Extract | fixed-cruisemapper-server-enhanced.js:942-967 | every result key is a registry key |
| Specs.FirstTruthy | fixed-cruisemapper-server-enhanced.js:963-964 | the first capture that is not falsy, with every earlier one falsy |
| Specs.LastCapture | cruisemapper-server.js:248-253 | the last present capture, with nothing present after it, absent exactly when every capture is |
| Specs.ExtractMatchesReference | fixed-cruisemapper-server-enhanced.js:942-967 | each key of the node-by-node scan holds its first truthy capture (or its last capture for overwriting rules) over the nodes in order |
| Specs.RegistrySpecs | fixed-cruisemapper-server-enhanced.js:946-967 | the result keys are among the twelve registry keys |
| Specs.RegistryFirstMatchWins | fixed-cruisemapper-server-enhanced.js:942-967 | each registry key holds the first truthy capture over the nodes in document order |
| Specs.TestRegistryAgrees | test-real-ships.js:194-208 | for every key it shares with the server, the five-pattern extractor stores the same value |
| Specs.LabelCapture | cruisemapper-server.js:248-261 | a node yields a value exactly when it contains the label; the value is no longer than the text minus the label and is the label-stripped text of `Specs.StripLabel` |
| Specs.StripLabel | cruisemapper-server.js:249 | the text with the label's leftmost occurrence cut out, then trimmed, no longer than the text minus the label |
| Specs.LabelCaptureValue | cruisemapper-server.js:248-249 | a node holding its key's label yields exactly the text with the label's leftmost occurrence cut out, then trimmed |
| Specs.LabelSpecsReference | cruisemapper-server.js:245-262 | gross tonnage and passengers take the last matching node, length, decks and year built the first truthy one, and no other key appears |
| Specs.Amenities | fixed-cruisemapper-server-enhanced.js:978-988 | absent exactly when no trimmed list item has length 6 to 99; otherwise the first `min(20, count)` passing items, each passing |
| Specs.AmenitiesSnoc | fixed-cruisemapper-server-enhanced.js:978-988 | one more list item is appended exactly when its trimmed text passes and fewer than twenty are listed, so the list keeps page order; at twenty nothing changes |
| Tables.Lookup | cruisemapper-server-enhanced.js:451-472 | a record lookup finds a value exactly when some entry has the key |
| Tables.Put | fixed-cruisemapper-server-enhanced.js:753-755 | an assignment sets one key, keeps the value of every other key and distinct keys, and grows the record only for a new key |
| Tables.PutKeepsKeys | fixed-cruisemapper-server-enhanced.js:753-755 | an assignment to an existing key keeps every position's key, so the key order is unchanged |
| Tables.PutAppendsNewKey | fixed-cruisemapper-server-enhanced.js:753-755 | an assignment to a new key appends it after the existing keys |
| Tables.RowPrefixReference | fixed-cruisemapper-server-enhanced.js:752-756 | each truthy header holds the trimmed cell of its last column, and the empty header holds nothing |
| Tables.RowEmptyIff | fixed-cruisemapper-server-enhanced.js:757 | a row record is empty exactly when every header over its cells is empty |
| Tables.TableRecords | fixed-cruisemapper-server-enhanced.js:749-760 | the non-empty row records of a table, and every non-empty row's record is among them |
| Tables.ScheduleRecordsAppend | fixed-cruisemapper-server-enhanced.js:741-762 | the tables contribute their records in document order |
| Tables.IgnoredTable | fixed-cruisemapper-server-enhanced.js:748 | a table with no date or port header contributes nothing |
| Tables.HeaderOnlyTable | fixed-cruisemapper-server-enhanced.js:750 | a table with only a header row contributes nothing |
| Tables.Schedules | fixed-cruisemapper-server-enhanced.js:774-775 | the count is every record; exactly the first `min(limit, count)` records are shown, in order |
| Tables.Itineraries | fixed-cruisemapper-server-enhanced.js:727-738 | one entry per link with text and href, in order, titled with the trimmed text and pointing at the site root plus the href |
| Tables.ItinerariesFromListedLinks | fixed-cruisemapper-server-enhanced.js:732-736 | every itinerary has a title and every usable link appears |
| Tables.IndexRow | cruisemapper-server.js:304-310 | cells 0 to 3, trimmed, are the ship, arrival, departure and date, each absent exactly when the row has no such cell; later cells are ignored, and there is no cruise line |
| Tables.PortHeaders | fixed-cruisemapper-server-enhanced.js:1044-1046 | the headers trimmed and lowercased |
| Tables.KeywordCalls | fixed-cruisemapper-server-enhanced.js:1039-1070 | every kept call has a non-empty ship |
| Tables.IndexCalls | cruisemapper-server.js:298-316 | every kept call has a non-empty ship |
| Tables.PortCallsReference | cruisemapper-server.js:298-313 | both port-table scans equal a table-by-table, row-by-row reference: each table read contributes, in order, the calls of its rows after the header that have a ship; a keyword table is read only when some header mentions ship, arrival or date |
| Tables.KeywordCallsAppend | fixed-cruisemapper-server-enhanced.js:1039-1070 | the tables contribute their keyword-mapped calls in document order |
| Tables.IndexCallsAppend | cruisemapper-server.js:298-313 | the tables contribute their index-mapped calls in document order |
| Tables.PortShips | fixed-cruisemapper-server-enhanced.js:1077-1078 | the count is every kept call; exactly the first `min(limit, count)` calls are shown, in order |
| Tables.KeywordMatchesIndex | fixed-cruisemapper-server-enhanced.js:1054-1063 | under the headers ship, arrival, departure, date, the keyword mapping fills a row exactly as the column-index mapping does |
| Tables.PortTablesAgree | cruisemapper-server.js:298-316 | on tables with the standard four columns both servers keep the same calls |
| Listing.LastIdFor | fixed-cruisemapper-server-enhanced.js:463-465 | the id of the last cacheable ship written under a key, or none when no ship writes it |
| Listing.CacheWritesReference | fixed-cruisemapper-server-enhanced.js:459-465 | after the scan each key holds the last cacheable id written to it, and keys nobody writes keep their value |
| Listing.DedupeByName | fixed-cruisemapper-server-enhanced.js:531 | the deduplicated ships have distinct names |
| Listing.DedupeKeepsLast | fixed-cruisemapper-server-enhanced.js:531 | each kept entry is the last ship with its name |
| Listing.DedupeKeepsEveryName | fixed-cruisemapper-server-enhanced.js:531 | every scanned name survives |
| Listing.DedupeFirstSeenOrder | fixed-cruisemapper-server-enhanced.js:531 | names keep the order of their first appearance |
| Listing.PickAt | test-real-ships.js:122-145 | a picked link passes the line filter and has an id |
| Listing.ScanListing | test-real-ships.js:119-149 | the loop returns the declarative scan result and caches exactly that result when the loop caches |
| Listing.ScanUrlsDistinct | test-fixes.js:113-145 | no full URL is picked twice |
| Listing.ScanCompleteWithoutFilter | test-fixes.js:113-145 | without a line filter or stop, every accepted link among the examined ones has its URL picked |
| Listing.FilterAfterUrlDedupe | fixed-cruisemapper-server-enhanced.js:449-459 | a link rejected by the line filter still marks its URL as seen, hiding a later accepted link with the same href |
| Listing.BrowserScanBounded | fixed-cruisemapper-server-enhanced.js:443-473 | the browser listing returns at most `limit` ships, all on the requested line |
| ShipList.OnLine | fixed-cruisemapper-server-enhanced.js:523-526 | exactly the ships whose lowercase name includes the lowercase line |
| ShipList.HttpList | fixed-cruisemapper-server-enhanced.js:495-569 | the shown ships are exactly the first `min(limit, n)` of the name-deduplicated accepted ships on the line, the count equals the number shown, and names are distinct; a failed fetch leaves the cache alone and shows nothing |
| ShipList.HttpUnique | fixed-cruisemapper-server-enhanced.js:523-531 | the accepted link ships on the line, deduplicated by name, have distinct names |
| ShipList.HttpListSound | fixed-cruisemapper-server-enhanced.js:504-532 | every ship shown is built from an accepted link and passes the line filter |
| ShipList.HttpCachesUnfiltered | fixed-cruisemapper-server-enhanced.js:510-521 | every accepted link with an id is cached, whatever the line filter |
| ShipList.HttpListComplete | fixed-cruisemapper-server-enhanced.js:504-532 | when the deduplicated ships fit the limit, every accepted link on the line has its name shown |
| ShipList.OldCacheableIsTruthy | cruisemapper-server-enhanced.js:205-215 | the older listing caches a link exactly when its `-(\d+)$` capture is non-empty |
| ShipList.MergeRows | cruisemapper-server-enhanced.js:225-245 | the link ships stay first and unchanged, every row name is present, and nothing else is added |
| ShipList.MergeRowsKnownNames | cruisemapper-server-enhanced.js:236-243 | rows whose names are already present add nothing |
| ShipList.OldList | cruisemapper-server-enhanced.js:189-272 | a failed fetch is an error that leaves the cache alone; otherwise the count is the number of name-deduplicated ships and exactly the first `min(limit, count)` of them are shown |
| ShipList.OldListDistinct | cruisemapper-server-enhanced.js:248-258 | the shown ships have distinct names |
| ShipList.OldRowsIgnoreFilter | cruisemapper-server-enhanced.js:225-245 | a usable table row is listed whatever the line filter |
| ShipList.OldListSound | cruisemapper-server-enhanced.js:198-258 | every ship shown is a link ship on the line or a table-row ship |
| ShipList.OldCachesRows | cruisemapper-server-enhanced.js:230-234 | a usable table row with an id is cached |
| ShipList.ListAllShips | fixed-cruisemapper-server-enhanced.js:393-415 | the browser listing is used only off Render with a page; HTTP is the fallback; with neither page the reply is empty |
| ShipList.RenderSkipsBrowser | fixed-cruisemapper-server-enhanced.js:400-405 | on Render the browser's behaviour cannot change the listing |
| ShipList.BrowserListingCaches | fixed-cruisemapper-server-enhanced.js:459-465 | the browser listing caches exactly the ships it returns |
| ShipList.ListAllShipsFiltered | fixed-cruisemapper-server-enhanced.js:393-415 | every listed ship passes the line filter |
| Chain.CachedStep | fixed-cruisemapper-server-enhanced.js:631-647 | the cached-id strategy never writes the cache, hits only with a cached id, and hits only on a valid page when it validates |
| Chain.FirstListingMatch | fixed-cruisemapper-server-enhanced.js:827-839 | the first link in document order that matches the name and has a dash id |
| Chain.ListingWrites | fixed-cruisemapper-server-enhanced.js:846-847 | the id goes under the query key and, where the server does so, the link-text key; every other key is kept |
| Chain.ListingStep | fixed-cruisemapper-server-enhanced.js:817-864 | the listing is fetched first, a hit fetched exactly the listing and the ship page, and a cache of numeric ids (non-empty digit strings) stays so |
| Chain.SearchWrites | fixed-cruisemapper-server-enhanced.js:655-659 | an unknown id writes nothing; a real id goes under the query key and the found name's key |
| Chain.BrowserStep | fixed-cruisemapper-server-enhanced.js:649-673 | a hit is a valid page; on Render the strategy does nothing; a cache of numeric ids (non-empty digit strings) stays so |
| Chain.FirstAccepted | fixed-cruisemapper-server-enhanced.js:675-697 | the first id whose page fetches (and validates, where the sweep validates) |
| Chain.SweepMiss | fixed-cruisemapper-server-enhanced.js:675-697 | when no id is accepted, the sweep misses, keeps the cache and fetched every candidate URL |
| Chain.SweepHit | fixed-cruisemapper-server-enhanced.js:681-691 | the sweep returns the first accepted id's page and caches that id under the query key when it caches |
| Chain.SweepTrace | fixed-cruisemapper-server-enhanced.js:679-697 | the sweep fetched the candidate URLs up to and including the accepted one, in order |
| Chain.BareStep | fixed-cruisemapper-server-enhanced.js:892-903 | the bare-slug strategy fetches only the bare URL, hits exactly when it fetches, and never writes the cache |
| Chain.RunStrategy | fixed-cruisemapper-server-enhanced.js:701-705 | a hit is a page its URL fetches, valid when the strategy validates; only the browser search can abort |
| Chain.RunChain | fixed-cruisemapper-server-enhanced.js:701-705 | a hit is a page its URL fetches, valid when every strategy validates; an abort needs a browser search in the chain |
| Chain.ChainAppend | fixed-cruisemapper-server-enhanced.js:701-705 | running two chains in a row is running their concatenation |
| Chain.FirstHitWins | fixed-cruisemapper-server-enhanced.js:907-911 | the first strategy that does not miss decides the result |
| Chain.MissThenRest | fixed-cruisemapper-server-enhanced.js:907-911 | after a miss the rest of the chain runs on the cache the miss left |
| Chain.FixedScheduleValidated | fixed-cruisemapper-server-enhanced.js:631-705 | every page the fixed schedule chain returns validates |
| Chain.FixedDetailsTrustsCache | fixed-cruisemapper-server-enhanced.js:800-815 | a truthy cached id whose page fetches is returned unvalidated by the fixed details chain |
| Chain.FixedDetailsSweepValidated | fixed-cruisemapper-server-enhanced.js:866-890 | without a cached id or listing, the fixed details chain returns the first id that fetches and validates and caches only that id |
| Chain.OldScheduleSweepUnvalidated | cruisemapper-server-enhanced.js:391-407 | without a cached id or listing, the older schedule chain returns and caches the first id whose page merely fetches |
| Chain.PlainScheduleUrls | cruisemapper-server.js:154-180 | the plain chain tries `slug-542`, then the bare slug, keeps the cache, and fetches the bare slug only after the first fails |
| Chain.FixedScheduleOnRender | fixed-cruisemapper-server-enhanced.js:649-697 | on Render the fixed schedule chain is the cached id followed by the sweep, and never aborts |
| Chain.FixedScheduleSweepOnRender | fixed-cruisemapper-server-enhanced.js:675-697 | on Render without a cached id, the result is the first validating id's page and only that id is cached |
| Chain.ListingWritesBeforeFetch | fixed-cruisemapper-server-enhanced.js:846-856 | a matching link writes the cache even when its page then fails to fetch |
| Chain.ListingNoMatchNoWrites | fixed-cruisemapper-server-enhanced.js:817-864 | a failed listing fetch misses and writes nothing |
| Chain.BrowserFetchFailureAborts | fixed-cruisemapper-server-enhanced.js:655-662 | a browser search whose page fails to fetch aborts the fixed schedule chain after caching the id |
| Chain.ChainKeepsNumeric | fixed-cruisemapper-server-enhanced.js:655-690 | a cache of numeric ids (non-empty digit strings) stays so through any chain whose sweeps use numeric ids |
| Chain.ServerIdsNumeric | fixed-cruisemapper-server-enhanced.js:679 | every id the sweeps try is a digit string, and the older schedule list is the first ten of the older details list |
| Chain.ServerChainsNumeric | fixed-cruisemapper-server-enhanced.js:870 | every server chain sweeps only numeric ids |
| Handlers.ReportedId | fixed-cruisemapper-server-enhanced.js:776 | the schedule `ship_id` is the truthy cached id, else the URL's id on the fixed server, `'discovered'` on the older one, absent on the plain one |
| Handlers.ScheduleOf | fixed-cruisemapper-server-enhanced.js:716-779 | the reply keeps the raw title and trims the heading; it counts every itinerary and schedule record and shows exactly the first `min(10, count)` itineraries and the first `min(20, count)` schedules (`min(10, count)` on the plain server) |
| Handlers.ShipSchedule | fixed-cruisemapper-server-enhanced.js:615-780 | a bad argument is refused without touching the cache, errors come only from the fixed chain or a non-string on the plain server, and an answer's body is the schedule report of the page its URL fetched |
| Handlers.FixedScheduleAnswersValidated | fixed-cruisemapper-server-enhanced.js:631-705 | every fixed schedule answer is for a page that validates against the query |
| Handlers.FixedScheduleOnRenderNoError | fixed-cruisemapper-server-enhanced.js:649-697 | on Render the fixed schedule handler never errors |
| Handlers.PlainScheduleKeepsCache | cruisemapper-server.js:150-226 | the plain schedule handler keeps the cache and answers only for `slug-542` or the bare slug |
| Handlers.ReportedScheduleId | cruisemapper-server-enhanced.js:476-488 | the cache stays numeric and the reported id is numeric, `'unknown'` (fixed) or `'discovered'` (older) |
| Handlers.FixedSweepReportsItsId | fixed-cruisemapper-server-enhanced.js:675-779 | on Render without a cached id, the fixed handler answers with the first validating id's URL and reports that id |
| Handlers.DetailsId | cruisemapper-server-enhanced.js:636-639 | the fixed details `ship_id` is the URL's numeric id or absent; the older one is the `--digits` capture |
| Handlers.ShownName | cruisemapper-server.js:240 | the heading when it is non-empty after trimming, else the query |
| Handlers.DetailsOf | fixed-cruisemapper-server-enhanced.js:926-991 | the specs are the registry scan of the page's nodes, the status is the trimmed non-empty status text, amenities and page title come from the page |
| Handlers.DetailsChainsNeverAbort | fixed-cruisemapper-server-enhanced.js:799-911 | the details chains have no browser search and never abort |
| Handlers.ShipDetails | cruisemapper-server.js:229-280 | bad arguments are refused, only the plain server errors (on a non-string); the plain server keeps the cache and answers for the bare slug with the label specs of that page; an enhanced answer is the details report of the page its URL fetched |
| Handlers.FixedDetailsIdOfCanonicalUrl | fixed-cruisemapper-server-enhanced.js:933-936 | an answer for the canonical `slug-id` URL reports that id |
| Handlers.EnhancedDetailsMissCanonicalId | cruisemapper-server-enhanced.js:636-639 | the older server reports no `ship_id` for a canonical `slug-id` URL with a numeric id whose slug is empty or does not end in `-` |
| Handlers.DetailsTrustCachedId | cruisemapper-server-enhanced.js:509-524 | a truthy cached id whose page fetches is the answer, and the cache is unchanged |
| Handlers.PortSchedule | fixed-cruisemapper-server-enhanced.js:1011-1089 | bad arguments are refused, a failed fetch is not-found, and an answer counts every kept call of the page's tables and shows exactly the first `min(30, count)` of them (`min(20, count)` on the plain server), all with a ship |
| Handlers.PortReportsAgree | cruisemapper-server.js:282-333 | on standard-column tables the enhanced and plain servers find the same count, and the plain list is a prefix of the enhanced one |
| Text.Trim | fixed-cruisemapper-server-enhanced.js:720 | the trimmed text is a slice of the text with only whitespace cut from either side; it starts and ends with a non-space and is empty exactly when the text is all whitespace |
| Text.TrimCharacterised | fixed-cruisemapper-server-enhanced.js:720 | any slice left by cutting whitespace from both ends that has no whitespace at either end is the trimmed text |
| Text.SplitSpaces | fixed-cruisemapper-server-enhanced.js:162-164 | `split(/\s+/)` gives at least one field, none holding whitespace |
| Text.SplitTrailingSpace | fixed-cruisemapper-server-enhanced.js:162-164 | text ending in whitespace splits with an empty last field |
| Text.JoinSplitSpaces | fixed-cruisemapper-server-enhanced.js:635 | joining the split fields with single spaces collapses each whitespace run |
| Text.ReplaceSpaceRunsCollapse | fixed-cruisemapper-server-enhanced.js:635 | collapsing whitespace runs to a space first does not change the slug |
| Text.RemoveFirst | cruisemapper-server.js:249 | `replace(label, '')` removes the first occurrence only, and nothing when the label is absent |

## Left out

- The MCP envelope is left out: server setup, the `TOOLS` schemas, `setRequestHandler` dispatch and the response wrappers. A handler's reply is modelled as its JSON body or one of the failure kinds.
- The Playwright lifecycle is left out: `initBrowser`, the signal handlers, page closing, and the internals of the site search. The search is an oracle.
- axios requests, headers and timeouts are left out; each backend is a `url → Option<Doc>` oracle.
- cheerio's selector semantics are left out. A page is the record of what the selectors return, in document order.
- The spec registry's regular expressions are an abstract matcher; a general regex engine is out of scope.
- `handleCruiseByDate` and `handleGetCruiseLines` are not modelled: query-string encoding and class-selector scraping.
- The other programs are not part of this model: `web-server.js`, `telnyx-mcp-server.js`, `server.js`, `mcp-server.js`, `basic-server.js` and the test drivers that spawn processes or print.
- Tables.PortCall: a port call is a record with fixed fields, so it does not keep the order in which the row's columns assigned them. JavaScript keeps column order: headers `Date | Ship` serialise as `{date, ship}` (fixed-cruisemapper-server-enhanced.js:1053-1061). The values of the fields are modelled exactly.
- Tables.Put: a record keeps plain insertion order. JavaScript objects list integer-like keys (a header such as `2024`) first, in ascending order. An assignment to a `__proto__` header creates no own property, so a row whose only truthy header is `__proto__` fails `Object.keys(rowData).length > 0` (fixed-cruisemapper-server-enhanced.js:757), although `Tables.RowEmptyIff` calls its record non-empty. Property-name semantics of JavaScript objects are out of scope.
- Constant reply fields are not modelled: `validation_passed`, `method`, `note`, `cache_size`, and the log lines.
- The `limit` argument is a natural number. Its default of 50 is supplied by the caller of the model.
- The browser listing failing when no ship link appears (the `waitForSelector` timeout) is modelled as the browser returning no page, or a page with no ship link.
- Lowercasing covers ASCII letters only, not the full Unicode case mapping of `toLowerCase`.
- String lengths are counted in code points, not JavaScript's UTF-16 code units. This matters for `Specs.AmenityText` (fixed-cruisemapper-server-enhanced.js:981) and the validator's `word.length > 2` (fixed-cruisemapper-server-enhanced.js:168,174) on text outside the Basic Multilingual Plane.

=== FILE: chain.dfy ===
/** The ship lookup chains of `handleShipSchedule` and
    `handleShipFullDetails`: an ordered list of strategies (cached id,
    listing search, browser search, id sweep, bare slug) threading the
    `name → id` cache, the first strategy that yields a page winning.
    The servers differ in which strategies validate the page, which cache
    keys they write and in which order; each strategy carries those
    differences as flags. */
module Chain {
  import opened Wrappers
  import opened Seqs
  import opened Text
  import opened Names
  import opened ShipId
  import opened Document
  import opened Fetch
  import opened Validator
  import opened Listing

  /** One lookup strategy. */
  datatype Strategy =
      /** The cached id for the lowercased name, if truthy. */
    | CachedId(validates: bool)
      /** The first related listing link with a `-<digits>` href;
          `cachesLinkText` adds the link text's key, `keepsAbsolute` uses
          an `http…` href as it is. */
    | ListingSearch(cachesLinkText: bool, keepsAbsolute: bool)
      /** The browser search of the fixed schedule handler; its page fetch
          is outside any `try`. */
    | BrowserSearch
      /** `<slug>-<id>` for each id in order; `caches` writes the id that
          wins under the lowercased name. */
    | IdSweep(ids: seq<string>, validates: bool, caches: bool)
      /** `<slug>` without an id. */
    | BareSlug

  /** A strategy's page: the document and the URL it came from. */
  datatype Found = Found(doc: Doc, url: string)

  /** A page, nothing (`null`), or an exception that escapes the handler. */
  datatype Result = Hit(found: Found) | Miss | Aborted

  /** A result with the cache after it and the URLs fetched, in order. */
  datatype Outcome = Outcome(result: Result, cache: Cache, fetched: seq<string>)

  /** What the strategies consult: the page fetcher, the browser search and
      the environment. */
  datatype Ctx = Ctx(fetch: Fetcher, search: Search, env: Env)

  /** `validateShipPage($, name, url)` on a fetched page. */
  predicate Valid(d: Doc, name: string) {
    ValidateShipPage(d.title, d.h1, name)
  }

  /** The strategies that check the page before returning it. */
  predicate Validates(s: Strategy) {
    match s
    case CachedId(v) => v
    case ListingSearch(_, _) => false
    case BrowserSearch => true
    case IdSweep(_, v, _) => v
    case BareSlug => false
  }

  /** An id the servers cache: a non-empty run of digits. */
  predicate NumericId(id: string) {
    |id| > 0 && AllDigits(id)
  }

  /** Every cached id is numeric. */
  predicate NumericCache(cache: Cache) {
    forall k :: k in cache ==> NumericId(cache[k])
  }

  // ---------------------------------------------------------------------
  // Cached id
  // ---------------------------------------------------------------------

  /** The cached-id strategy: nothing when the lowercased name has no
      truthy cached id; otherwise `<slug>-<id>`, returned when it fetches
      (and, if asked, validates). The cache is only read. */
  function CachedStep(ctx: Ctx, validates: bool, name: string, cache: Cache): (o: Outcome)
    ensures o.cache == cache
    ensures o.result.Hit? ==> CacheKey(name) in cache
                              && o.result.found.url == ShipUrl(name, cache[CacheKey(name)])
                              && o.fetched == [o.result.found.url]
                              && ctx.fetch(o.result.found.url) == Some(o.result.found.doc)
                              && (validates ==> Valid(o.result.found.doc, name))
    ensures !o.result.Aborted?
  {
    var key := CacheKey(name);
    if key in cache && cache[key] != "" then
      var url := ShipUrl(name, cache[key]);
      match ctx.fetch(url)
      case None => Outcome(Miss, cache, [url])
      case Some(d) => Outcome(if !validates || Valid(d, name) then Hit(Found(d, url)) else Miss, cache, [url])
    else Outcome(Miss, cache, [])
  }

  // ---------------------------------------------------------------------
  // Listing search
  // ---------------------------------------------------------------------

  /** The listing search's name test: equal, or either lowercased name
      contains the other. */
  predicate NameRelated(text: string, name: string) {
    Lower(text) == Lower(name) || Contains(Lower(text), Lower(name)) || Contains(Lower(name), Lower(text))
  }

  /** A listing link the search stops at: a non-blank related text and an
      href ending in `-<digits>`. */
  predicate ListingMatch(l: Link, name: string) {
    Trim(l.text) != "" && l.href != "" && NameRelated(Trim(l.text), name) && DashIdOrEmpty(l.href) != ""
  }

  /** Which listing links match. */
  function ListingMatches(links: seq<Link>, name: string): (bs: seq<bool>)
    ensures |bs| == |links|
  {
    seq(|links|, j => 0 <= j < |links| && ListingMatch(links[j], name))
  }

  /** The position of the first matching listing link, `|links|` when there
      is none. */
  function FirstListingMatch(links: seq<Link>, name: string): (p: nat)
    ensures p <= |links|
    ensures p < |links| ==> ListingMatch(links[p], name)
    ensures forall j :: 0 <= j < p ==> !ListingMatch(links[j], name)
  {
    var bs := ListingMatches(links, name);
    var p := FirstTrue(bs, 0);
    assert forall j :: 0 <= j < |links| ==> bs[j] == ListingMatch(links[j], name);
    p
  }

  /** The URL the listing search fetches for a link. */
  function ListingUrl(href: string, keepsAbsolute: bool): string {
    if keepsAbsolute && StartsWith(href, "http") then href else SiteRoot + href
  }

  /** The cache after the listing search found link `l`: the query's key,
      then the link text's key when asked. */
  function ListingWrites(cache: Cache, name: string, l: Link, cachesLinkText: bool): (r: Cache)
    ensures r.Keys == cache.Keys + {CacheKey(name)} + (if cachesLinkText then {CacheKey(Trim(l.text))} else {})
    ensures r[CacheKey(name)] == DashIdOrEmpty(l.href)
    ensures cachesLinkText ==> r[CacheKey(Trim(l.text))] == DashIdOrEmpty(l.href)
    ensures forall k :: k in cache && k != CacheKey(name) && (!cachesLinkText || k != CacheKey(Trim(l.text))) ==>
              r[k] == cache[k]
  {
    PutTwo(cache, CacheKey(name), CacheKey(Trim(l.text)), DashIdOrEmpty(l.href), cachesLinkText)
  }

  /** The listing search: fetch the listing (a failure is nothing), stop at
      the first matching link, write the cache, then fetch the ship page
      (a failure is nothing, the writes stay). No validation. */
  function ListingStep(ctx: Ctx, cachesLinkText: bool, keepsAbsolute: bool, name: string, cache: Cache): (o: Outcome)
    ensures |o.fetched| > 0 && o.fetched[0] == ShipsListingUrl
    ensures !o.result.Aborted?
    ensures o.result.Hit? ==> o.fetched == [ShipsListingUrl, o.result.found.url]
                              && ctx.fetch(o.result.found.url) == Some(o.result.found.doc)
    ensures NumericCache(cache) ==> NumericCache(o.cache)
  {
    match ctx.fetch(ShipsListingUrl)
    case None => Outcome(Miss, cache, [ShipsListingUrl])
    case Some(d) =>
      var k := FirstListingMatch(d.shipLinks, name);
      if k == |d.shipLinks| then Outcome(Miss, cache, [ShipsListingUrl])
      else
        var l := d.shipLinks[k];
        var url := ListingUrl(l.href, keepsAbsolute);
        var c := ListingWrites(cache, name, l, cachesLinkText);
        ListingWritesNumeric(cache, name, l, cachesLinkText);
        match ctx.fetch(url)
        case None => Outcome(Miss, c, [ShipsListingUrl, url])
        case Some(p) => Outcome(Hit(Found(p, url)), c, [ShipsListingUrl, url])
  }

  // ---------------------------------------------------------------------
  // Browser search
  // ---------------------------------------------------------------------

  /** The cache after the browser search found a ship: both keys, and only
      for an id other than `'unknown'`. */
  function SearchWrites(cache: Cache, name: string, f: FoundShip): (r: Cache)
    ensures f.id == Unknown ==> r == cache
    ensures f.id != Unknown && f.id != "" ==>
              && r.Keys == cache.Keys + {CacheKey(name), CacheKey(f.name)}
              && r[CacheKey(name)] == f.id && r[CacheKey(f.name)] == f.id
              && forall k :: k in cache && k != CacheKey(name) && k != CacheKey(f.name) ==> r[k] == cache[k]
  {
    if f.id != "" && f.id != Unknown then PutTwo(cache, CacheKey(name), CacheKey(f.name), f.id, true)
    else cache
  }

  /** The browser search strategy: write the cache, fetch the found URL
      (a failure escapes the handler), return the page if it validates. */
  function BrowserStep(ctx: Ctx, name: string, cache: Cache): (o: Outcome)
    ensures o.result.Hit? ==> Valid(o.result.found.doc, name)
                              && ctx.fetch(o.result.found.url) == Some(o.result.found.doc)
                              && o.fetched == [o.result.found.url]
    ensures IsRender(ctx.env) ==> o == Outcome(Miss, cache, [])
    ensures NumericCache(cache) ==> NumericCache(o.cache)
  {
    match SearchShip(ctx.search, ctx.env, name)
    case None => Outcome(Miss, cache, [])
    case Some(f) =>
      SearchWritesNumeric(cache, name, f);
      var c := SearchWrites(cache, name, f);
      match ctx.fetch(f.url)
      case None => Outcome(Aborted, c, [f.url])
      case Some(d) => Outcome(if Valid(d, name) then Hit(Found(d, f.url)) else Miss, c, [f.url])
  }

  // ---------------------------------------------------------------------
  // Id sweep
  // ---------------------------------------------------------------------

  /** `<slug>-<id>` is accepted by the sweep: it fetches and, if asked,
      validates. */
  predicate SweepAccepts(ctx: Ctx, name: string, id: string, validates: bool) {
    ctx.fetch(ShipUrl(name, id)).Some? && (!validates || Valid(ctx.fetch(ShipUrl(name, id)).value, name))
  }

  /** Reference: the position of the first accepted id, `|ids|` when there
      is none. */
  function FirstAccepted(ctx: Ctx, name: string, ids: seq<string>, validates: bool): (k: nat)
    ensures k <= |ids|
    ensures k < |ids| ==> SweepAccepts(ctx, name, ids[k], validates)
    ensures forall j :: 0 <= j < k ==> !SweepAccepts(ctx, name, ids[j], validates)
    decreases |ids|
  {
    if ids == [] then 0
    else if SweepAccepts(ctx, name, ids[0], validates) then 0
    else
      var k := FirstAccepted(ctx, name, ids[1..], validates);
      assert forall j :: 1 <= j < |ids| ==> ids[j] == ids[1..][j - 1];
      k + 1
  }

  /** The URLs of the given ids. */
  function SweepUrls(name: string, ids: seq<string>): (us: seq<string>)
    ensures |us| == |ids|
    ensures forall i :: 0 <= i < |us| ==> us[i] == ShipUrl(name, ids[i])
  {
    if ids == [] then [] else [ShipUrl(name, ids[0])] + SweepUrls(name, ids[1..])
  }

  /** The id sweep: try each id in order, skip failed fetches (and pages
      that fail validation when asked), and on the first accepted id cache
      it under the lowercased name when asked and return the page. */
  function SweepStep(ctx: Ctx, ids: seq<string>, validates: bool, caches: bool, name: string, cache: Cache): (o: Outcome)
    ensures !o.result.Aborted?
    ensures o.result.Hit? ==> ctx.fetch(o.result.found.url) == Some(o.result.found.doc)
                              && (validates ==> Valid(o.result.found.doc, name))
    decreases |ids|
  {
    if ids == [] then Outcome(Miss, cache, [])
    else
      var url := ShipUrl(name, ids[0]);
      if SweepAccepts(ctx, name, ids[0], validates) then
        Outcome(Hit(Found(ctx.fetch(url).value, url)), if caches then cache[CacheKey(name) := ids[0]] else cache, [url])
      else
        var rest := SweepStep(ctx, ids[1..], validates, caches, name, cache);
        Outcome(rest.result, rest.cache, [url] + rest.fetched)
  }

  /** With no accepted id the sweep comes back empty, having fetched every
      URL, and leaves the cache alone. */
  lemma {:induction false} SweepMiss(ctx: Ctx, ids: seq<string>, validates: bool, caches: bool, name: string, cache: Cache)
    requires FirstAccepted(ctx, name, ids, validates) == |ids|
    ensures SweepStep(ctx, ids, validates, caches, name, cache) == Outcome(Miss, cache, SweepUrls(name, ids))
    decreases |ids|
  {
    if ids != [] {
      SweepMiss(ctx, ids[1..], validates, caches, name, cache);
    }
  }

  /** The sweep returns the page of the first accepted id and caches that
      id under the lowercased name exactly when it caches. */
  lemma {:induction false} SweepHit(ctx: Ctx, ids: seq<string>, validates: bool, caches: bool, name: string, cache: Cache)
    requires FirstAccepted(ctx, name, ids, validates) < |ids|
    ensures SweepStep(ctx, ids, validates, caches, name, cache).result ==
              Hit(Found(ctx.fetch(ShipUrl(name, ids[FirstAccepted(ctx, name, ids, validates)])).value,
                        ShipUrl(name, ids[FirstAccepted(ctx, name, ids, validates)])))
    ensures SweepStep(ctx, ids, validates, caches, name, cache).cache ==
              if caches then cache[CacheKey(name) := ids[FirstAccepted(ctx, name, ids, validates)]] else cache
    decreases |ids|
  {
    if !SweepAccepts(ctx, name, ids[0], validates) {
      SweepHit(ctx, ids[1..], validates, caches, name, cache);
      assert ids[1..][FirstAccepted(ctx, name, ids[1..], validates)] == ids[FirstAccepted(ctx, name, ids, validates)];
    }
  }

  /** A sweep that finds an id has fetched exactly the URLs up to it. */
  lemma {:induction false} SweepTrace(ctx: Ctx, ids: seq<string>, validates: bool, caches: bool, name: string, cache: Cache)
    requires FirstAccepted(ctx, name, ids, validates) < |ids|
    ensures SweepStep(ctx, ids, validates, caches, name, cache).fetched ==
              SweepUrls(name, ids[..FirstAccepted(ctx, name, ids, validates) + 1])
    decreases |ids|
  {
    var k := FirstAccepted(ctx, name, ids, validates);
    var pre := ids[..k + 1];
    var url := ShipUrl(name, ids[0]);
    assert SweepUrls(name, pre) == [url] + SweepUrls(name, pre[1..]);
    if k > 0 {
      assert FirstAccepted(ctx, name, ids[1..], validates) == k - 1;
      SweepTrace(ctx, ids[1..], validates, caches, name, cache);
      assert ids[1..][..k] == pre[1..];
      assert SweepStep(ctx, ids, validates, caches, name, cache).fetched ==
             [url] + SweepStep(ctx, ids[1..], validates, caches, name, cache).fetched;
    } else {
      assert pre[1..] == [];
    }
  }

  // ---------------------------------------------------------------------
  // Bare slug
  // ---------------------------------------------------------------------

  /** The slug without an id, returned when it fetches. */
  function BareStep(ctx: Ctx, name: string, cache: Cache): (o: Outcome)
    ensures o.cache == cache && o.fetched == [BareShipUrl(name)]
    ensures o.result.Hit? <==> ctx.fetch(BareShipUrl(name)).Some?
    ensures o.result.Hit? ==> o.result.found == Found(ctx.fetch(BareShipUrl(name)).value, BareShipUrl(name))
  {
    var url := BareShipUrl(name);
    match ctx.fetch(url)
    case None => Outcome(Miss, cache, [url])
    case Some(d) => Outcome(Hit(Found(d, url)), cache, [url])
  }

  // ---------------------------------------------------------------------
  // The chain
  // ---------------------------------------------------------------------

  function RunStrategy(ctx: Ctx, s: Strategy, name: string, cache: Cache): (o: Outcome)
    ensures o.result.Hit? ==> ctx.fetch(o.result.found.url) == Some(o.result.found.doc)
    ensures o.result.Hit? && Validates(s) ==> Valid(o.result.found.doc, name)
    ensures o.result.Aborted? ==> s.BrowserSearch?
  {
    match s
    case CachedId(v) => CachedStep(ctx, v, name, cache)
    case ListingSearch(t, a) => ListingStep(ctx, t, a, name, cache)
    case BrowserSearch => BrowserStep(ctx, name, cache)
    case IdSweep(ids, v, c) => SweepStep(ctx, ids, v, c, name, cache)
    case BareSlug => BareStep(ctx, name, cache)
  }

  /** The strategy loop: run each strategy in order on the cache the
      previous ones left, and stop at the first that does not come back
      empty. */
  function RunChain(ctx: Ctx, chain: seq<Strategy>, name: string, cache: Cache): (o: Outcome)
    ensures o.result.Hit? ==> ctx.fetch(o.result.found.url) == Some(o.result.found.doc)
    ensures o.result.Hit? && (forall i :: 0 <= i < |chain| ==> Validates(chain[i])) ==> Valid(o.result.found.doc, name)
    ensures o.result.Aborted? ==> exists i :: 0 <= i < |chain| && chain[i].BrowserSearch?
    decreases |chain|
  {
    if chain == [] then Outcome(Miss, cache, [])
    else
      var first := RunStrategy(ctx, chain[0], name, cache);
      if first.result.Miss? then
        var rest := RunChain(ctx, chain[1..], name, first.cache);
        assert forall i :: 1 <= i < |chain| ==> chain[i] == chain[1..][i - 1];
        Outcome(rest.result, rest.cache, first.fetched + rest.fetched)
      else first
  }

  /** Running two chains back to back is running their concatenation: the
      second is consulted only when the first comes back empty, and then on
      the cache the first left. */
  lemma {:induction false} ChainAppend(ctx: Ctx, a: seq<Strategy>, b: seq<Strategy>, name: string, cache: Cache)
    ensures var ra := RunChain(ctx, a, name, cache);
            RunChain(ctx, a + b, name, cache) ==
              if ra.result.Miss? then
                Outcome(RunChain(ctx, b, name, ra.cache).result, RunChain(ctx, b, name, ra.cache).cache,
                        ra.fetched + RunChain(ctx, b, name, ra.cache).fetched)
              else ra
    decreases |a|
  {
    if a == [] {
      assert a + b == b;
    } else {
      assert (a + b)[0] == a[0];
      assert (a + b)[1..] == a[1..] + b;
      var first := RunStrategy(ctx, a[0], name, cache);
      if first.result.Miss? {
        ChainAppend(ctx, a[1..], b, name, first.cache);
        var tail := RunChain(ctx, a[1..], name, first.cache);
        if tail.result.Miss? {
          var rb := RunChain(ctx, b, name, tail.cache);
          FetchedAssoc(first.fetched, tail.fetched, rb.fetched);
        }
      }
    }
  }

  /** Concatenating fetch lists is associative. */
  lemma FetchedAssoc(x: seq<string>, y: seq<string>, z: seq<string>)
    ensures x + (y + z) == (x + y) + z
  {
  }

  /** A strategy that yields a page ends the chain: nothing after it runs. */
  lemma FirstHitWins(ctx: Ctx, s: Strategy, rest: seq<Strategy>, name: string, cache: Cache)
    requires !RunStrategy(ctx, s, name, cache).result.Miss?
    ensures RunChain(ctx, [s] + rest, name, cache) == RunStrategy(ctx, s, name, cache)
  {
    assert ([s] + rest)[0] == s;
  }

  /** A strategy that comes back empty hands over to the rest of the chain,
      on the cache it left. */
  lemma MissThenRest(ctx: Ctx, s: Strategy, rest: seq<Strategy>, name: string, cache: Cache)
    requires RunStrategy(ctx, s, name, cache).result.Miss?
    ensures RunChain(ctx, [s] + rest, name, cache) ==
              Outcome(RunChain(ctx, rest, name, RunStrategy(ctx, s, name, cache).cache).result,
                      RunChain(ctx, rest, name, RunStrategy(ctx, s, name, cache).cache).cache,
                      RunStrategy(ctx, s, name, cache).fetched
                        + RunChain(ctx, rest, name, RunStrategy(ctx, s, name, cache).cache).fetched)
  {
    assert ([s] + rest)[0] == s && ([s] + rest)[1..] == rest;
  }

  /** A strategy that misses without fetching or writing anything leaves
      the chain to the rest. */
  lemma SilentMiss(ctx: Ctx, s: Strategy, rest: seq<Strategy>, name: string, cache: Cache)
    requires RunStrategy(ctx, s, name, cache) == Outcome(Miss, cache, [])
    ensures RunChain(ctx, [s] + rest, name, cache) == RunChain(ctx, rest, name, cache)
  {
    MissThenRest(ctx, s, rest, name, cache);
    assert [] + RunChain(ctx, rest, name, cache).fetched == RunChain(ctx, rest, name, cache).fetched;
  }

  /** Every strategy of the chain checks the page. */
  predicate AllValidate(chain: seq<Strategy>) {
    forall i :: 0 <= i < |chain| ==> Validates(chain[i])
  }

  // ---------------------------------------------------------------------
  // The servers' chains
  // ---------------------------------------------------------------------

  /** The fixed server's `commonIds`. */
  const FixedIds: seq<string> := ["737", "734", "735", "736", "738", "739", "740", "741", "742",
                                  "1000", "1001", "1002", "1003", "1004", "1005", "1006", "1007",
                                  "1008", "1009", "1010"]

  /** The older enhanced server's `commonIds` in `handleShipSchedule`. */
  const OldScheduleIds: seq<string> := ["542", "737", "734", "735", "736", "738", "739", "740", "741", "742"]

  /** The older enhanced server's `commonIds` in `handleShipFullDetails`. */
  const OldDetailsIds: seq<string> := ["542", "737", "734", "735", "736", "738", "739", "740", "741", "742",
                                       "1000", "1001", "1002"]

  /** The fixed `handleShipSchedule`: validated cached id, browser search,
      validated sweep. */
  const FixedScheduleChain: seq<Strategy> := [CachedId(true), BrowserSearch, IdSweep(FixedIds, true, true)]

  /** The fixed `handleShipFullDetails`: unvalidated cached id, listing
      search writing both keys and keeping absolute hrefs, validated sweep,
      bare slug. */
  const FixedDetailsChain: seq<Strategy> :=
    [CachedId(false), ListingSearch(true, true), IdSweep(FixedIds, true, true), BareSlug]

  /** The older `handleShipSchedule`: nothing validates; the listing search
      writes the query key only. */
  const OldScheduleChain: seq<Strategy> :=
    [CachedId(false), ListingSearch(false, false), IdSweep(OldScheduleIds, false, true)]

  /** The older `handleShipFullDetails`: nothing validates; the listing
      search writes both keys. */
  const OldDetailsChain: seq<Strategy> :=
    [CachedId(false), ListingSearch(true, false), IdSweep(OldDetailsIds, false, true), BareSlug]

  /** The plain server's `handleShipSchedule`: `<slug>-542`, then `<slug>`,
      with no cache. */
  const PlainScheduleChain: seq<Strategy> := [IdSweep(["542"], false, false), BareSlug]

  /** The fixed schedule handler only ever returns a page that passed
      `validateShipPage`. */
  lemma FixedScheduleValidated(ctx: Ctx, name: string, cache: Cache)
    ensures RunChain(ctx, FixedScheduleChain, name, cache).result.Hit? ==>
              Valid(RunChain(ctx, FixedScheduleChain, name, cache).result.found.doc, name)
  {
    var c := FixedScheduleChain;
    forall i | 0 <= i < |c|
      ensures Validates(c[i])
    {
      if i == 0 {} else if i == 1 {} else {}
    }
  }

  /** The fixed details handler returns the cached id's page even when it
      fails validation: only its sweep validates. */
  lemma FixedDetailsTrustsCache(ctx: Ctx, name: string, cache: Cache)
    requires CacheKey(name) in cache && cache[CacheKey(name)] != ""
    requires ctx.fetch(ShipUrl(name, cache[CacheKey(name)])).Some?
    ensures RunChain(ctx, FixedDetailsChain, name, cache) ==
              Outcome(Hit(Found(ctx.fetch(ShipUrl(name, cache[CacheKey(name)])).value, ShipUrl(name, cache[CacheKey(name)]))),
                      cache, [ShipUrl(name, cache[CacheKey(name)])])
  {
    FirstHitWins(ctx, CachedId(false), FixedDetailsChain[1..], name, cache);
    assert FixedDetailsChain == [CachedId(false)] + FixedDetailsChain[1..];
  }

  /** A cached-id, listing, sweep chain, followed by anything, with no
      cached id and no listing, returns the page of the first id the sweep
      accepts and caches that id; what follows the sweep never runs. */
  lemma SweepWinsAfterCacheAndListing(ctx: Ctx, cv: bool, t: bool, a: bool, ids: seq<string>, v: bool,
                                      rest: seq<Strategy>, name: string, cache: Cache)
    requires CacheKey(name) !in cache && ctx.fetch(ShipsListingUrl).None?
    requires FirstAccepted(ctx, name, ids, v) < |ids|
    ensures RunChain(ctx, [CachedId(cv), ListingSearch(t, a), IdSweep(ids, v, true)] + rest, name, cache).result ==
              Hit(Found(ctx.fetch(ShipUrl(name, ids[FirstAccepted(ctx, name, ids, v)])).value,
                        ShipUrl(name, ids[FirstAccepted(ctx, name, ids, v)])))
    ensures RunChain(ctx, [CachedId(cv), ListingSearch(t, a), IdSweep(ids, v, true)] + rest, name, cache).cache ==
              cache[CacheKey(name) := ids[FirstAccepted(ctx, name, ids, v)]]
  {
    var sweep := IdSweep(ids, v, true);
    SweepHit(ctx, ids, v, true, name, cache);
    FirstHitWins(ctx, sweep, rest, name, cache);
    MissThenRest(ctx, ListingSearch(t, a), [sweep] + rest, name, cache);
    MissThenRest(ctx, CachedId(cv), [ListingSearch(t, a)] + ([sweep] + rest), name, cache);
    assert [CachedId(cv), ListingSearch(t, a), sweep] + rest == [CachedId(cv)] + ([ListingSearch(t, a)] + ([sweep] + rest));
  }

  /** In the fixed details handler, with no cached id and no listing, the
      page is that of the first id of `737, 734, …` whose page fetches and
      validates, and that id is cached; the bare slug is not tried. */
  lemma FixedDetailsSweepValidated(ctx: Ctx, name: string, cache: Cache)
    requires CacheKey(name) !in cache && ctx.fetch(ShipsListingUrl).None?
    requires FirstAccepted(ctx, name, FixedIds, true) < |FixedIds|
    ensures RunChain(ctx, FixedDetailsChain, name, cache).result ==
              Hit(Found(ctx.fetch(ShipUrl(name, FixedIds[FirstAccepted(ctx, name, FixedIds, true)])).value,
                        ShipUrl(name, FixedIds[FirstAccepted(ctx, name, FixedIds, true)])))
    ensures Valid(RunChain(ctx, FixedDetailsChain, name, cache).result.found.doc, name)
    ensures RunChain(ctx, FixedDetailsChain, name, cache).cache ==
              cache[CacheKey(name) := FixedIds[FirstAccepted(ctx, name, FixedIds, true)]]
  {
    SweepWinsAfterCacheAndListing(ctx, false, true, true, FixedIds, true, [BareSlug], name, cache);
    assert FixedDetailsChain == [CachedId(false), ListingSearch(true, true), IdSweep(FixedIds, true, true)] + [BareSlug];
  }

  /** In the older schedule handler, with no cached id and no listing, the
      sweep returns the first id of `542, 737, …` whose page merely
      fetches, and caches it. */
  lemma OldScheduleSweepUnvalidated(ctx: Ctx, name: string, cache: Cache)
    requires CacheKey(name) !in cache && ctx.fetch(ShipsListingUrl).None?
    requires FirstAccepted(ctx, name, OldScheduleIds, false) < |OldScheduleIds|
    ensures RunChain(ctx, OldScheduleChain, name, cache).result ==
              Hit(Found(ctx.fetch(ShipUrl(name, OldScheduleIds[FirstAccepted(ctx, name, OldScheduleIds, false)])).value,
                        ShipUrl(name, OldScheduleIds[FirstAccepted(ctx, name, OldScheduleIds, false)])))
    ensures RunChain(ctx, OldScheduleChain, name, cache).cache ==
              cache[CacheKey(name) := OldScheduleIds[FirstAccepted(ctx, name, OldScheduleIds, false)]]
  {
    SweepWinsAfterCacheAndListing(ctx, false, false, false, OldScheduleIds, false, [], name, cache);
    assert OldScheduleChain + [] == OldScheduleChain;
  }

  /** The plain server returns `<slug>-542` when it fetches, else `<slug>`
      when that fetches, else nothing; it never writes the cache. */
  lemma PlainScheduleUrls(ctx: Ctx, name: string, cache: Cache)
    ensures var o := RunChain(ctx, PlainScheduleChain, name, cache);
            && o.cache == cache
            && (ctx.fetch(ShipUrl(name, "542")).Some? ==>
                  o.result == Hit(Found(ctx.fetch(ShipUrl(name, "542")).value, ShipUrl(name, "542")))
                  && o.fetched == [ShipUrl(name, "542")])
            && (ctx.fetch(ShipUrl(name, "542")).None? ==>
                  o.fetched == [ShipUrl(name, "542"), BareShipUrl(name)]
                  && (o.result.Hit? <==> ctx.fetch(BareShipUrl(name)).Some?)
                  && (o.result.Hit? ==> o.result.found.url == BareShipUrl(name)))
  {
    var sweep := IdSweep(["542"], false, false);
    assert PlainScheduleChain == [sweep] + [BareSlug];
    assert ["542"][0] == "542" && ["542"][1..] == [];
    if ctx.fetch(ShipUrl(name, "542")).Some? {
      FirstHitWins(ctx, sweep, [BareSlug], name, cache);
    } else {
      MissThenRest(ctx, sweep, [BareSlug], name, cache);
      assert [BareSlug] == [BareSlug] + [];
      if ctx.fetch(BareShipUrl(name)).Some? {
        FirstHitWins(ctx, BareSlug, [], name, cache);
      } else {
        MissThenRest(ctx, BareSlug, [], name, cache);
      }
    }
  }

  /** A strategy that comes back empty without fetching or writing anything
      can be dropped from the chain. */
  lemma DropIdle(ctx: Ctx, s: Strategy, rest: seq<Strategy>, name: string, cache: Cache)
    requires RunStrategy(ctx, s, name, cache) == Outcome(Miss, cache, [])
    ensures RunChain(ctx, [s] + rest, name, cache) == RunChain(ctx, rest, name, cache)
  {
    MissThenRest(ctx, s, rest, name, cache);
    assert [] + RunChain(ctx, rest, name, cache).fetched == RunChain(ctx, rest, name, cache).fetched;
  }

  /** Chains that agree after their common first strategy agree. */
  lemma SameTail(ctx: Ctx, s: Strategy, r1: seq<Strategy>, r2: seq<Strategy>, name: string, cache: Cache)
    requires RunChain(ctx, r1, name, RunStrategy(ctx, s, name, cache).cache) ==
             RunChain(ctx, r2, name, RunStrategy(ctx, s, name, cache).cache)
    ensures RunChain(ctx, [s] + r1, name, cache) == RunChain(ctx, [s] + r2, name, cache)
  {
    assert ([s] + r1)[0] == s && ([s] + r1)[1..] == r1;
    assert ([s] + r2)[0] == s && ([s] + r2)[1..] == r2;
  }

  /** On Render the fixed schedule handler's browser search is skipped:
      the chain is the cached id followed by the sweep, and it never
      aborts. */
  lemma FixedScheduleOnRender(ctx: Ctx, name: string, cache: Cache)
    requires IsRender(ctx.env)
    ensures RunChain(ctx, FixedScheduleChain, name, cache) ==
              RunChain(ctx, [CachedId(true), IdSweep(FixedIds, true, true)], name, cache)
    ensures !RunChain(ctx, FixedScheduleChain, name, cache).result.Aborted?
  {
    var sweep := IdSweep(FixedIds, true, true);
    var c1 := RunStrategy(ctx, CachedId(true), name, cache).cache;
    DropIdle(ctx, BrowserSearch, [sweep], name, c1);
    SameTail(ctx, CachedId(true), [BrowserSearch] + [sweep], [sweep], name, cache);
    assert FixedScheduleChain == [CachedId(true)] + ([BrowserSearch] + [sweep]);
    assert [CachedId(true), sweep] == [CachedId(true)] + [sweep];
  }

  /** On Render, with nothing cached for the name, the fixed schedule
      handler's page is that of the first id of `737, 734, …` whose page
      fetches and validates, and that id is cached. */
  lemma FixedScheduleSweepOnRender(ctx: Ctx, name: string, cache: Cache)
    requires IsRender(ctx.env) && CacheKey(name) !in cache
    requires FirstAccepted(ctx, name, FixedIds, true) < |FixedIds|
    ensures RunChain(ctx, FixedScheduleChain, name, cache).result ==
              Hit(Found(ctx.fetch(ShipUrl(name, FixedIds[FirstAccepted(ctx, name, FixedIds, true)])).value,
                        ShipUrl(name, FixedIds[FirstAccepted(ctx, name, FixedIds, true)])))
    ensures RunChain(ctx, FixedScheduleChain, name, cache).cache ==
              cache[CacheKey(name) := FixedIds[FirstAccepted(ctx, name, FixedIds, true)]]
  {
    FixedScheduleOnRender(ctx, name, cache);
    SweepAfterCachedMiss(ctx, FixedIds, name, cache);
  }

  /** With nothing cached for the name, a validated, caching sweep after
      the cache lookup yields the page of its first accepted id and caches
      that id. */
  lemma SweepAfterCachedMiss(ctx: Ctx, ids: seq<string>, name: string, cache: Cache)
    requires CacheKey(name) !in cache
    requires FirstAccepted(ctx, name, ids, true) < |ids|
    ensures RunChain(ctx, [CachedId(true), IdSweep(ids, true, true)], name, cache).result ==
              Hit(Found(ctx.fetch(ShipUrl(name, ids[FirstAccepted(ctx, name, ids, true)])).value,
                        ShipUrl(name, ids[FirstAccepted(ctx, name, ids, true)])))
    ensures RunChain(ctx, [CachedId(true), IdSweep(ids, true, true)], name, cache).cache ==
              cache[CacheKey(name) := ids[FirstAccepted(ctx, name, ids, true)]]
  {
    var sweep := IdSweep(ids, true, true);
    SweepHit(ctx, ids, true, true, name, cache);
    assert RunStrategy(ctx, CachedId(true), name, cache) == Outcome(Miss, cache, []);
    assert [CachedId(true), sweep] == [CachedId(true)] + [sweep];
    SilentMiss(ctx, CachedId(true), [sweep], name, cache);
    assert [sweep] + [] == [sweep];
    FirstHitWins(ctx, sweep, [], name, cache);
  }

  // ---------------------------------------------------------------------
  // Cache writes
  // ---------------------------------------------------------------------

  /** The listing search writes the cache as soon as it finds its link:
      a ship page that then fails to fetch leaves the writes in place. */
  lemma ListingWritesBeforeFetch(ctx: Ctx, t: bool, a: bool, name: string, cache: Cache, d: Doc)
    requires ctx.fetch(ShipsListingUrl) == Some(d)
    requires FirstListingMatch(d.shipLinks, name) < |d.shipLinks|
    ensures ListingStep(ctx, t, a, name, cache).cache ==
              ListingWrites(cache, name, d.shipLinks[FirstListingMatch(d.shipLinks, name)], t)
    ensures ctx.fetch(ListingUrl(d.shipLinks[FirstListingMatch(d.shipLinks, name)].href, a)).None? ==>
              ListingStep(ctx, t, a, name, cache).result.Miss?
  {
    var l := d.shipLinks[FirstListingMatch(d.shipLinks, name)];
    var url := ListingUrl(l.href, a);
    var c := ListingWrites(cache, name, l, t);
    assert ListingStep(ctx, t, a, name, cache) ==
           if ctx.fetch(url).None? then Outcome(Miss, c, [ShipsListingUrl, url])
           else Outcome(Hit(Found(ctx.fetch(url).value, url)), c, [ShipsListingUrl, url]);
  }

  /** A listing search that finds nothing, or cannot fetch the listing,
      leaves the cache alone. */
  lemma ListingNoMatchNoWrites(ctx: Ctx, t: bool, a: bool, name: string, cache: Cache)
    requires ctx.fetch(ShipsListingUrl).None?
             || FirstListingMatch(ctx.fetch(ShipsListingUrl).value.shipLinks, name) == |ctx.fetch(ShipsListingUrl).value.shipLinks|
    ensures ListingStep(ctx, t, a, name, cache) == Outcome(Miss, cache, [ShipsListingUrl])
  {
  }

  /** In the fixed schedule handler, off Render and with no cached id, a
      browser search whose page then fails to fetch aborts the handler:
      the sweep never runs and the browser search's writes stay. */
  lemma BrowserFetchFailureAborts(ctx: Ctx, name: string, cache: Cache)
    requires CacheKey(name) !in cache
    requires SearchShip(ctx.search, ctx.env, name).Some?
    requires ctx.fetch(SearchShip(ctx.search, ctx.env, name).value.url).None?
    ensures RunChain(ctx, FixedScheduleChain, name, cache) ==
              Outcome(Aborted, SearchWrites(cache, name, SearchShip(ctx.search, ctx.env, name).value),
                      [SearchShip(ctx.search, ctx.env, name).value.url])
  {
    var rest := [IdSweep(FixedIds, true, true)];
    AbortAfterCachedMiss(ctx, rest, name, cache);
    assert FixedScheduleChain == [CachedId(true), BrowserSearch] + rest;
  }

  /** With no cached id, a browser search right after the cache lookup
      whose page fails to fetch aborts whatever chain follows. */
  lemma AbortAfterCachedMiss(ctx: Ctx, rest: seq<Strategy>, name: string, cache: Cache)
    requires CacheKey(name) !in cache
    requires SearchShip(ctx.search, ctx.env, name).Some?
    requires ctx.fetch(SearchShip(ctx.search, ctx.env, name).value.url).None?
    ensures RunChain(ctx, [CachedId(true), BrowserSearch] + rest, name, cache) ==
              Outcome(Aborted, SearchWrites(cache, name, SearchShip(ctx.search, ctx.env, name).value),
                      [SearchShip(ctx.search, ctx.env, name).value.url])
  {
    var b := [BrowserSearch] + rest;
    assert [CachedId(true), BrowserSearch] + rest == [CachedId(true)] + b;
    assert RunStrategy(ctx, CachedId(true), name, cache) == Outcome(Miss, cache, []);
    SilentMiss(ctx, CachedId(true), b, name, cache);
    SearchFetchFails(ctx, name, cache);
    FirstHitWins(ctx, BrowserSearch, rest, name, cache);
  }

  /** A browser search whose page fails to fetch aborts after its writes. */
  lemma SearchFetchFails(ctx: Ctx, name: string, cache: Cache)
    requires SearchShip(ctx.search, ctx.env, name).Some?
    requires ctx.fetch(SearchShip(ctx.search, ctx.env, name).value.url).None?
    ensures RunStrategy(ctx, BrowserSearch, name, cache) ==
              Outcome(Aborted, SearchWrites(cache, name, SearchShip(ctx.search, ctx.env, name).value),
                      [SearchShip(ctx.search, ctx.env, name).value.url])
  {
  }

  /** Every id of every sweep in the chain is numeric. */
  predicate NumericSweeps(chain: seq<Strategy>) {
    forall i :: 0 <= i < |chain| && chain[i].IdSweep? ==>
      forall j :: 0 <= j < |chain[i].ids| ==> NumericId(chain[i].ids[j])
  }

  /** The writes of a matched link keep the cache numeric. */
  lemma ListingWritesNumeric(cache: Cache, name: string, l: Link, t: bool)
    requires DashIdOrEmpty(l.href) != ""
    ensures NumericCache(cache) ==> NumericCache(ListingWrites(cache, name, l, t))
  {
    assert NumericId(DashIdOrEmpty(l.href));
  }

  /** Recording a search result keeps the cache numeric. */
  lemma SearchWritesNumeric(cache: Cache, name: string, f: FoundShip)
    requires f.id == Unknown || (|f.id| > 0 && AllDigits(f.id))
    ensures NumericCache(cache) ==> NumericCache(SearchWrites(cache, name, f))
  {
  }

  /** A sweep over numeric ids only caches a numeric id. */
  lemma SweepKeepsNumeric(ctx: Ctx, ids: seq<string>, v: bool, c: bool, name: string, cache: Cache)
    requires NumericCache(cache)
    requires forall j :: 0 <= j < |ids| ==> NumericId(ids[j])
    ensures NumericCache(SweepStep(ctx, ids, v, c, name, cache).cache)
  {
    if FirstAccepted(ctx, name, ids, v) < |ids| {
      SweepHit(ctx, ids, v, c, name, cache);
    } else {
      SweepMiss(ctx, ids, v, c, name, cache);
    }
  }

  /** A strategy only ever caches numeric ids. */
  lemma StrategyKeepsNumeric(ctx: Ctx, s: Strategy, name: string, cache: Cache)
    requires NumericCache(cache)
    requires s.IdSweep? ==> forall j :: 0 <= j < |s.ids| ==> NumericId(s.ids[j])
    ensures NumericCache(RunStrategy(ctx, s, name, cache).cache)
  {
    match s
    case IdSweep(ids, v, c) => SweepKeepsNumeric(ctx, ids, v, c, name, cache);
    case ListingSearch(_, _) =>
    case BrowserSearch =>
    case CachedId(_) =>
    case BareSlug =>
  }

  /** The chain only ever caches numeric ids when its sweeps' ids are. */
  lemma {:induction false} ChainKeepsNumeric(ctx: Ctx, chain: seq<Strategy>, name: string, cache: Cache)
    requires NumericCache(cache) && NumericSweeps(chain)
    ensures NumericCache(RunChain(ctx, chain, name, cache).cache)
    decreases |chain|
  {
    if chain != [] {
      StrategyKeepsNumeric(ctx, chain[0], name, cache);
      var first := RunStrategy(ctx, chain[0], name, cache);
      if first.result.Miss? {
        assert forall i :: 0 <= i < |chain[1..]| ==> chain[1..][i] == chain[i + 1];
        ChainKeepsNumeric(ctx, chain[1..], name, first.cache);
      }
    }
  }

  lemma ThreeDigitId(id: string)
    requires |id| == 3 && IsDigit(id[0]) && IsDigit(id[1]) && IsDigit(id[2])
    ensures NumericId(id)
  {
  }

  lemma FourDigitId(id: string)
    requires |id| == 4 && IsDigit(id[0]) && IsDigit(id[1]) && IsDigit(id[2]) && IsDigit(id[3])
    ensures NumericId(id)
  {
  }

  /** Every id the servers' sweeps try is numeric. */
  lemma ServerIdsNumeric()
    ensures forall j :: 0 <= j < |FixedIds| ==> NumericId(FixedIds[j])
    ensures forall j :: 0 <= j < |OldDetailsIds| ==> NumericId(OldDetailsIds[j])
    ensures OldScheduleIds == OldDetailsIds[..10]
  {
    forall j | 0 <= j < |FixedIds| ensures NumericId(FixedIds[j]) {
      if j < 9 { ThreeDigitId(FixedIds[j]); } else { FourDigitId(FixedIds[j]); }
    }
    forall j | 0 <= j < |OldDetailsIds| ensures NumericId(OldDetailsIds[j]) {
      if j < 10 { ThreeDigitId(OldDetailsIds[j]); } else { FourDigitId(OldDetailsIds[j]); }
    }
  }

  /** The servers' chains only ever cache numeric ids. */
  lemma ServerChainsNumeric()
    ensures NumericSweeps(FixedScheduleChain) && NumericSweeps(FixedDetailsChain)
    ensures NumericSweeps(OldScheduleChain) && NumericSweeps(OldDetailsChain) && NumericSweeps(PlainScheduleChain)
  {
    ServerIdsNumeric();
    ThreeDigitId("542");
  }
}

=== FILE: document.dfy ===
/** The parsed page, abstracted to the ordered sequences the servers read
    out of it with CSS selectors. Text is the raw element text; the servers
    trim it themselves. */
module Document {

  /** An anchor: its text and its `href` attribute (`""` when the attribute
      is missing, which the servers treat alike since both are falsy). */
  datatype Link = Link(text: string, href: string)

  /** A `<table>`: the texts of its `th` cells and, for every `tr` in
      order (the header row included), the texts of its `td` cells. */
  datatype Table = Table(headers: seq<string>, rows: seq<seq<string>>)

  datatype Doc = Doc(
    /** `$('title').text()`. */
    title: string,
    /** `$('h1').first().text()`, `""` when there is no `h1`. */
    h1: string,
    /** `a[href*="/ships/"]` in document order. */
    shipLinks: seq<Link>,
    /** `a[href*="itinerary"], a[href*="schedule"]` in document order. */
    itineraryLinks: seq<Link>,
    /** For every `table tr`, its `td:first-child a`. */
    rowLinks: seq<Link>,
    /** `table` in document order. */
    tables: seq<Table>,
    /** `table td, div` in document order, each node's `.text().trim()`:
        the spec-registry nodes. */
    specNodes: seq<string>,
    /** `div, span, td` in document order, each node's `.text().trim()`:
        the label-strip nodes. */
    labelNodes: seq<string>,
    /** `ul li` in document order. */
    listItems: seq<string>,
    /** The text of the divs containing "Current position" or "Last
        position". */
    status: string)
}

=== FILE: fetch.dfy ===
/** `scrapeCruiseMapper` and `searchShipWithPlaywright`: which backend
    fetches a page. The browser and the HTTP client are oracles from a URL
    to a parsed page, `None` standing for any failure (a thrown error). */
module Fetch {
  import opened Wrappers
  import opened Text
  import opened Names
  import opened ShipId
  import opened Document

  /** A page fetcher: `None` is a failed or thrown fetch. */
  type Fetcher = string -> Option<Doc>

  /** The process environment the servers consult: the `RENDER` variable
      (`""` when unset) and `NODE_ENV`. */
  datatype Env = Env(render: string, nodeEnv: string)

  /** `process.env.RENDER || process.env.NODE_ENV === 'production'`. */
  predicate IsRender(env: Env) {
    env.render != "" || env.nodeEnv == "production"
  }

  /** The two backends: the headless browser and the plain HTTP client. */
  datatype Backends = Backends(browser: Fetcher, http: Fetcher, env: Env)

  /** `scrapeCruiseMapper(url, usePlaywright)`: the browser only when asked
      for and not on Render; on a browser failure, or when the browser is
      not used, the HTTP client; `None` when the HTTP client fails too. */
  function Scrape(b: Backends, url: string, usePlaywright: bool): (r: Option<Doc>)
    ensures r.Some? ==> r == b.browser(url) || r == b.http(url)
    ensures r != b.http(url) ==> usePlaywright && !IsRender(b.env) && r == b.browser(url)
    ensures r.None? <==> b.http(url).None? && (!usePlaywright || IsRender(b.env) || b.browser(url).None?)
  {
    if usePlaywright && !IsRender(b.env) && b.browser(url).Some? then b.browser(url)
    else b.http(url)
  }

  /** The fixed server's default: `scrapeCruiseMapper(url)`. */
  function DefaultFetcher(b: Backends): Fetcher {
    url => Scrape(b, url, true)
  }

  /** The HTTP-only fetcher: `scrapeCruiseMapper(url, false)` and the older
      servers' axios-only `scrapeCruiseMapper`. */
  function HttpFetcher(b: Backends): Fetcher {
    url => Scrape(b, url, false)
  }

  /** On Render, or when the browser is switched off, the browser is never
      consulted: swapping it for any other changes nothing. */
  lemma BrowserIrrelevantWhenOff(b: Backends, other: Fetcher, url: string, usePlaywright: bool)
    requires IsRender(b.env) || !usePlaywright
    ensures Scrape(b, url, usePlaywright) == Scrape(b.(browser := other), url, usePlaywright)
             == b.http(url)
  {
  }

  /** Off Render, a page the browser delivers is the answer, whatever the
      HTTP client would have said. */
  lemma BrowserFirstOffRender(b: Backends, other: Fetcher, url: string)
    requires !IsRender(b.env) && b.browser(url).Some?
    ensures Scrape(b, url, true) == Scrape(b.(http := other), url, true) == b.browser(url)
  {
  }

  /** A failed browser fetch falls back to the HTTP client. */
  lemma FallbackOnBrowserFailure(b: Backends, url: string)
    requires b.browser(url).None?
    ensures Scrape(b, url, true) == b.http(url)
  {
  }

  // ---------------------------------------------------------------------
  // The browser ship search
  // ---------------------------------------------------------------------

  /** A ship found by the browser search. */
  datatype FoundShip = FoundShip(name: string, url: string, id: string)

  /** The browser search as an oracle: the first `/ships/` link whose text
      contains the query, if any. */
  type Search = string -> Option<Link>

  /** `searchShipWithPlaywright(shipName)`: nothing on Render; otherwise the
      link the browser finds, as trimmed name, absolute URL and extracted
      id. */
  function SearchShip(search: Search, env: Env, name: string): (r: Option<FoundShip>)
    ensures IsRender(env) ==> r.None?
    ensures !IsRender(env) ==> (r.Some? <==> search(name).Some?)
    ensures r.Some? ==> r.value.url == SiteRoot + search(name).value.href
                        && r.value.name == Trim(search(name).value.text)
                        && r.value.id == ExtractShipId(search(name).value.href)
                        && (r.value.id == Unknown || (|r.value.id| > 0 && AllDigits(r.value.id)))
  {
    if IsRender(env) then None
    else match search(name)
      case None => None
      case Some(l) => Some(FoundShip(Trim(l.text), SiteRoot + l.href, ExtractShipId(l.href)))
  }

  /** The id the search reports is the id read back out of the absolute
      URL it reports, for any link. */
  lemma SearchIdMatchesUrl(search: Search, env: Env, name: string)
    requires !IsRender(env) && search(name).Some?
    ensures SearchShip(search, env, name).Some?
    ensures SearchShip(search, env, name).value.id == ExtractShipId(SearchShip(search, env, name).value.url)
  {
    SiteRootQuiet();
    ExtractUnderPrefix(SiteRoot, search(name).value.href);
  }

  /** For a canonical `/ships/<slug>-<digits>` href the reported id is a
      real one. */
  lemma SearchCanonicalIdReal(search: Search, env: Env, name: string)
    requires !IsRender(env) && search(name).Some?
    requires ShipHref(search(name).value.href, true)
    ensures SearchShip(search, env, name).Some?
    ensures SearchShip(search, env, name).value.id != Unknown
  {
    ShipHrefHasId(search(name).value.href, true);
  }
}

=== FILE: handlers.dfy ===
/** The ship and port tool handlers of the three servers: the argument
    check, the lookup chain, and the reply built from the page the chain
    settles on. The MCP envelope is left out: a reply is its JSON body, a
    "could not find" text, the `isError` complaint about the argument, or
    an exception that the dispatcher turns into `Error: …`. */
module Handlers {
  import opened Wrappers
  import opened Seqs
  import opened Text
  import opened Names
  import opened ShipId
  import opened Document
  import opened Fetch
  import opened Validator
  import opened Listing
  import opened Tables
  import opened Specs
  import opened Chain

  /** The fixed enhanced server, the older enhanced server, and the plain
      server that came before both. */
  datatype Server = Fixed | Enhanced | Plain

  /** What a handler answers. */
  datatype Reply<T> =
      /** `ship_name parameter is required and must be a string`. */
    | InvalidInput
      /** The "could not find" (or "could not fetch") text. */
    | NotFound
      /** An exception the dispatcher reports as `Error: …`. */
    | ToolError
    | Answer(body: T)

  /** A reply with the id cache after it. */
  datatype Run<T> = Run(reply: Reply<T>, cache: Cache)

  /** The enhanced servers' argument check `!arg || typeof arg !== 'string'`
      lets only a non-empty string through. */
  predicate Usable(arg: JsValue) {
    arg.JsString? && arg.s != ""
  }

  /** The fixed server fetches with the browser first; the others use the
      HTTP client only. */
  function ServerFetcher(s: Server, b: Backends): Fetcher {
    if s.Fixed? then DefaultFetcher(b) else HttpFetcher(b)
  }

  function ServerCtx(s: Server, b: Backends, search: Search): Ctx {
    Ctx(ServerFetcher(s, b), search, b.env)
  }

  // ---------------------------------------------------------------------
  // Ship schedule
  // ---------------------------------------------------------------------

  function ScheduleChain(s: Server): seq<Strategy> {
    match s
    case Fixed => FixedScheduleChain
    case Enhanced => OldScheduleChain
    case Plain => PlainScheduleChain
  }

  /** The schedule reply. The plain server reports neither itineraries nor
      an id. */
  datatype Schedule = Schedule(
    shipName: string,
    url: string,
    pageTitle: string,
    heading: string,
    itineraries: Option<Page<Itinerary>>,
    schedules: Page<Record>,
    shipId: Option<string>)

  /** `ship_id`: the truthy cached id of the name, else the fixed server's
      id read from the URL, else the older server's `'discovered'`. */
  function ReportedId(s: Server, name: string, url: string, cache: Cache): (r: Option<string>)
    ensures r.None? <==> s.Plain?
    ensures r.Some? && CacheKey(name) in cache && cache[CacheKey(name)] != "" ==> r.value == cache[CacheKey(name)]
    ensures r.Some? && !(CacheKey(name) in cache && cache[CacheKey(name)] != "") ==>
              r.value == if s.Fixed? then ExtractShipId(url) else "discovered"
  {
    if s.Plain? then None
    else if CacheKey(name) in cache && cache[CacheKey(name)] != "" then Some(cache[CacheKey(name)])
    else if s.Fixed? then Some(ExtractShipId(url))
    else Some("discovered")
  }

  /** The reply built from the page found: the raw title, the trimmed
      heading, the first ten itineraries and twenty schedule rows (ten rows
      in the plain server). */
  function ScheduleOf(s: Server, name: string, f: Found, cache: Cache): (r: Schedule)
    ensures r.shipName == name && r.url == f.url
    ensures r.pageTitle == f.doc.title && r.heading == Trim(f.doc.h1)
    ensures r.itineraries.None? <==> s.Plain?
    ensures r.itineraries.Some? ==>
              var its := Itineraries(f.doc.itineraryLinks);
              && r.itineraries.value.found == |its|
              && |r.itineraries.value.shown| == (if |its| <= 10 then |its| else 10)
              && r.itineraries.value.shown == its[..|r.itineraries.value.shown|]
    ensures var recs, limit := ScheduleRecords(f.doc.tables), if s.Plain? then 10 else 20;
            && r.schedules.found == |recs|
            && |r.schedules.shown| == (if |recs| <= limit then |recs| else limit)
            && r.schedules.shown == recs[..|r.schedules.shown|]
    ensures r.shipId == ReportedId(s, name, f.url, cache)
  {
    Schedule(name, f.url, f.doc.title, Trim(f.doc.h1),
             if s.Plain? then None else Some(PageOf(Itineraries(f.doc.itineraryLinks), 10)),
             Schedules(f.doc.tables, if s.Plain? then 10 else 20),
             ReportedId(s, name, f.url, cache))
  }

  /** `handleShipSchedule`. The enhanced servers reject an unusable
      argument; the plain one throws on a non-string (`toLowerCase`) and
      takes the empty string as a name. */
  function ShipSchedule(s: Server, b: Backends, search: Search, arg: JsValue, cache: Cache): (r: Run<Schedule>)
    ensures r.reply.InvalidInput? <==> !s.Plain? && !Usable(arg)
    ensures r.reply.InvalidInput? ==> r.cache == cache
    ensures s.Plain? && arg.JsOther? ==> r == Run(ToolError, cache)
    ensures r.reply.ToolError? ==> (s.Plain? && arg.JsOther?) || s.Fixed?
    ensures r.reply.Answer? ==>
              && arg.JsString? && r.reply.body.shipName == arg.s
              && ServerFetcher(s, b)(r.reply.body.url).Some?
              && r.reply.body.pageTitle == ServerFetcher(s, b)(r.reply.body.url).value.title
              && r.reply.body.heading == Trim(ServerFetcher(s, b)(r.reply.body.url).value.h1)
              && r.reply.body == ScheduleOf(s, arg.s, Found(ServerFetcher(s, b)(r.reply.body.url).value, r.reply.body.url), r.cache)
  {
    if s.Plain? && arg.JsOther? then Run(ToolError, cache)
    else if !s.Plain? && !Usable(arg) then Run(InvalidInput, cache)
    else
      var o := RunChain(ServerCtx(s, b, search), ScheduleChain(s), arg.s, cache);
      match o.result
      case Aborted => Run(ToolError, o.cache)
      case Miss => Run(NotFound, o.cache)
      case Hit(f) => Run(Answer(ScheduleOf(s, arg.s, f, o.cache)), o.cache)
  }

  /** The fixed server's `validation_passed: true` holds: the page it
      answers with passed `validateShipPage` for the query. */
  lemma FixedScheduleAnswersValidated(b: Backends, search: Search, arg: JsValue, cache: Cache)
    ensures var r := ShipSchedule(Fixed, b, search, arg, cache);
            r.reply.Answer? ==>
              ValidateShipPage(DefaultFetcher(b)(r.reply.body.url).value.title,
                               DefaultFetcher(b)(r.reply.body.url).value.h1, arg.s)
  {
    if Usable(arg) {
      FixedScheduleValidated(ServerCtx(Fixed, b, search), arg.s, cache);
    }
  }

  /** On Render the fixed schedule handler never fails with an error: its
      only throwing step is the skipped browser search. */
  lemma FixedScheduleOnRenderNoError(b: Backends, search: Search, arg: JsValue, cache: Cache)
    requires IsRender(b.env)
    ensures !ShipSchedule(Fixed, b, search, arg, cache).reply.ToolError?
  {
    if Usable(arg) {
      FixedScheduleOnRender(ServerCtx(Fixed, b, search), arg.s, cache);
    }
  }

  /** The plain server neither reads nor writes an id cache. */
  lemma PlainScheduleKeepsCache(b: Backends, search: Search, arg: JsValue, cache: Cache)
    ensures ShipSchedule(Plain, b, search, arg, cache).cache == cache
    ensures ShipSchedule(Plain, b, search, arg, cache).reply.Answer? ==>
              ShipSchedule(Plain, b, search, arg, cache).reply.body.url in
                {ShipUrl(arg.s, "542"), BareShipUrl(arg.s)}
  {
    if arg.JsString? {
      PlainScheduleUrls(ServerCtx(Plain, b, search), arg.s, cache);
    }
  }

  /** Starting from a cache of numeric ids, the cache stays numeric and the
      reported id is numeric, or else the fixed server's `'unknown'` or the
      older server's `'discovered'`. */
  lemma ReportedScheduleId(s: Server, b: Backends, search: Search, arg: JsValue, cache: Cache)
    requires NumericCache(cache)
    ensures NumericCache(ShipSchedule(s, b, search, arg, cache).cache)
    ensures var r := ShipSchedule(s, b, search, arg, cache);
            r.reply.Answer? && r.reply.body.shipId.Some? ==>
              || NumericId(r.reply.body.shipId.value)
              || (s.Fixed? && r.reply.body.shipId.value == Unknown)
              || (s.Enhanced? && r.reply.body.shipId.value == "discovered")
  {
    if arg.JsString? {
      ServerChainsNumeric();
      ChainKeepsNumeric(ServerCtx(s, b, search), ScheduleChain(s), arg.s, cache);
    }
  }

  /** On Render, with nothing cached for the name, the fixed schedule
      handler answers with the page of the first id of `737, 734, …`
      whose page fetches and validates, and reports that id, which is also
      the id its URL carries. */
  lemma FixedSweepReportsItsId(b: Backends, search: Search, name: string, cache: Cache)
    requires IsRender(b.env) && name != "" && CacheKey(name) !in cache
    requires FirstAccepted(ServerCtx(Fixed, b, search), name, FixedIds, true) < |FixedIds|
    ensures var id := FixedIds[FirstAccepted(ServerCtx(Fixed, b, search), name, FixedIds, true)];
            var r := ShipSchedule(Fixed, b, search, JsString(name), cache);
            && r.reply.Answer? && r.reply.body.url == ShipUrl(name, id)
            && r.reply.body.shipId == Some(id) && ExtractShipId(r.reply.body.url) == id
            && r.cache == cache[CacheKey(name) := id]
  {
    FixedScheduleSweepOnRender(ServerCtx(Fixed, b, search), name, cache);
    ServerIdsNumeric();
    ShipUrlIdRoundTrip(name, FixedIds[FirstAccepted(ServerCtx(Fixed, b, search), name, FixedIds, true)]);
  }

  // ---------------------------------------------------------------------
  // Ship details
  // ---------------------------------------------------------------------

  /** The details reply: the enhanced servers' record, or the plain
      server's name, URL and label-strip values. */
  datatype Details =
    | Details(name: string, url: string, searchTerm: string, shipId: Option<string>, specs: SpecMap,
              status: Option<string>, amenities: Option<seq<string>>, pageTitle: string)
    | LabelDetails(name: string, url: string, specs: SpecMap)

  /** `details.ship_id`: the fixed server reads the URL with
      `extractShipId` and drops `'unknown'`; the older one keeps
      `/-(-\d+)$/`'s capture. */
  function DetailsId(s: Server, url: string): (r: Option<string>)
    ensures s.Fixed? ==> (r.Some? <==> ExtractShipId(url) != Unknown)
    ensures s.Fixed? && r.Some? ==> r.value == ExtractShipId(url) && NumericId(r.value)
    ensures !s.Fixed? ==> r == DoubleDashId(url)
  {
    if s.Fixed? then
      var id := ExtractShipId(url);
      if id != "" && id != Unknown then Some(id) else None
    else DoubleDashId(url)
  }

  /** The name shown: the trimmed heading, or the query when it is blank. */
  function ShownName(d: Doc, query: string): (r: string)
    ensures r == Trim(d.h1) || (Trim(d.h1) == "" && r == query)
    ensures query != "" ==> r != ""
  {
    if Trim(d.h1) != "" then Trim(d.h1) else query
  }

  /** The enhanced servers' details record. */
  function DetailsOf(s: Server, name: string, f: Found, m: Matcher): (r: Details)
    ensures r.Details? && r.url == f.url && r.searchTerm == name
    ensures r.name == ShownName(f.doc, name)
    ensures r.shipId == DetailsId(s, f.url)
    ensures r.specs.Keys <= set k | k in SpecKeys
    ensures r.specs == RegistrySpecs(f.doc.specNodes, SpecKeys, m)
    ensures r.status.Some? <==> Trim(f.doc.status) != ""
    ensures r.status.Some? ==> r.status.value == Trim(f.doc.status)
    ensures r.amenities == Amenities(f.doc.listItems)
    ensures r.pageTitle == Trim(f.doc.title)
  {
    var d := f.doc;
    Details(ShownName(d, name), f.url, name, DetailsId(s, f.url), RegistrySpecs(d.specNodes, SpecKeys, m),
            if Trim(d.status) != "" then Some(Trim(d.status)) else None,
            Amenities(d.listItems), Trim(d.title))
  }

  function DetailsChain(s: Server): seq<Strategy> {
    if s.Fixed? then FixedDetailsChain else OldDetailsChain
  }

  /** The details chains have no browser search, so they never throw. */
  lemma DetailsChainsNeverAbort(ctx: Ctx, s: Server, name: string, cache: Cache)
    ensures !RunChain(ctx, DetailsChain(s), name, cache).result.Aborted?
  {
    var c := DetailsChain(s);
    assert forall i :: 0 <= i < |c| ==> !c[i].BrowserSearch?;
  }

  /** `handleShipFullDetails` of the enhanced servers and the plain
      server's `handleShipDetails`, which fetches `<slug>` alone and throws
      on a non-string name. */
  function ShipDetails(s: Server, b: Backends, search: Search, m: Matcher, arg: JsValue, cache: Cache): (r: Run<Details>)
    ensures r.reply.InvalidInput? <==> !s.Plain? && !Usable(arg)
    ensures r.reply.ToolError? <==> s.Plain? && arg.JsOther?
    ensures s.Plain? ==> r.cache == cache
    ensures r.reply.Answer? ==> (r.reply.body.LabelDetails? <==> s.Plain?)
    ensures r.reply.Answer? ==>
              && arg.JsString? && ServerFetcher(s, b)(r.reply.body.url).Some?
              && r.reply.body.name == ShownName(ServerFetcher(s, b)(r.reply.body.url).value, arg.s)
    ensures s.Plain? && r.reply.Answer? ==>
              && r.reply.body.url == BareShipUrl(arg.s)
              && r.reply.body.specs == LabelSpecs(HttpFetcher(b)(r.reply.body.url).value.labelNodes)
    ensures !s.Plain? && r.reply.Answer? ==>
              r.reply.body == DetailsOf(s, arg.s, Found(ServerFetcher(s, b)(r.reply.body.url).value, r.reply.body.url), m)
  {
    if s.Plain? then
      if arg.JsOther? then Run(ToolError, cache)
      else
        var url := BareShipUrl(arg.s);
        match HttpFetcher(b)(url)
        case None => Run(NotFound, cache)
        case Some(d) => Run(Answer(LabelDetails(ShownName(d, arg.s), url, LabelSpecs(d.labelNodes))), cache)
    else if !Usable(arg) then Run(InvalidInput, cache)
    else
      var ctx := ServerCtx(s, b, search);
      DetailsChainsNeverAbort(ctx, s, arg.s, cache);
      var o := RunChain(ctx, DetailsChain(s), arg.s, cache);
      if o.result.Hit? then Run(Answer(DetailsOf(s, arg.s, o.result.found, m)), o.cache)
      else Run(NotFound, o.cache)
  }

  /** Whatever page a details handler settles on, the fixed server's
      `ship_id` is the id its URL carries: a cached or swept id for a
      canonical URL. */
  lemma FixedDetailsIdOfCanonicalUrl(b: Backends, search: Search, m: Matcher, arg: JsValue, cache: Cache, id: string)
    requires NumericId(id)
    requires var r := ShipDetails(Fixed, b, search, m, arg, cache);
             r.reply.Answer? && r.reply.body.url == ShipUrl(arg.s, id)
    ensures ShipDetails(Fixed, b, search, m, arg, cache).reply.body.shipId == Some(id)
  {
    ShipUrlIdRoundTrip(arg.s, id);
  }

  /** The older details handler reports no `ship_id` for a canonical
      `<slug>-<id>` URL whose slug does not end in `-`: its pattern wants
      two hyphens. */
  lemma EnhancedDetailsMissCanonicalId(b: Backends, search: Search, m: Matcher, arg: JsValue, cache: Cache, id: string)
    requires NumericId(id)
    requires var r := ShipDetails(Enhanced, b, search, m, arg, cache);
             r.reply.Answer? && r.reply.body.url == ShipUrl(arg.s, id)
    requires |Slug(arg.s)| == 0 || Slug(arg.s)[|Slug(arg.s)| - 1] != '-'
    ensures ShipDetails(Enhanced, b, search, m, arg, cache).reply.body.shipId.None?
  {
    DoubleDashMissesCanonical(arg.s, id);
  }

  /** With a truthy cached id whose page fetches, both enhanced details
      handlers answer with that page at once, validated or not, and leave
      the cache alone. */
  lemma DetailsTrustCachedId(s: Server, b: Backends, search: Search, m: Matcher, name: string, cache: Cache)
    requires !s.Plain? && name != ""
    requires CacheKey(name) in cache && cache[CacheKey(name)] != ""
    requires ServerFetcher(s, b)(ShipUrl(name, cache[CacheKey(name)])).Some?
    ensures var r := ShipDetails(s, b, search, m, JsString(name), cache);
            && r.cache == cache && r.reply.Answer?
            && r.reply.body.url == ShipUrl(name, cache[CacheKey(name)])
  {
    var ctx := ServerCtx(s, b, search);
    FirstHitWins(ctx, CachedId(false), DetailsChain(s)[1..], name, cache);
    assert DetailsChain(s) == [CachedId(false)] + DetailsChain(s)[1..];
  }

  // ---------------------------------------------------------------------
  // Port schedule
  // ---------------------------------------------------------------------

  /** The port reply. */
  datatype PortReport = PortReport(port: string, url: string, pageTitle: string, ships: Page<PortCall>)

  /** `handlePortSchedule`: fetch `/ports/<slug>` (a failure is the "could
      not fetch" text); the enhanced servers map columns by header keyword
      and show 30 calls, the plain one by position and shows 20. */
  function PortSchedule(s: Server, b: Backends, arg: JsValue): (r: Reply<PortReport>)
    ensures r.InvalidInput? <==> !s.Plain? && !Usable(arg)
    ensures r.ToolError? <==> s.Plain? && arg.JsOther?
    ensures r.Answer? ==>
              && arg.JsString? && r.body.port == arg.s && r.body.url == PortUrl(arg.s)
              && ServerFetcher(s, b)(r.body.url).Some?
              && r.body.pageTitle == ServerFetcher(s, b)(r.body.url).value.title
              && (forall i :: 0 <= i < |r.body.ships.shown| ==> KeptCall(r.body.ships.shown[i]))
    ensures r.Answer? ==>
              var calls, limit := PortCalls(s, ServerFetcher(s, b)(r.body.url).value.tables), PortLimit(s);
              && r.body.ships.found == |calls|
              && |r.body.ships.shown| == (if |calls| <= limit then |calls| else limit)
              && r.body.ships.shown == calls[..|r.body.ships.shown|]
    ensures r.NotFound? <==> arg.JsString? && (s.Plain? || arg.s != "") && ServerFetcher(s, b)(PortUrl(arg.s)).None?
  {
    if s.Plain? && arg.JsOther? then ToolError
    else if !s.Plain? && !Usable(arg) then InvalidInput
    else
      var url := PortUrl(arg.s);
      match ServerFetcher(s, b)(url)
      case None => NotFound
      case Some(d) =>
        Answer(PortReport(arg.s, url, d.title, PortShips(PortCalls(s, d.tables), PortLimit(s))))
  }

  /** The enhanced servers map port columns by header keyword, the plain
      server by position; `PortCallsReference` says which rows both keep. */
  function PortCalls(s: Server, tables: seq<Table>): seq<PortCall> {
    if s.Plain? then IndexCalls(tables) else KeywordCalls(tables)
  }

  /** Calls shown: 30 in the enhanced servers, 20 in the plain one. */
  function PortLimit(s: Server): nat {
    if s.Plain? then 20 else 30
  }

  /** On a page whose tables all carry `Ship | Arrival | Departure | Date`
      headers, the older enhanced server and the plain server find the same
      calls; the plain one shows the first twenty of them. */
  lemma PortReportsAgree(b: Backends, name: string)
    requires HttpFetcher(b)(PortUrl(name)).Some?
    requires forall t :: t in HttpFetcher(b)(PortUrl(name)).value.tables ==> StandardColumns(PortHeaders(t))
    ensures var e, p := PortSchedule(Enhanced, b, JsString(name)), PortSchedule(Plain, b, JsString(name));
            name != "" ==>
              && e.Answer? && p.Answer?
              && e.body.ships.found == p.body.ships.found
              && p.body.ships.shown == e.body.ships.shown[..|p.body.ships.shown|]
  {
    if name != "" {
      var url := PortUrl(name);
      var d := HttpFetcher(b)(url).value;
      PortTablesAgree(d.tables);
      var calls := IndexCalls(d.tables);
      HttpPortAnswer(Enhanced, b, name);
      HttpPortAnswer(Plain, b, name);
      PortShipsPrefix(calls, 20, 30);
    }
  }

  /** What the two HTTP-only servers answer for a port page that fetches. */
  lemma HttpPortAnswer(s: Server, b: Backends, name: string)
    requires !s.Fixed? && name != "" && HttpFetcher(b)(PortUrl(name)).Some?
    ensures var d := HttpFetcher(b)(PortUrl(name)).value;
            PortSchedule(s, b, JsString(name))
            == Answer(PortReport(name, PortUrl(name), d.title, PortShips(PortCalls(s, d.tables), PortLimit(s))))
  {
  }

  /** A smaller limit shows a prefix of what a larger one shows. */
  lemma PortShipsPrefix(calls: seq<PortCall>, a: nat, b: nat)
    requires a <= b
    ensures |PortShips(calls, a).shown| <= |PortShips(calls, b).shown|
    ensures PortShips(calls, a).shown == PortShips(calls, b).shown[..|PortShips(calls, a).shown|]
  {
  }
}

=== FILE: listing.dfy ===
/** The ship listing (`/ships`): which links count as ships, the
    cruise-line filter, the id cache writes, the de-duplication by name
    behind `new Map(ships.map(s => [s.name, s]))`, and the scan loop of the
    browser listing and of the two test scripts. */
module Listing {
  import opened Wrappers
  import opened Seqs
  import opened Text
  import opened Names
  import opened ShipId
  import opened Document
  import opened Fetch

  /** The `name → id` cache, keyed by the lowercased name. */
  type Cache = map<string, string>

  /** A listed ship: `{ name, url, id }`. */
  datatype Ship = Ship(name: string, url: string, id: string)

  /** `!cruise_line || safeToLowerCase(name).includes(safeToLowerCase(cruise_line))`,
      an absent filter written as `""`. */
  predicate PassesLine(name: string, line: string) {
    line == "" || Contains(Lower(name), Lower(line))
  }

  // ---------------------------------------------------------------------
  // Cache writes
  // ---------------------------------------------------------------------

  /** An id worth caching: truthy and not the `'unknown'` sentinel. */
  predicate Cacheable(id: string) {
    id != "" && id != Unknown
  }

  /** `shipIdCache.set(safeToLowerCase(s.name), s.id)` for each of the
      first `n` ships in order whose id is cacheable. */
  function CacheWrites(cache: Cache, ships: seq<Ship>, n: nat): Cache
    requires n <= |ships|
    decreases n
  {
    if n == 0 then cache
    else
      var s := ships[n - 1];
      var before := CacheWrites(cache, ships, n - 1);
      if Cacheable(s.id) then before[CacheKey(s.name) := s.id] else before
  }

  function CacheShips(cache: Cache, ships: seq<Ship>): Cache {
    CacheWrites(cache, ships, |ships|)
  }

  /** Ship `k` is the last one among the first `n` to write key `key`. */
  predicate LastWriter(ships: seq<Ship>, key: string, k: nat, n: nat) {
    k < n <= |ships| && Cacheable(ships[k].id) && CacheKey(ships[k].name) == key
    && forall j :: k < j < n ==> !(Cacheable(ships[j].id) && CacheKey(ships[j].name) == key)
  }

  /** Reference: the id of the last of the first `n` ships that writes
      `key`. */
  function LastIdFor(ships: seq<Ship>, key: string, n: nat): (r: Option<string>)
    requires n <= |ships|
    ensures r.None? <==> forall j :: 0 <= j < n ==> !(Cacheable(ships[j].id) && CacheKey(ships[j].name) == key)
    ensures r.Some? ==> exists k: nat :: LastWriter(ships, key, k, n) && r.value == ships[k].id
    decreases n
  {
    if n == 0 then None
    else if Cacheable(ships[n - 1].id) && CacheKey(ships[n - 1].name) == key then
      assert LastWriter(ships, key, n - 1, n);
      Some(ships[n - 1].id)
    else
      var r := LastIdFor(ships, key, n - 1);
      assert forall k: nat :: LastWriter(ships, key, k, n - 1) ==> LastWriter(ships, key, k, n);
      r
  }

  /** After the writes, a key holds the id of the last ship that wrote it,
      or its old value when no ship did. */
  lemma {:induction false} CacheWritesReference(cache: Cache, ships: seq<Ship>, n: nat, key: string)
    requires n <= |ships|
    ensures var c := CacheWrites(cache, ships, n);
            && (key in c <==> key in cache || LastIdFor(ships, key, n).Some?)
            && (LastIdFor(ships, key, n).Some? ==> c[key] == LastIdFor(ships, key, n).value)
            && (LastIdFor(ships, key, n).None? && key in cache ==> c[key] == cache[key])
    decreases n
  {
    if n > 0 {
      CacheWritesReference(cache, ships, n - 1, key);
    }
  }

  // ---------------------------------------------------------------------
  // De-duplication by name
  // ---------------------------------------------------------------------

  /** `ships.map(s => [s.name, s])`. */
  function Named(ships: seq<Ship>): (r: seq<(string, Ship)>)
    ensures |r| == |ships|
    ensures forall i :: 0 <= i < |r| ==> r[i] == (ships[i].name, ships[i])
  {
    if ships == [] then [] else [(ships[0].name, ships[0])] + Named(ships[1..])
  }

  /** Each entry of the name map holds a ship of that name. */
  lemma EntriesKeyedByName(ships: seq<Ship>)
    ensures forall i :: 0 <= i < |Dedupe(Named(ships))| ==> Dedupe(Named(ships))[i].1.name == Dedupe(Named(ships))[i].0
  {
    var xs := Named(ships);
    var e := Dedupe(xs);
    DedupeLast(xs);
    forall i | 0 <= i < |e|
      ensures e[i].1.name == e[i].0
    {
      var p := LastPos(xs, e[i].0, |xs|);
      assert e[i] == xs[p];
    }
  }

  /** `Array.from(new Map(ships.map(s => [s.name, s])).values())`. */
  function DedupeByName(ships: seq<Ship>): (r: seq<Ship>)
    ensures |r| <= |ships|
    ensures forall i, j :: 0 <= i < j < |r| ==> r[i].name != r[j].name
  {
    EntriesKeyedByName(ships);
    Seconds(Dedupe(Named(ships)))
  }

  /** Every ship the de-duplication keeps is the last input ship of its
      name. */
  lemma DedupeKeepsLast(ships: seq<Ship>)
    ensures forall i :: 0 <= i < |DedupeByName(ships)| ==>
              && LastPos(Named(ships), DedupeByName(ships)[i].name, |ships|) < |ships|
              && DedupeByName(ships)[i] == ships[LastPos(Named(ships), DedupeByName(ships)[i].name, |ships|)]
  {
    var xs := Named(ships);
    var e := Dedupe(xs);
    var r := DedupeByName(ships);
    DedupeLast(xs);
    EntriesKeyedByName(ships);
    forall i | 0 <= i < |r|
      ensures LastPos(xs, r[i].name, |ships|) < |ships| && r[i] == ships[LastPos(xs, r[i].name, |ships|)]
    {
      var p := LastPos(xs, e[i].0, |xs|);
      assert r[i] == e[i].1 == xs[p].1 == ships[p];
    }
  }

  /** The de-duplication invents no ship. */
  lemma DedupeSubset(ships: seq<Ship>)
    ensures forall i :: 0 <= i < |DedupeByName(ships)| ==> DedupeByName(ships)[i] in ships
  {
    DedupeKeepsLast(ships);
  }

  /** Every name in the input survives the de-duplication. */
  lemma DedupeKeepsEveryName(ships: seq<Ship>)
    ensures forall j :: 0 <= j < |ships| ==>
              exists i :: 0 <= i < |DedupeByName(ships)| && DedupeByName(ships)[i].name == ships[j].name
  {
    var xs := Named(ships);
    var e := Dedupe(xs);
    var r := DedupeByName(ships);
    forall j | 0 <= j < |ships|
      ensures exists i :: 0 <= i < |r| && r[i].name == ships[j].name
    {
      var i := DedupeFind(xs, j);
      EntryShipNamed(ships, i);
      assert xs[j].0 == ships[j].name;
    }
  }

  /** The ship the de-duplication keeps for an entry bears the entry's
      name. */
  lemma EntryShipNamed(ships: seq<Ship>, i: nat)
    requires i < |Dedupe(Named(ships))|
    ensures i < |DedupeByName(ships)| && DedupeByName(ships)[i].name == Dedupe(Named(ships))[i].0
  {
    EntriesKeyedByName(ships);
  }

  /** The de-duplicated ships stand in the order their names first occur
      in the input. */
  lemma DedupeFirstSeenOrder(ships: seq<Ship>)
    ensures forall i, j :: 0 <= i < j < |DedupeByName(ships)| ==>
              FirstPos(Named(ships), DedupeByName(ships)[i].name, |ships|)
              < FirstPos(Named(ships), DedupeByName(ships)[j].name, |ships|)
  {
    EntriesKeyedByName(ships);
    DedupeOrder(Named(ships));
  }

  // ---------------------------------------------------------------------
  // Cache writes, one ship at a time
  // ---------------------------------------------------------------------

  /** Writes for a prefix of the ships do not depend on what follows. */
  lemma {:induction false} CacheWritesPrefix(cache: Cache, ships: seq<Ship>, more: seq<Ship>, n: nat)
    requires n <= |ships|
    ensures CacheWrites(cache, ships + more, n) == CacheWrites(cache, ships, n)
    decreases n
  {
    if n > 0 {
      assert (ships + more)[n - 1] == ships[n - 1];
      CacheWritesPrefix(cache, ships, more, n - 1);
    }
  }

  /** Caching one more ship is one more conditional `set`. */
  lemma CacheShipsSnoc(cache: Cache, ships: seq<Ship>, s: Ship)
    ensures CacheShips(cache, ships + [s]) ==
            if Cacheable(s.id) then CacheShips(cache, ships)[CacheKey(s.name) := s.id] else CacheShips(cache, ships)
  {
    CacheWritesPrefix(cache, ships, [s], |ships|);
    assert (ships + [s])[|ships|] == s;
  }

  // ---------------------------------------------------------------------
  // The browser scan of the listing page
  // ---------------------------------------------------------------------

  /** The newer link test: `href && text && href.match(/\/ships\/[A-Za-z0-9-]+-\d+$/)
      && text.trim()` (a non-blank text is in particular non-empty). */
  predicate Accepted(l: Link) {
    l.href != "" && ShipHref(l.href, true) && Trim(l.text) != ""
  }

  /** The scans' knobs: how many links to examine, after how many ships to
      stop, the cruise-line filter, whether an absolute `http…` href is kept
      as it is, and whether the id cache is written. */
  datatype ScanConfig = ScanConfig(examine: nat, stopAfter: Option<nat>, line: string, keepAbsolute: bool, caches: bool)

  /** `listShipsWithPlaywright`: `limit * 2` links, stop at `limit` ships,
      filter and cache. */
  function BrowserScan(line: string, limit: nat): ScanConfig {
    ScanConfig(2 * limit, Some(limit), line, false, true)
  }

  /** The fixes script: the first ten links, no stop, no filter, no cache. */
  const FixesScan: ScanConfig := ScanConfig(10, None, "", false, false)

  /** The real-ships script: twenty links, stop at five, absolute hrefs
      kept. */
  const RealShipsScan: ScanConfig := ScanConfig(20, Some(5), "", true, false)

  /** The ship URL a scan builds from an href. */
  function FullUrl(href: string, keepAbsolute: bool): string {
    if keepAbsolute && StartsWith(href, "http") then href else SiteRoot + href
  }

  function ScanShip(l: Link, cfg: ScanConfig): Ship {
    Ship(Trim(l.text), FullUrl(l.href, cfg.keepAbsolute), ExtractShipId(l.href))
  }

  /** The URL the scan records for a link: only accepted links count. */
  function UrlAt(l: Link, cfg: ScanConfig): Option<string> {
    if Accepted(l) then Some(FullUrl(l.href, cfg.keepAbsolute)) else None
  }

  function Urls(links: seq<Link>, cfg: ScanConfig): (us: seq<Option<string>>)
    ensures |us| == |links|
  {
    seq(|links|, j => if 0 <= j < |links| then UrlAt(links[j], cfg) else None)
  }

  /** The URLs of the accepted links among the first `n`: the scan's
      `processedUrls`. */
  function Seen(links: seq<Link>, cfg: ScanConfig, n: nat): set<string>
    requires n <= |links|
  {
    SomeSet(Urls(links, cfg), n)
  }

  /** What the scan does with link `j`: a ship when the link is accepted,
      its URL is new and its trimmed text passes the filter. */
  function PickAt(links: seq<Link>, cfg: ScanConfig, j: nat): (r: Option<Ship>)
    requires j < |links|
    ensures r.Some? ==> PassesLine(r.value.name, cfg.line) && r.value.id != Unknown
  {
    var l := links[j];
    if Accepted(l) && FullUrl(l.href, cfg.keepAbsolute) !in Seen(links, cfg, j)
       && PassesLine(Trim(l.text), cfg.line)
    then
      ShipHrefHasId(l.href, true);
      Some(ScanShip(l, cfg))
    else None
  }

  /** The scan's decision for every link. */
  function Decisions(links: seq<Link>, cfg: ScanConfig): (ds: seq<Option<Ship>>)
    ensures |ds| == |links|
  {
    seq(|links|, j => if 0 <= j < |links| then PickAt(links, cfg, j) else None)
  }

  /** The ships picked from the first `n` links when nothing stops the
      scan. */
  function Picks(links: seq<Link>, cfg: ScanConfig, n: nat): (r: seq<Ship>)
    requires n <= |links|
  {
    Somes(Decisions(links, cfg), n)
  }

  /** The scan's stop: `if (ships.length >= k) break` runs right after a
      push, so at least one ship is kept. */
  function StopBound(k: nat): nat {
    if k == 0 then 1 else k
  }

  /** What the scan returns: the picks of the examined links, cut at the
      stop. */
  function ScanResult(links: seq<Link>, cfg: ScanConfig): seq<Ship> {
    var all := Picks(links, cfg, if |links| < cfg.examine then |links| else cfg.examine);
    match cfg.stopAfter
    case None => all
    case Some(k) => Take(all, StopBound(k))
  }

  /** Examining one more link appends that link's pick, if any, and
      records its URL when it is accepted. */
  lemma ScanNext(links: seq<Link>, cfg: ScanConfig, i: nat)
    requires i < |links|
    ensures Picks(links, cfg, i + 1) ==
            if PickAt(links, cfg, i).Some? then Picks(links, cfg, i) + [PickAt(links, cfg, i).value]
            else Picks(links, cfg, i)
    ensures Seen(links, cfg, i + 1) ==
            if Accepted(links[i]) then Seen(links, cfg, i) + {FullUrl(links[i].href, cfg.keepAbsolute)}
            else Seen(links, cfg, i)
  {
    assert Decisions(links, cfg)[i] == PickAt(links, cfg, i);
    assert Urls(links, cfg)[i] == UrlAt(links[i], cfg);
  }

  /** A scan that examined all its links without reaching the stop
      returns every pick. */
  lemma ScanFinished(links: seq<Link>, cfg: ScanConfig, ships: seq<Ship>)
    requires ships == Picks(links, cfg, if |links| < cfg.examine then |links| else cfg.examine)
    requires cfg.stopAfter.Some? ==> |ships| < StopBound(cfg.stopAfter.value)
    ensures ships == ScanResult(links, cfg)
  {
  }

  /** A scan that reached its stop after link `i` returns the picks so
      far. */
  lemma ScanStopped(links: seq<Link>, cfg: ScanConfig, i: nat, ships: seq<Ship>)
    requires i < |links| && i < cfg.examine && cfg.stopAfter.Some?
    requires ships == Picks(links, cfg, i + 1) && |ships| == StopBound(cfg.stopAfter.value)
    ensures ships == ScanResult(links, cfg)
  {
    SomesTakePrefix(Decisions(links, cfg), i + 1, if |links| < cfg.examine then |links| else cfg.examine);
  }

  /** The scan loop of `listShipsWithPlaywright` and of the two test
      scripts. */
  method ScanListing(links: seq<Link>, cfg: ScanConfig, cache: Cache) returns (ships: seq<Ship>, cache': Cache)
    ensures ships == ScanResult(links, cfg)
    ensures cache' == if cfg.caches then CacheShips(cache, ships) else cache
  {
    var m := if |links| < cfg.examine then |links| else cfg.examine;
    var processed: set<string> := {};
    ships := [];
    cache' := cache;
    var i := 0;
    while i < m
      invariant i <= m
      invariant ScanState(links, cfg, cache, i, processed, ships, cache')
    {
      var stop;
      processed, ships, cache', stop := ScanOne(links, cfg, cache, i, processed, ships, cache');
      if stop {
        return;
      }
      i := i + 1;
    }
    ScanFinished(links, cfg, ships);
  }

  /** What the scan loop knows after examining `i` links. */
  predicate ScanState(links: seq<Link>, cfg: ScanConfig, cache: Cache, i: nat,
                      processed: set<string>, ships: seq<Ship>, cur: Cache)
    requires i <= |links|
  {
    && processed == Seen(links, cfg, i)
    && ships == Picks(links, cfg, i)
    && (cfg.stopAfter.Some? ==> |ships| < StopBound(cfg.stopAfter.value))
    && cur == (if cfg.caches then CacheShips(cache, ships) else cache)
  }

  /** One turn of the scan loop: link `i` is skipped, recorded, or picked,
      and a pick that reaches the stop ends the scan. */
  method ScanOne(links: seq<Link>, cfg: ScanConfig, cache: Cache, i: nat,
                 processed: set<string>, ships: seq<Ship>, cur: Cache)
    returns (processed': set<string>, ships': seq<Ship>, cur': Cache, stop: bool)
    requires i < |links| && i < cfg.examine
    requires ScanState(links, cfg, cache, i, processed, ships, cur)
    ensures cur' == if cfg.caches then CacheShips(cache, ships') else cache
    ensures stop ==> ships' == ScanResult(links, cfg)
    ensures !stop ==> ScanState(links, cfg, cache, i + 1, processed', ships', cur')
  {
    processed', ships', cur', stop := processed, ships, cur, false;
    var l := links[i];
    if !Accepted(l) {
      assert PickAt(links, cfg, i).None?;
      ScanSkipped(links, cfg, cache, i, processed, ships, cur);
      return;
    }
    var url := FullUrl(l.href, cfg.keepAbsolute);
    if url in processed {
      assert PickAt(links, cfg, i).None?;
      ScanSkipped(links, cfg, cache, i, processed, ships, cur);
      assert processed + {url} == processed;
      return;
    }
    processed' := processed + {url};
    if !PassesLine(Trim(l.text), cfg.line) {
      assert PickAt(links, cfg, i).None?;
      ScanSkipped(links, cfg, cache, i, processed, ships, cur);
      return;
    }
    assert PickAt(links, cfg, i) == Some(ScanShip(l, cfg));
    ships', cur', stop := ScanTake(links, cfg, cache, i, processed, ships, cur);
  }

  /** The picking end of a turn: the ship is pushed, its id cached when it
      is cacheable, and the scan stops once the stop is reached. */
  method ScanTake(links: seq<Link>, cfg: ScanConfig, cache: Cache, i: nat,
                  processed: set<string>, ships: seq<Ship>, cur: Cache)
    returns (ships': seq<Ship>, cur': Cache, stop: bool)
    requires i < |links| && i < cfg.examine
    requires ScanState(links, cfg, cache, i, processed, ships, cur)
    requires PickAt(links, cfg, i) == Some(ScanShip(links[i], cfg))
    ensures cur' == if cfg.caches then CacheShips(cache, ships') else cache
    ensures stop ==> ships' == ScanResult(links, cfg)
    ensures !stop ==> ScanState(links, cfg, cache, i + 1, processed + {FullUrl(links[i].href, cfg.keepAbsolute)},
                                ships', cur')
  {
    var s := ScanShip(links[i], cfg);
    ScanPicked(links, cfg, cache, i, processed, ships, cur);
    ships', cur', stop := ships + [s], cur, false;
    if cfg.caches && Cacheable(s.id) {
      cur' := cur[CacheKey(s.name) := s.id];
    }
    if cfg.stopAfter.Some? && |ships'| >= cfg.stopAfter.value {
      ScanStopped(links, cfg, i, ships');
      stop := true;
    }
  }

  /** A link the scan does not pick leaves the ships and the cache alone
      and records its URL when it is accepted. */
  lemma ScanSkipped(links: seq<Link>, cfg: ScanConfig, cache: Cache, i: nat,
                    processed: set<string>, ships: seq<Ship>, cur: Cache)
    requires i < |links| && ScanState(links, cfg, cache, i, processed, ships, cur)
    requires PickAt(links, cfg, i).None?
    ensures ScanState(links, cfg, cache, i + 1,
                      if Accepted(links[i]) then processed + {FullUrl(links[i].href, cfg.keepAbsolute)} else processed,
                      ships, cur)
  {
    ScanNext(links, cfg, i);
  }

  /** A picked link appends its ship, records its URL and writes the
      ship's id to the cache when it is cacheable. */
  lemma ScanPicked(links: seq<Link>, cfg: ScanConfig, cache: Cache, i: nat,
                   processed: set<string>, ships: seq<Ship>, cur: Cache)
    requires i < |links| && ScanState(links, cfg, cache, i, processed, ships, cur)
    requires PickAt(links, cfg, i) == Some(ScanShip(links[i], cfg))
    ensures var s := ScanShip(links[i], cfg);
            && Picks(links, cfg, i + 1) == ships + [s]
            && Seen(links, cfg, i + 1) == processed + {s.url}
            && (if cfg.caches then CacheShips(cache, ships + [s]) else cache)
               == (if cfg.caches && Cacheable(s.id) then cur[CacheKey(s.name) := s.id] else cur)
  {
    ScanNext(links, cfg, i);
    CacheShipsSnoc(cache, ships, ScanShip(links[i], cfg));
  }

  // ---------------------------------------------------------------------
  // What the scan guarantees
  // ---------------------------------------------------------------------

  /** Every picked ship passed the filter and carries a real id. */
  lemma {:induction false} PicksPass(links: seq<Link>, cfg: ScanConfig, n: nat)
    requires n <= |links|
    ensures forall k :: 0 <= k < |Picks(links, cfg, n)| ==>
              PassesLine(Picks(links, cfg, n)[k].name, cfg.line) && Picks(links, cfg, n)[k].id != Unknown
    decreases n
  {
    if n > 0 {
      PicksPass(links, cfg, n - 1);
      ScanNext(links, cfg, n - 1);
    }
  }

  /** Link `i` only adds to the recorded URLs: its own URL when it is
      accepted, and a pick's URL is new before it and recorded after. */
  lemma SeenStep(links: seq<Link>, cfg: ScanConfig, i: nat)
    requires i < |links|
    ensures Seen(links, cfg, i) <= Seen(links, cfg, i + 1)
    ensures Accepted(links[i]) ==> FullUrl(links[i].href, cfg.keepAbsolute) in Seen(links, cfg, i + 1)
    ensures PickAt(links, cfg, i).Some? ==>
              && PickAt(links, cfg, i).value.url !in Seen(links, cfg, i)
              && PickAt(links, cfg, i).value.url in Seen(links, cfg, i + 1)
  {
    ScanNext(links, cfg, i);
  }

  /** Every ship's URL is in `seen`, and no two ships share a URL. */
  predicate UrlsRecorded(ships: seq<Ship>, seen: set<string>) {
    && (forall k :: 0 <= k < |ships| ==> ships[k].url in seen)
    && (forall a, b :: 0 <= a < b < |ships| ==> ships[a].url != ships[b].url)
  }

  /** Recording more URLs, and appending a ship whose URL was not yet
      recorded but now is, keeps the URLs recorded and distinct. */
  lemma UrlsRecordedSnoc(prev: seq<Ship>, s: Option<Ship>, before: set<string>, after: set<string>)
    requires UrlsRecorded(prev, before) && before <= after
    requires s.Some? ==> s.value.url !in before && s.value.url in after
    ensures UrlsRecorded(if s.Some? then prev + [s.value] else prev, after)
  {
    if s.Some? {
      var cur := prev + [s.value];
      forall a, b | 0 <= a < b < |cur|
        ensures cur[a].url != cur[b].url
      {
        assert cur[a] == prev[a];
        if b < |prev| {
          assert cur[b] == prev[b];
        } else {
          assert cur[a].url in before;
        }
      }
    }
  }

  /** Picked URLs are recorded, and no URL is picked twice. */
  lemma {:induction false} PicksUrls(links: seq<Link>, cfg: ScanConfig, n: nat)
    requires n <= |links|
    ensures UrlsRecorded(Picks(links, cfg, n), Seen(links, cfg, n))
    decreases n
  {
    if n > 0 {
      var k := n - 1;
      PicksUrls(links, cfg, k);
      PicksUrlsStep(links, cfg, k);
    } else {
      assert Picks(links, cfg, n) == [];
    }
  }

  /** One more link keeps the picked URLs recorded and distinct. */
  lemma PicksUrlsStep(links: seq<Link>, cfg: ScanConfig, k: nat)
    requires k < |links|
    requires UrlsRecorded(Picks(links, cfg, k), Seen(links, cfg, k))
    ensures UrlsRecorded(Picks(links, cfg, k + 1), Seen(links, cfg, k + 1))
  {
    ScanNext(links, cfg, k);
    SeenStep(links, cfg, k);
    UrlsRecordedSnoc(Picks(links, cfg, k), PickAt(links, cfg, k), Seen(links, cfg, k), Seen(links, cfg, k + 1));
  }

  /** The scan never lists one URL twice. */
  lemma ScanUrlsDistinct(links: seq<Link>, cfg: ScanConfig)
    ensures forall a, b :: 0 <= a < b < |ScanResult(links, cfg)| ==> ScanResult(links, cfg)[a].url != ScanResult(links, cfg)[b].url
  {
    PicksUrls(links, cfg, if |links| < cfg.examine then |links| else cfg.examine);
  }

  /** Every accepted link among the first `n` has its URL recorded. */
  lemma SeenHas(links: seq<Link>, cfg: ScanConfig, n: nat, j: nat)
    requires j < n <= |links| && Accepted(links[j])
    ensures FullUrl(links[j].href, cfg.keepAbsolute) in Seen(links, cfg, n)
  {
    assert Urls(links, cfg)[j] == UrlAt(links[j], cfg);
    SomeSetHas(Urls(links, cfg), n, j);
  }

  /** Some ship in the list has URL `u`. */
  predicate HasUrl(ships: seq<Ship>, u: string) {
    exists k :: 0 <= k < |ships| && ships[k].url == u
  }

  /** A URL listed stays listed when the list grows at the end. */
  lemma HasUrlGrows(prev: seq<Ship>, cur: seq<Ship>, u: string)
    requires |prev| <= |cur| && prev == cur[..|prev|] && HasUrl(prev, u)
    ensures HasUrl(cur, u)
  {
    var k :| 0 <= k < |prev| && prev[k].url == u;
    assert cur[k] == prev[k];
  }

  /** A picked link's ship ends the picks so far. */
  lemma PickStep(links: seq<Link>, cfg: ScanConfig, i: nat)
    requires i < |links| && PickAt(links, cfg, i).Some?
    ensures Picks(links, cfg, i + 1) == Picks(links, cfg, i) + [PickAt(links, cfg, i).value]
  {
    assert Decisions(links, cfg)[i] == PickAt(links, cfg, i);
  }

  /** Without a filter, an accepted link whose URL is new is picked: its
      ship ends the picks. */
  lemma NewLinkPicked(links: seq<Link>, cfg: ScanConfig, i: nat)
    requires i < |links| && cfg.line == "" && Accepted(links[i])
    requires FullUrl(links[i].href, cfg.keepAbsolute) !in Seen(links, cfg, i)
    ensures Picks(links, cfg, i + 1) == Picks(links, cfg, i) + [ScanShip(links[i], cfg)]
  {
    assert PassesLine(Trim(links[i].text), cfg.line);
    assert PickAt(links, cfg, i) == Some(ScanShip(links[i], cfg));
    PickStep(links, cfg, i);
  }

  /** Without a filter, the URL of an accepted link that is new is
      picked. */
  lemma NewUrlPicked(links: seq<Link>, cfg: ScanConfig, n: nat)
    requires 0 < n <= |links| && cfg.line == "" && Accepted(links[n - 1])
    requires FullUrl(links[n - 1].href, cfg.keepAbsolute) !in Seen(links, cfg, n - 1)
    ensures HasUrl(Picks(links, cfg, n), FullUrl(links[n - 1].href, cfg.keepAbsolute))
  {
    var i := n - 1;
    NewLinkPicked(links, cfg, i);
    HasUrlSnoc(Picks(links, cfg, n), Picks(links, cfg, i), ScanShip(links[i], cfg),
               FullUrl(links[i].href, cfg.keepAbsolute));
  }

  /** A ship appended to a list is found there by its URL. */
  lemma HasUrlSnoc(cur: seq<Ship>, prev: seq<Ship>, s: Ship, u: string)
    requires cur == prev + [s] && s.url == u
    ensures HasUrl(cur, u)
  {
    assert cur[|prev|] == s;
  }

  /** Without a filter, every recorded URL belongs to a picked ship. */
  lemma {:induction false} PicksCoverSeen(links: seq<Link>, cfg: ScanConfig, n: nat)
    requires n <= |links| && cfg.line == ""
    ensures forall u :: u in Seen(links, cfg, n) ==> HasUrl(Picks(links, cfg, n), u)
    decreases n
  {
    if n > 0 {
      PicksCoverSeen(links, cfg, n - 1);
      ScanNext(links, cfg, n - 1);
      SomesPrefix(Decisions(links, cfg), n - 1, n);
      var prev, cur := Picks(links, cfg, n - 1), Picks(links, cfg, n);
      var before, after := Seen(links, cfg, n - 1), Seen(links, cfg, n);
      forall u | u in after
        ensures HasUrl(cur, u)
      {
        if u in before {
          HasUrlGrows(prev, cur, u);
        } else {
          NewUrlPicked(links, cfg, n);
        }
      }
    }
  }

  /** A scan with no filter and no stop lists the URL of every accepted
      link it examines: the test script's whole sample. */
  lemma ScanCompleteWithoutFilter(links: seq<Link>, cfg: ScanConfig)
    requires cfg.line == "" && cfg.stopAfter.None?
    ensures forall j :: 0 <= j < |links| && j < cfg.examine && Accepted(links[j]) ==>
              exists k :: 0 <= k < |ScanResult(links, cfg)| && ScanResult(links, cfg)[k].url == FullUrl(links[j].href, cfg.keepAbsolute)
  {
    var m := if |links| < cfg.examine then |links| else cfg.examine;
    var r := ScanResult(links, cfg);
    assert r == Picks(links, cfg, m);
    PicksCoverSeen(links, cfg, m);
    forall j | 0 <= j < |links| && j < cfg.examine && Accepted(links[j])
      ensures exists k :: 0 <= k < |r| && r[k].url == FullUrl(links[j].href, cfg.keepAbsolute)
    {
      SeenHas(links, cfg, m, j);
      assert HasUrl(r, FullUrl(links[j].href, cfg.keepAbsolute));
    }
  }

  /** The scan records a URL before it applies the filter: when a link
      that fails the filter comes first, a later link with the same href
      that passes it is skipped as already seen. */
  lemma FilterAfterUrlDedupe(a: Link, b: Link, cfg: ScanConfig)
    requires Accepted(a) && Accepted(b) && a.href == b.href
    requires !PassesLine(Trim(a.text), cfg.line) && PassesLine(Trim(b.text), cfg.line)
    ensures Picks([a, b], cfg, 2) == []
  {
    var links := [a, b];
    assert links[0] == a && links[1] == b;
    SeenStep(links, cfg, 0);
    assert PickAt(links, cfg, 0).None?;
    assert PickAt(links, cfg, 1).None?;
    ScanNext(links, cfg, 0);
    ScanNext(links, cfg, 1);
  }

  /** The browser listing returns at most `limit` ships, each passing the
      filter and carrying a real id. */
  lemma BrowserScanBounded(links: seq<Link>, line: string, limit: nat)
    ensures |ScanResult(links, BrowserScan(line, limit))| <= limit
    ensures forall k :: 0 <= k < |ScanResult(links, BrowserScan(line, limit))| ==>
              PassesLine(ScanResult(links, BrowserScan(line, limit))[k].name, line)
              && ScanResult(links, BrowserScan(line, limit))[k].id != Unknown
  {
    var cfg := BrowserScan(line, limit);
    var m := if |links| < cfg.examine then |links| else cfg.examine;
    PicksPass(links, cfg, m);
    if limit == 0 {
      assert m == 0;
    }
  }
}

=== FILE: names.dfy ===
/** Name normalisation: the lowercase cache key, the hyphenated URL slug and
    the URLs the servers build from them. */
module Names {
  import opened Text

  const SiteRoot: string := "https://www.cruisemapper.com"
  const ShipsListingUrl: string := SiteRoot + "/ships"

  /** A tool argument as JavaScript sees it: a string, or any other value
      (`undefined`, `null`, a number, an object). */
  datatype JsValue = JsString(s: string) | JsOther

  /** `safeToLowerCase`: the lowercased string, and `''` for the empty
      string or a non-string. */
  function SafeLower(v: JsValue): (r: string)
    ensures NoUpper(r)
    ensures (v.JsOther? || v == JsString("")) ==> r == ""
    ensures v.JsString? ==> |r| == |v.s| && Lower(r) == Lower(v.s)
  {
    match v
    case JsOther => ""
    case JsString(s) => LowerIdempotent(s); Lower(s)
  }

  /** The key of the id cache: the lowercased name, nothing else. */
  function CacheKey(name: string): string {
    Lower(name)
  }

  /** The URL slug: lowercase, then every maximal whitespace run becomes a
      single `-`; leading and trailing runs are kept, not trimmed. */
  function Slug(name: string): (r: string)
    ensures NoSpaces(r) && NoUpper(r)
    ensures |r| <= |name|
  {
    LowerIdempotent(name);
    ReplaceSpaceRuns(Lower(name), '-')
  }

  /** `https://www.cruisemapper.com/ships/<slug>-<id>`. */
  function ShipUrl(name: string, id: string): string {
    SiteRoot + "/ships/" + Slug(name) + "-" + id
  }

  /** `https://www.cruisemapper.com/ships/<slug>`, the URL without an id. */
  function BareShipUrl(name: string): string {
    SiteRoot + "/ships/" + Slug(name)
  }

  /** `https://www.cruisemapper.com/ports/<slug>`. */
  function PortUrl(name: string): string {
    SiteRoot + "/ports/" + Slug(name)
  }

  /** A slug is its own slug. */
  lemma SlugIdempotent(name: string)
    ensures Slug(Slug(name)) == Slug(name)
  {
    var s := Slug(name);
    LowerOfNoUpper(s);
    ReplaceSpaceRunsWord(s, "", '-');
    assert s + "" == s;
  }

  /** Names that differ only in letter case and in the length of their
      whitespace runs share one slug. */
  lemma SlugIgnoresCaseAndSpacing(a: string, b: string)
    requires ReplaceSpaceRuns(Lower(a), ' ') == ReplaceSpaceRuns(Lower(b), ' ')
    ensures Slug(a) == Slug(b)
  {
    ReplaceSpaceRunsCollapse(Lower(a), '-');
    ReplaceSpaceRunsCollapse(Lower(b), '-');
  }

  /** `a` and `b` agree character by character up to ASCII letter case. */
  predicate SameUpToCase(a: string, b: string) {
    |a| == |b| && forall i :: 0 <= i < |a| ==> a[i] == b[i] || LowerChar(a[i]) == b[i] || a[i] == LowerChar(b[i])
  }

  /** The cache key folds letter case and nothing else: two names share a
      key exactly when they agree up to letter case, so names whose
      whitespace runs differ in length never do. */
  lemma CacheKeyCaseOnly(a: string, b: string)
    ensures CacheKey(a) == CacheKey(b) <==> SameUpToCase(a, b)
    ensures |a| != |b| ==> CacheKey(a) != CacheKey(b)
  {
    if SameUpToCase(a, b) {
      forall i | 0 <= i < |a|
        ensures Lower(a)[i] == Lower(b)[i]
      {
      }
      assert Lower(a) == Lower(b);
    }
    if CacheKey(a) == CacheKey(b) {
      forall i | 0 <= i < |a|
        ensures a[i] == b[i] || LowerChar(a[i]) == b[i] || a[i] == LowerChar(b[i])
      {
        assert Lower(a)[i] == Lower(b)[i];
      }
    }
  }

  /** A word followed by one space slugs to the word and a hyphen. */
  lemma SlugOfWord(w: string, rest: string)
    requires NoSpaces(w)
    requires rest == [] || !IsSpace(rest[0])
    ensures ReplaceSpaceRuns(w + " " + rest, '-') == w + "-" + ReplaceSpaceRuns(rest, '-')
  {
    WiderRun(w, " ", rest);
  }

  /** A word followed by a whitespace run of any length slugs to the word
      and one hyphen. */
  lemma WiderRun(w: string, run: string, rest: string)
    requires NoSpaces(w) && AllSpaces(run) && |run| > 0
    requires rest == [] || !IsSpace(rest[0])
    ensures ReplaceSpaceRuns(w + run + rest, '-') == w + "-" + ReplaceSpaceRuns(rest, '-')
  {
    var tail := run + rest;
    TextAssoc(w, run, rest);
    ReplaceSpaceRunsWord(w, tail, '-');
    ReplaceSpaceRunsRun(run, rest, '-');
    TextAssoc(w, "-", ReplaceSpaceRuns(rest, '-'));
  }

  /** Widening one whitespace run between two words keeps the slug and
      changes the cache key: `"Liberty of the Seas"` and
      `"liberty   of the seas"` reach the same URL under two cache entries. */
  lemma WiderRunSameSlugOtherKey(w: string, run: string, rest: string)
    requires NoSpaces(w) && AllSpaces(run) && |run| > 1
    requires rest == [] || !IsSpace(rest[0])
    ensures Slug(w + run + rest) == Slug(w + " " + rest)
    ensures CacheKey(w + run + rest) != CacheKey(w + " " + rest)
  {
    LowerConcat(w, run);
    LowerConcat(w + run, rest);
    LowerConcat(w, " ");
    LowerConcat(w + " ", rest);
    LowerIdempotent(w);
    LowerIdempotent(run);
    LowerIdempotent(rest);
    var lw, lr, lt := Lower(w), Lower(run), Lower(rest);
    assert Lower(" ") == " ";
    assert lt == [] || !IsSpace(lt[0]);
    assert NoSpaces(lw) && AllSpaces(lr) && |lr| > 1;
    WiderRun(lw, lr, lt);
    WiderRun(lw, " ", lt);
    assert |CacheKey(w + run + rest)| != |CacheKey(w + " " + rest)|;
  }

  /** Words joined by single spaces slug to the same words joined by
      hyphens. */
  lemma {:induction false} SlugOfJoinedWords(words: seq<string>)
    requires |words| >= 1
    requires forall i :: 0 <= i < |words| ==> |words[i]| > 0 && NoSpaces(words[i])
    ensures ReplaceSpaceRuns(Join(words, ' '), '-') == Join(words, '-')
    decreases |words|
  {
    if |words| == 1 {
      ReplaceSpaceRunsWord(words[0], "", '-');
      assert words[0] + "" == words[0];
    } else {
      var rest := words[1..];
      SlugOfJoinedWords(rest);
      var j := Join(rest, ' ');
      assert j[0] == rest[0][0] by {
        if |rest| > 1 {
          assert j == rest[0] + [' '] + Join(rest[1..], ' ');
        }
      }
      SlugOfWord(words[0], j);
      assert Join(words, ' ') == words[0] + " " + j;
    }
  }

  /** A name whose lowercase form is words separated by single spaces gets
      the URL `/ships/<words joined by hyphens>-<id>`; `'Icon Of The Seas'`
      with id `737` gives `/ships/icon-of-the-seas-737`. */
  lemma ShipUrlOfWords(name: string, words: seq<string>, id: string)
    requires |words| >= 1
    requires forall i :: 0 <= i < |words| ==> |words[i]| > 0 && NoSpaces(words[i])
    requires Lower(name) == Join(words, ' ')
    ensures ShipUrl(name, id) == SiteRoot + "/ships/" + Join(words, '-') + "-" + id
  {
    SlugOfJoinedWords(words);
  }

  /** The slug is not trimmed: whitespace around a name becomes hyphens,
      so `' Foo '` slugs to `-foo-`. */
  lemma SlugKeepsOuterRuns(w: string)
    requires |w| > 0 && NoSpaces(w)
    ensures Slug(" " + w + " ") == "-" + Lower(w) + "-"
  {
    LowerAround(w);
    LowerIdempotent(w);
    RunsAround(Lower(w));
  }

  lemma LowerAround(w: string)
    ensures Lower(" " + w + " ") == " " + Lower(w) + " "
  {
    LowerConcat(" ", w);
    LowerConcat(" " + w, " ");
    assert Lower(" ") == " ";
  }

  lemma RunsAround(lw: string)
    requires |lw| > 0 && NoSpaces(lw)
    ensures ReplaceSpaceRuns(" " + lw + " ", '-') == "-" + lw + "-"
  {
    var tail := lw + " ";
    TextAssoc(" ", lw, " ");
    assert tail[0] == lw[0];
    ReplaceSpaceRunsRun(" ", tail, '-');
    ReplaceSpaceRunsWord(lw, " ", '-');
    OneSpaceRun('-');
    TextAssoc("-", lw, "-");
  }

  /** A lone space becomes one separator. */
  lemma OneSpaceRun(sep: char)
    ensures ReplaceSpaceRuns(" ", sep) == [sep]
  {
    ReplaceSpaceRunsRun(" ", "", sep);
    assert " " + "" == " ";
  }

}

=== FILE: seqs.dfy ===
/** Sequence helpers shared by the listing and table code: JavaScript's
    `filter` and `slice(0, n)`. */
module Seqs {
  import opened Wrappers

  /** `xs.filter(p)`: the elements satisfying `p`, in their original
      order. */
  function Keep<T>(xs: seq<T>, p: T -> bool): (r: seq<T>)
    ensures |r| <= |xs|
    ensures forall i :: 0 <= i < |r| ==> p(r[i])
    ensures forall x :: x in r ==> x in xs
    ensures forall x :: x in xs && p(x) ==> x in r
    ensures (forall i :: 0 <= i < |xs| ==> p(xs[i])) ==> r == xs
    decreases |xs|
  {
    if |xs| == 0 then []
    else
      var rest := Keep(xs[1..], p);
      assert forall x :: x in xs[1..] ==> x in xs;
      assert forall x :: x in xs ==> x == xs[0] || x in xs[1..];
      if p(xs[0]) then [xs[0]] + rest else rest
  }

  /** Filtering distributes over concatenation. */
  lemma {:induction false} KeepAppend<T>(a: seq<T>, b: seq<T>, p: T -> bool)
    ensures Keep(a + b, p) == Keep(a, p) + Keep(b, p)
    decreases |a|
  {
    if |a| > 0 {
      assert (a + b)[1..] == a[1..] + b;
      KeepAppend(a[1..], b, p);
    } else {
      assert a + b == b;
    }
  }

  /** Filtering keeps document order: one more element is appended at the
      end exactly when it passes. */
  lemma KeepSnoc<T>(xs: seq<T>, x: T, p: T -> bool)
    ensures Keep(xs + [x], p) == Keep(xs, p) + if p(x) then [x] else []
  {
    KeepAppend(xs, [x], p);
    assert Keep([x], p) == (if p(x) then [x] else []) by {
      assert [x][1..] == [];
    }
  }

  /** Appending commutes with splitting off the head. */
  lemma HeadSnoc<T>(xs: seq<T>, y: T)
    requires |xs| > 0
    ensures xs + [y] == [xs[0]] + (xs[1..] + [y])
  {
    assert xs == [xs[0]] + xs[1..];
  }

  /** A prefix one longer ends in the next element. */
  lemma TakeSnoc<T>(xs: seq<T>, j: nat)
    requires j < |xs|
    ensures xs[..j + 1] == xs[..j] + [xs[j]]
  {
  }

  /** `xs.slice(0, limit)`. */
  function Take<T>(xs: seq<T>, limit: nat): (r: seq<T>)
    ensures |r| == if |xs| < limit then |xs| else limit
    ensures r == xs[..|r|]
  {
    if |xs| <= limit then xs else xs[..limit]
  }

  /** Appending at most one element changes a slice only while the slice
      is not yet full. */
  lemma TakeAppendOne<T>(xs: seq<T>, e: seq<T>, limit: nat)
    requires |e| <= 1
    ensures |xs| >= limit ==> Take(xs + e, limit) == Take(xs, limit)
    ensures |xs| < limit ==> Take(xs + e, limit) == xs + e
  {
    if |xs| >= limit {
      assert (xs + e)[..limit] == xs[..limit];
    }
  }

  /** Slicing a sequence to the length of one of its prefixes gives that
      prefix. */
  lemma TakePrefix<T>(xs: seq<T>, p: seq<T>)
    requires |p| <= |xs| && p == xs[..|p|]
    ensures Take(xs, |p|) == p
  {
  }

  datatype Page<T> = Page(found: nat, shown: seq<T>)

  /** A count and the first few items: `{ found: xs.length, shown:
      xs.slice(0, limit) }`. */
  function PageOf<T>(xs: seq<T>, limit: nat): (p: Page<T>)
    ensures p.found == |xs|
    ensures |p.shown| == if |xs| <= limit then |xs| else limit
    ensures p.shown == xs[..|p.shown|]
    ensures |xs| <= limit ==> p.shown == xs
  {
    Page(|xs|, Take(xs, limit))
  }

  /** The values of the first `n` options that are present, in order. */
  function Somes<T>(ds: seq<Option<T>>, n: nat): (r: seq<T>)
    requires n <= |ds|
    ensures |r| <= n
    decreases n
  {
    if n == 0 then []
    else if ds[n - 1].Some? then Somes(ds, n - 1) + [ds[n - 1].value]
    else Somes(ds, n - 1)
  }

  /** The set of the values of the first `n` options that are present. */
  function SomeSet<T>(ds: seq<Option<T>>, n: nat): (r: set<T>)
    requires n <= |ds|
    decreases n
  {
    if n == 0 then {}
    else if ds[n - 1].Some? then SomeSet(ds, n - 1) + {ds[n - 1].value}
    else SomeSet(ds, n - 1)
  }

  /** A value present among the first `n` options is in their set. */
  lemma {:induction false} SomeSetHas<T>(ds: seq<Option<T>>, n: nat, j: nat)
    requires j < n <= |ds| && ds[j].Some?
    ensures ds[j].value in SomeSet(ds, n)
    decreases n
  {
    if j < n - 1 {
      SomeSetHas(ds, n - 1, j);
    }
  }

  /** Slicing the values of more options to the count of fewer gives the
      values of the fewer. */
  lemma SomesTakePrefix<T>(ds: seq<Option<T>>, a: nat, b: nat)
    requires a <= b <= |ds|
    ensures Take(Somes(ds, b), |Somes(ds, a)|) == Somes(ds, a)
  {
    SomesPrefix(ds, a, b);
    TakePrefix(Somes(ds, b), Somes(ds, a));
  }

  /** Looking at more options only appends values. */
  lemma {:induction false} SomesPrefix<T>(ds: seq<Option<T>>, a: nat, b: nat)
    requires a <= b <= |ds|
    ensures |Somes(ds, a)| <= |Somes(ds, b)|
    ensures Somes(ds, a) == Somes(ds, b)[..|Somes(ds, a)|]
    decreases b - a
  {
    if a < b {
      SomesPrefix(ds, a, b - 1);
      var pa, pm, pb := Somes(ds, a), Somes(ds, b - 1), Somes(ds, b);
      assert pb[..|pm|] == pm;
      assert pb[..|pm|][..|pa|] == pb[..|pa|];
    }
  }

  /** Every value listed comes from a present option, in order of
      position. */
  lemma {:induction false} SomesFrom<T>(ds: seq<Option<T>>, n: nat, k: nat) returns (j: nat)
    requires n <= |ds| && k < |Somes(ds, n)|
    ensures j < n && ds[j] == Some(Somes(ds, n)[k])
    decreases n
  {
    if k < |Somes(ds, n - 1)| {
      j := SomesFrom(ds, n - 1, k);
      SomesPrefix(ds, n - 1, n);
    } else {
      j := n - 1;
    }
  }

  // ---------------------------------------------------------------------
  // De-duplication through a JavaScript `Map`
  // ---------------------------------------------------------------------

  /** The position of the first `true` at or after `from`, `|bs|` when
      there is none. */
  function FirstTrue(bs: seq<bool>, from: nat): (p: nat)
    requires from <= |bs|
    ensures from <= p <= |bs|
    ensures p < |bs| ==> bs[p]
    ensures forall j :: from <= j < p ==> !bs[j]
    decreases |bs| - from
  {
    if from == |bs| then from
    else if bs[from] then from
    else FirstTrue(bs, from + 1)
  }

  /** Where key `k` first occurs among the first `n` pairs; `n` when it
      does not. */
  function FirstPos<K(==), V>(xs: seq<(K, V)>, k: K, n: nat): (p: nat)
    requires n <= |xs|
    ensures p <= n
    ensures p < n ==> xs[p].0 == k
    ensures forall i :: 0 <= i < p ==> xs[i].0 != k
    decreases n
  {
    if n == 0 then 0
    else
      var p := FirstPos(xs, k, n - 1);
      if p < n - 1 then p
      else if xs[n - 1].0 == k then n - 1
      else n
  }

  /** Where key `k` last occurs among the first `n` pairs; `n` when it
      does not. */
  function LastPos<K(==), V>(xs: seq<(K, V)>, k: K, n: nat): (p: nat)
    requires n <= |xs|
    ensures p <= n
    ensures p < n ==> xs[p].0 == k && forall i :: p < i < n ==> xs[i].0 != k
    ensures p == n ==> forall i :: 0 <= i < n ==> xs[i].0 != k
    decreases n
  {
    if n == 0 then 0
    else if xs[n - 1].0 == k then n - 1
    else
      var p := LastPos(xs, k, n - 1);
      if p < n - 1 then p else n
  }

  /** A JavaScript `Map`: its keys in insertion order and its entries. */
  datatype KeyedMap<K(==), V> = KeyedMap(keys: seq<K>, entries: map<K, V>)

  /** Keys are distinct and are exactly the entries' keys. */
  predicate ValidMap<K(==), V>(m: KeyedMap<K, V>) {
    && (forall i, j :: 0 <= i < j < |m.keys| ==> m.keys[i] != m.keys[j])
    && (forall k :: k in m.entries ==> k in m.keys)
    && (forall i :: 0 <= i < |m.keys| ==> m.keys[i] in m.entries)
  }

  /** `new Map(pairs)` over the first `n` pairs: `set` keeps a known key's
      place and replaces its value, and appends an unknown key. */
  function MapOf<K(==), V>(xs: seq<(K, V)>, n: nat): (m: KeyedMap<K, V>)
    requires n <= |xs|
    ensures ValidMap(m) && |m.keys| <= n
    decreases n
  {
    if n == 0 then KeyedMap([], map[])
    else
      var m := MapOf(xs, n - 1);
      var (k, v) := xs[n - 1];
      if k in m.entries then m.(entries := m.entries[k := v])
      else KeyedMap(m.keys + [k], m.entries[k := v])
  }

  /** `Array.from(map.entries())`: the pairs in key order. */
  function EntriesOf<K(==), V>(m: KeyedMap<K, V>): (r: seq<(K, V)>)
    requires ValidMap(m)
    ensures |r| == |m.keys|
    ensures forall i :: 0 <= i < |r| ==> r[i] == (m.keys[i], m.entries[m.keys[i]])
  {
    seq(|m.keys|, i requires 0 <= i < |m.keys| => (m.keys[i], m.entries[m.keys[i]]))
  }

  /** The entries of `new Map(xs)`, keys distinct. */
  function Dedupe<K(==), V>(xs: seq<(K, V)>): (r: seq<(K, V)>)
    ensures |r| <= |xs|
    ensures forall i, j :: 0 <= i < j < |r| ==> r[i].0 != r[j].0
  {
    EntriesOf(MapOf(xs, |xs|))
  }

  /** The second components. */
  function Seconds<K, V>(xs: seq<(K, V)>): (r: seq<V>)
    ensures |r| == |xs|
    ensures forall i :: 0 <= i < |r| ==> r[i] == xs[i].1
  {
    if xs == [] then [] else [xs[0].1] + Seconds(xs[1..])
  }

  /** The map holds exactly the keys that occur. */
  lemma {:induction false} MapOfKeys<K, V>(xs: seq<(K, V)>, n: nat)
    requires n <= |xs|
    ensures forall k :: k in MapOf(xs, n).entries <==> FirstPos(xs, k, n) < n
    decreases n
  {
    if n > 0 {
      MapOfKeys(xs, n - 1);
    }
  }

  /** A key's entry is the value of its last pair. */
  lemma {:induction false} MapOfLast<K, V>(xs: seq<(K, V)>, k: K, n: nat)
    requires n <= |xs| && k in MapOf(xs, n).entries
    ensures LastPos(xs, k, n) < n && MapOf(xs, n).entries[k] == xs[LastPos(xs, k, n)].1
    decreases n
  {
    var m := MapOf(xs, n - 1);
    if xs[n - 1].0 != k {
      assert k in m.entries && MapOf(xs, n).entries[k] == m.entries[k];
      MapOfLast(xs, k, n - 1);
      assert LastPos(xs, k, n) == LastPos(xs, k, n - 1);
    }
  }

  /** Keys stand in the order they first occur. */
  lemma {:induction false} MapOfOrder<K, V>(xs: seq<(K, V)>, n: nat)
    requires n <= |xs|
    ensures KeysInOrder(xs, n)
    decreases n
  {
    if n > 0 {
      MapOfOrder(xs, n - 1);
      MapOfOrderStep(xs, n);
    }
  }

  /** The keys of `new Map` over the first `n` pairs stand in the order
      they first occur. */
  predicate KeysInOrder<K(==), V>(xs: seq<(K, V)>, n: nat)
    requires n <= |xs|
  {
    forall i, j :: 0 <= i < j < |MapOf(xs, n).keys| ==>
      FirstPos(xs, MapOf(xs, n).keys[i], n) < FirstPos(xs, MapOf(xs, n).keys[j], n)
  }

  /** One more pair keeps the keys in first-occurrence order. */
  lemma MapOfOrderStep<K, V>(xs: seq<(K, V)>, n: nat)
    requires 0 < n <= |xs| && KeysInOrder(xs, n - 1)
    ensures KeysInOrder(xs, n)
  {
    forall i, j | 0 <= i < j < |MapOf(xs, n).keys|
      ensures FirstPos(xs, MapOf(xs, n).keys[i], n) < FirstPos(xs, MapOf(xs, n).keys[j], n)
    {
      MapOfOrderPair(xs, n, i, j);
    }
  }

  /** The order of two keys after one more pair. */
  lemma MapOfOrderPair<K, V>(xs: seq<(K, V)>, n: nat, i: nat, j: nat)
    requires 0 < n <= |xs| && KeysInOrder(xs, n - 1)
    requires i < j < |MapOf(xs, n).keys|
    ensures FirstPos(xs, MapOf(xs, n).keys[i], n) < FirstPos(xs, MapOf(xs, n).keys[j], n)
  {
    var m := MapOf(xs, n - 1);
    var ks := MapOf(xs, n).keys;
    assert ks[i] == m.keys[i] && ks[i] in m.entries;
    FirstPosKnown(xs, ks[i], n);
    if j < |m.keys| {
      assert ks[j] == m.keys[j] && ks[j] in m.entries;
      FirstPosKnown(xs, ks[j], n);
    } else {
      assert ks[j] == xs[n - 1].0 && ks[j] !in m.entries;
      MapOfKeys(xs, n - 1);
      assert FirstPos(xs, ks[j], n) == n - 1;
    }
  }

  /** A key already in the map first occurs before the last pair. */
  lemma FirstPosKnown<K, V>(xs: seq<(K, V)>, k: K, n: nat)
    requires 0 < n <= |xs|
    requires k in MapOf(xs, n - 1).entries
    ensures FirstPos(xs, k, n) == FirstPos(xs, k, n - 1) < n - 1
  {
    MapOfKeys(xs, n - 1);
  }

  /** Each entry of `new Map(xs)` is the last pair with its key. */
  lemma DedupeLast<K, V>(xs: seq<(K, V)>)
    ensures forall i :: 0 <= i < |Dedupe(xs)| ==>
              LastPos(xs, Dedupe(xs)[i].0, |xs|) < |xs| && Dedupe(xs)[i] == xs[LastPos(xs, Dedupe(xs)[i].0, |xs|)]
  {
    var m := MapOf(xs, |xs|);
    var r := Dedupe(xs);
    forall i | 0 <= i < |r|
      ensures LastPos(xs, r[i].0, |xs|) < |xs| && r[i] == xs[LastPos(xs, r[i].0, |xs|)]
    {
      assert r[i] == (m.keys[i], m.entries[m.keys[i]]);
      MapOfLast(xs, m.keys[i], |xs|);
    }
  }

  /** Every key that occurs in `xs` has an entry in `new Map(xs)`: the
      entry of pair `j`'s key is at `i`. */
  lemma DedupeFind<K, V>(xs: seq<(K, V)>, j: nat) returns (i: nat)
    requires j < |xs|
    ensures i < |Dedupe(xs)| && Dedupe(xs)[i].0 == xs[j].0
  {
    var m := MapOf(xs, |xs|);
    MapOfKeys(xs, |xs|);
    assert FirstPos(xs, xs[j].0, |xs|) < |xs|;
    assert xs[j].0 in m.keys;
    i :| 0 <= i < |m.keys| && m.keys[i] == xs[j].0;
  }

  /** The entries of `new Map(xs)` stand in the order their keys first
      occur. */
  lemma DedupeOrder<K, V>(xs: seq<(K, V)>)
    ensures forall i, j :: 0 <= i < j < |Dedupe(xs)| ==>
              FirstPos(xs, Dedupe(xs)[i].0, |xs|) < FirstPos(xs, Dedupe(xs)[j].0, |xs|)
  {
    var m := MapOf(xs, |xs|);
    MapOfOrder(xs, |xs|);
    assert forall i :: 0 <= i < |Dedupe(xs)| ==> Dedupe(xs)[i].0 == m.keys[i];
  }

  // ---------------------------------------------------------------------
  // Map writes
  // ---------------------------------------------------------------------

  /** `m.set(k1, v)`, then `m.set(k2, v)` when `both`. */
  function PutTwo<K, V>(m: map<K, V>, k1: K, k2: K, v: V, both: bool): (r: map<K, V>)
    ensures r.Keys == m.Keys + {k1} + (if both then {k2} else {})
    ensures r[k1] == v && (both ==> r[k2] == v)
    ensures forall k :: k in m && k != k1 && (!both || k != k2) ==> r[k] == m[k]
  {
    if both then m[k1 := v][k2 := v] else m[k1 := v]
  }
}

=== FILE: shipid.dfy ===
/** Ship ids in cruisemapper URLs: the four-pattern extractor, the
    `/ships/<slug>-<digits>` href filters and the older servers' one-off
    id regexes. Each regular expression is written out as a function over
    the string, next to a declarative description of what the expression
    matches. */
module ShipId {
  import opened Wrappers
  import opened Text
  import opened Names

  /** The id every extractor falls back to. */
  const Unknown: string := "unknown"

  // ---------------------------------------------------------------------
  // `<sep>(\d+)$`
  // ---------------------------------------------------------------------

  /** `s` ends with `sep` at position `p` followed only by digits, at least
      one of them. */
  predicate SepDigitsAt(s: string, sep: char, p: int) {
    0 <= p < |s| - 1 && s[p] == sep && AllDigits(s[p + 1..])
  }

  /** The capture of `/-(\d+)$/` (for `sep == '-'`) or `/\/(\d+)$/` (for
      `sep == '/'`). */
  function SepDigits(s: string, sep: char): (r: Option<string>)
    requires !IsDigit(sep)
    ensures r.Some? ==> SepDigitsAt(s, sep, |s| - |r.value| - 1) && IsSuffix(r.value, s)
    ensures r.None? ==> forall p :: !SepDigitsAt(s, sep, p)
  {
    var d := TrailingDigits(s);
    if 0 < |d| < |s| && s[|s| - |d| - 1] == sep then Some(d)
    else
      SepDigitsUnique(s, sep);
      None
  }

  /** The separator in front of a trailing digit run can only sit right
      before the whole maximal run. */
  lemma SepDigitsUnique(s: string, sep: char)
    requires !IsDigit(sep)
    ensures forall p :: SepDigitsAt(s, sep, p) ==> TrailingDigits(s) == s[p + 1..]
  {
    forall p | SepDigitsAt(s, sep, p)
      ensures TrailingDigits(s) == s[p + 1..]
    {
      TrailingDigitsUnique(s, s[p + 1..]);
    }
  }

  // ---------------------------------------------------------------------
  // `ships\/.*-(\d+)$`
  // ---------------------------------------------------------------------

  predicate NoLineTerminators(s: string) {
    forall i :: 0 <= i < |s| ==> !IsLineTerminator(s[i])
  }

  /** The second extractor pattern matches with `ships/` at `i` and the
      captured digits after the `-` at `p`; `.*` cannot cross a line
      terminator. */
  predicate ShipsPathAt(s: string, i: int, p: int) {
    SepDigitsAt(s, '-', p) && 0 <= i && i + 6 <= p && s[i..i + 6] == "ships/"
    && NoLineTerminators(s[i + 6..p])
  }

  /** Whenever the second pattern matches, the first has already matched
      with the same capture, so the second pattern never decides an id. */
  lemma ShipsPathSubsumed(s: string, i: int, p: int)
    requires ShipsPathAt(s, i, p)
    ensures SepDigits(s, '-') == Some(s[p + 1..])
  {
    SepDigitsUnique(s, '-');
  }

  // ---------------------------------------------------------------------
  // `id[=:](\d+)`
  // ---------------------------------------------------------------------

  /** `id=` or `id:` followed by a digit starts at `i`. */
  predicate IdParamAt(s: string, i: int) {
    0 <= i && i + 4 <= |s| && s[i] == 'i' && s[i + 1] == 'd'
    && (s[i + 2] == '=' || s[i + 2] == ':') && IsDigit(s[i + 3])
  }

  /** The leftmost match of `id[=:]\d` at or after `from`. */
  function IdParamFrom(s: string, from: nat): (r: Option<nat>)
    ensures r.Some? ==> from <= r.value && IdParamAt(s, r.value)
    ensures r.Some? ==> forall j :: from <= j < r.value ==> !IdParamAt(s, j)
    ensures r.None? ==> forall j :: from <= j ==> !IdParamAt(s, j)
    decreases |s| - from
  {
    if from + 4 > |s| then None
    else if IdParamAt(s, from) then Some(from)
    else IdParamFrom(s, from + 1)
  }

  /** The capture of `/id[=:](\d+)/`: the whole digit run after the
      leftmost `id=` or `id:` that has one. */
  function IdParam(s: string): (r: Option<string>)
    ensures r.Some? <==> exists i :: IdParamAt(s, i)
    ensures r.Some? ==> |r.value| > 0 && AllDigits(r.value)
  {
    match IdParamFrom(s, 0)
    case None => None
    case Some(i) =>
      var d := LeadingDigits(s[i + 3..]);
      assert d[0] == s[i + 3];
      Some(d)
  }

  // ---------------------------------------------------------------------
  // `extractShipId`
  // ---------------------------------------------------------------------

  /** `extractShipId(href)`: `'unknown'` for a missing href, else the
      capture of the first of the four patterns that matches, else
      `'unknown'`. The second pattern is left out of the chain because
      `ShipsPathSubsumed` shows it never matches where the first did not. */
  function ExtractShipId(href: string): (r: string)
    ensures r == Unknown || (|r| > 0 && AllDigits(r))
    ensures r != Unknown <==>
              href != "" && (SepDigits(href, '-').Some? || IdParam(href).Some? || SepDigits(href, '/').Some?)
  {
    if href == "" then Unknown
    else if SepDigits(href, '-').Some? then SepDigits(href, '-').value
    else if IdParam(href).Some? then IdParam(href).value
    else if SepDigits(href, '/').Some? then SepDigits(href, '/').value
    else Unknown
  }

  /** An href ending in `-<digits>` yields exactly those digits, whatever
      precedes them. */
  lemma ExtractDashDigits(href: string, p: int)
    requires SepDigitsAt(href, '-', p)
    ensures ExtractShipId(href) == href[p + 1..]
  {
    SepDigitsUnique(href, '-');
  }

  /** Without a trailing `-<digits>`, the leftmost `id=`/`id:` parameter
      wins over a trailing `/<digits>`. */
  lemma ExtractIdParam(href: string, i: int)
    requires forall p :: !SepDigitsAt(href, '-', p)
    requires IdParamAt(href, i) && forall j :: 0 <= j < i ==> !IdParamAt(href, j)
    ensures ExtractShipId(href) == LeadingDigits(href[i + 3..])
  {
    IdParamFromLeftmost(href, 0, i);
    assert IdParam(href) == Some(LeadingDigits(href[i + 3..]));
    assert SepDigits(href, '-').None?;
  }

  /** The leftmost match is the one the search finds. */
  lemma IdParamFromLeftmost(s: string, from: nat, i: int)
    requires from <= i && IdParamAt(s, i) && forall j :: from <= j < i ==> !IdParamAt(s, j)
    ensures IdParamFrom(s, from) == Some(i)
  {
  }

  /** A prefix that no extractor pattern can reach into: it ends in a
      character that is neither a digit, a separator nor the `i` of `id`,
      and nowhere holds `id`. */
  predicate QuietPrefix(pre: string) {
    && |pre| > 0
    && !IsDigit(pre[|pre| - 1]) && pre[|pre| - 1] !in "-/i"
    && forall k :: 0 <= k < |pre| - 1 ==> !(pre[k] == 'i' && pre[k + 1] == 'd')
  }

  /** The site root is such a prefix. */
  lemma SiteRootQuiet()
    ensures QuietPrefix(SiteRoot)
  {
  }

  /** A `<sep>(\d+)$` match in `pre + h` lies wholly inside `h`. */
  lemma SepDigitsAtUnderPrefix(pre: string, h: string, sep: char, q: int)
    requires |pre| > 0 && !IsDigit(pre[|pre| - 1]) && pre[|pre| - 1] != sep
    requires SepDigitsAt(pre + h, sep, q)
    ensures q >= |pre| && SepDigitsAt(h, sep, q - |pre|)
    ensures (pre + h)[q + 1..] == h[q - |pre| + 1..]
  {
    var u := pre + h;
    assert u[|pre| - 1] == pre[|pre| - 1];
    assert forall k :: q + 1 <= k < |u| ==> u[k] == u[q + 1..][k - q - 1];
    assert q >= |pre|;
    assert u[q + 1..] == h[q - |pre| + 1..];
  }

  /** A `<sep>(\d+)$` match in `h` is one in `pre + h`. */
  lemma SepDigitsAtOverPrefix(pre: string, h: string, sep: char, p: int)
    requires SepDigitsAt(h, sep, p)
    ensures SepDigitsAt(pre + h, sep, |pre| + p)
  {
    var u := pre + h;
    assert u[|pre| + p + 1..] == h[p + 1..];
  }

  /** Two strings with a `<sep>(\d+)$` match over the same digits have
      the same capture. */
  lemma SepDigitsSame(u: string, h: string, sep: char, q: int, p: int)
    requires !IsDigit(sep)
    requires SepDigitsAt(u, sep, q) && SepDigitsAt(h, sep, p) && u[q + 1..] == h[p + 1..]
    ensures SepDigits(u, sep) == SepDigits(h, sep)
  {
    SepDigitsUnique(u, sep);
    SepDigitsUnique(h, sep);
  }

  /** Behind such a prefix the `<sep>(\d+)$` capture is unchanged. */
  lemma SepDigitsUnderPrefix(pre: string, h: string, sep: char)
    requires !IsDigit(sep)
    requires |pre| > 0 && !IsDigit(pre[|pre| - 1]) && pre[|pre| - 1] != sep
    ensures SepDigits(pre + h, sep) == SepDigits(h, sep)
  {
    var u := pre + h;
    if SepDigits(u, sep).Some? {
      var q := |u| - |SepDigits(u, sep).value| - 1;
      SepDigitsAtUnderPrefix(pre, h, sep, q);
      SepDigitsSame(u, h, sep, q, q - |pre|);
    } else if SepDigits(h, sep).Some? {
      var p := |h| - |SepDigits(h, sep).value| - 1;
      SepDigitsAtOverPrefix(pre, h, sep, p);
    }
  }

  /** An `id[=:]\d` match in `pre + h` lies wholly inside `h`, and every
      match in `h` is one in `pre + h`. */
  lemma IdParamAtUnderPrefix(pre: string, h: string, j: int)
    requires QuietPrefix(pre)
    ensures IdParamAt(pre + h, j) <==> j >= |pre| && IdParamAt(h, j - |pre|)
  {
    var u := pre + h;
    if j >= |pre| && j + 4 <= |u| {
      assert u[j..j + 4] == h[j - |pre|..j - |pre| + 4];
    } else if 0 <= j < |pre| - 1 {
      assert u[j] == pre[j] && u[j + 1] == pre[j + 1];
    }
  }

  /** Behind a quiet prefix the `id[=:](\d+)` capture is unchanged. */
  lemma IdParamUnderPrefix(pre: string, h: string)
    requires QuietPrefix(pre)
    ensures IdParam(pre + h) == IdParam(h)
  {
    var u := pre + h;
    forall j | IdParamAt(u, j) ensures j >= |pre| && IdParamAt(h, j - |pre|) {
      IdParamAtUnderPrefix(pre, h, j);
    }
    forall j | IdParamAt(h, j) ensures IdParamAt(u, j + |pre|) {
      IdParamAtUnderPrefix(pre, h, j + |pre|);
    }
    assert u[|pre|..] == h;
    IdParamShifted(u, h, |pre|);
  }

  /** A string whose `id[=:]\d` matches are exactly those of its suffix
      `h`, shifted by `off`, has the same `id[=:](\d+)` capture. */
  lemma IdParamShifted(u: string, h: string, off: nat)
    requires off <= |u| && u[off..] == h
    requires forall j :: IdParamAt(u, j) ==> j >= off && IdParamAt(h, j - off)
    requires forall j :: IdParamAt(h, j) ==> IdParamAt(u, j + off)
    ensures IdParam(u) == IdParam(h)
  {
    match IdParamFrom(h, 0)
    case None =>
      assert IdParamFrom(u, 0).None?;
    case Some(i) =>
      NoMatchBefore(u, h, off, i);
      IdParamFromLeftmost(u, 0, off + i);
      assert u[off + i + 3..] == h[i + 3..];
      IdParamSameCapture(u, h, off + i, i);
  }

  /** Leftmost matches followed by the same text capture the same digits. */
  lemma IdParamSameCapture(u: string, h: string, x: nat, i: nat)
    requires IdParamFrom(u, 0) == Some(x) && IdParamFrom(h, 0) == Some(i)
    requires u[x + 3..] == h[i + 3..]
    ensures IdParam(u) == IdParam(h)
  {
  }

  /** No match in `h` before `i` means none in `u` before `off + i`. */
  lemma NoMatchBefore(u: string, h: string, off: nat, i: nat)
    requires forall j :: IdParamAt(u, j) ==> j >= off && IdParamAt(h, j - off)
    requires forall j :: 0 <= j < i ==> !IdParamAt(h, j)
    ensures forall j :: 0 <= j < off + i ==> !IdParamAt(u, j)
  {
  }

  /** The extractor reads the same id behind a quiet prefix, the site root
      among them: a relative href and its absolute URL share their id. */
  lemma ExtractUnderPrefix(pre: string, h: string)
    requires QuietPrefix(pre)
    ensures ExtractShipId(pre + h) == ExtractShipId(h)
  {
    SepDigitsUnderPrefix(pre, h, '-');
    SepDigitsUnderPrefix(pre, h, '/');
    IdParamUnderPrefix(pre, h);
    if h == "" {
      assert pre + h == pre;
      assert SepDigits("", '-').None? && SepDigits("", '/').None?;
      assert IdParamFrom("", 0).None?;
    }
  }

  /** A trailing `/<digits>` is the last resort. */
  lemma ExtractSlashDigits(href: string, p: int)
    requires forall q :: !SepDigitsAt(href, '-', q)
    requires forall i :: !IdParamAt(href, i)
    requires SepDigitsAt(href, '/', p)
    ensures ExtractShipId(href) == href[p + 1..]
  {
    SepDigitsUnique(href, '/');
  }

  /** The extractor is the inverse of URL construction: the id put after
      the slug is the id read back, for any ship name. */
  lemma ShipUrlIdRoundTrip(name: string, id: string)
    requires |id| > 0 && AllDigits(id)
    ensures ExtractShipId(ShipUrl(name, id)) == id
    ensures ExtractShipId("/ships/" + Slug(name) + "-" + id) == id
  {
    var u := ShipUrl(name, id);
    var prefix := SiteRoot + "/ships/" + Slug(name);
    assert u == prefix + "-" + id;
    assert u[|prefix| + 1..] == id;
    ExtractDashDigits(u, |prefix|);
    var h := "/ships/" + Slug(name) + "-" + id;
    var hp := "/ships/" + Slug(name);
    assert h == hp + "-" + id;
    assert h[|hp| + 1..] == id;
    ExtractDashDigits(h, |hp|);
  }

  /** An href without a single digit has no id: every pattern captures at
      least one digit. `'invalid-url'` is such an href. */
  lemma NoDigitsUnknown(href: string)
    requires forall i :: 0 <= i < |href| ==> !IsDigit(href[i])
    ensures ExtractShipId(href) == Unknown
  {
    forall p
      ensures !SepDigitsAt(href, '-', p) && !SepDigitsAt(href, '/', p)
    {
      if 0 <= p < |href| - 1 {
        assert href[p + 1..][0] == href[p + 1];
      }
    }
  }

  /** Whatever precedes it, `-<digits>` at the end is the id. */
  lemma ExtractDashed(pre: string, id: string)
    requires |id| > 0 && AllDigits(id)
    ensures ExtractShipId(pre + "-" + id) == id
  {
    var u := pre + "-" + id;
    assert u[|pre|] == '-' && u[|pre| + 1..] == id;
    ExtractDashDigits(u, |pre|);
  }

  /** The sample hrefs of the extractor's self-test and their ids. */
  lemma ExtractorSamples(slug: string, id: string)
    requires (slug, id) == ("/ships/icon-of-the-seas", "737") || (slug, id) == ("/ships/symphony-of-the-seas", "1000")
    ensures ExtractShipId(slug + "-" + id) == id
  {
    ExtractDashed(slug, id);
  }

  /** The self-test's malformed href has no id. */
  lemma InvalidSample(href: string)
    requires href == "invalid-url"
    ensures ExtractShipId(href) == Unknown
  {
    NoDigitsUnknown(href);
  }

  // ---------------------------------------------------------------------
  // `/\/ships\/[A-Za-z0-9-]+-\d+$/` and `/\/ships\/[a-z0-9-]+-\d+$/`
  // ---------------------------------------------------------------------

  /** A character of the slug class: `[A-Za-z0-9-]`, or `[a-z0-9-]` when
      uppercase letters are not allowed. */
  predicate SlugClassChar(c: char, upper: bool) {
    ('a' <= c <= 'z') || IsDigit(c) || c == '-' || (upper && IsUpper(c))
  }

  predicate AllSlugClass(s: string, upper: bool) {
    forall k :: 0 <= k < |s| ==> SlugClassChar(s[k], upper)
  }

  /** The ship-href expression matches with `/ships/` at `i` and the last
      `-` at `p`. */
  predicate ShipHrefAt(s: string, upper: bool, i: int, p: int) {
    SepDigitsAt(s, '-', p) && 0 <= i && i + 7 < p && s[i..i + 7] == "/ships/"
    && AllSlugClass(s[i + 7..p], upper)
  }

  /** The ship-href test, decided at the only `-` that can precede the
      final digit run. */
  function ShipHref(s: string, upper: bool): (b: bool)
    ensures b <==> exists i, p :: ShipHrefAt(s, upper, i, p)
  {
    SepDigitsUnique(s, '-');
    match SepDigits(s, '-')
    case None => false
    case Some(d) =>
      var p := |s| - |d| - 1;
      exists i :: 0 <= i && i + 7 < p && ShipHrefAt(s, upper, i, p)
  }

  /** A ship href always carries an id, and every id reader agrees on it:
      `extractShipId` and the older `/-(\d+)$/` capture. */
  lemma ShipHrefHasId(s: string, upper: bool)
    requires ShipHref(s, upper)
    ensures SepDigits(s, '-').Some?
    ensures ExtractShipId(s) == SepDigits(s, '-').value == TrailingDigits(s) != Unknown
  {
  }

  /** The lowercase-only expression of the older list handler accepts a
      subset of what the newer one accepts, and the same hrefs when they
      contain no uppercase letter. */
  lemma ShipHrefLowerVersusUpper(s: string)
    ensures ShipHref(s, false) ==> ShipHref(s, true)
    ensures NoUpper(s) ==> (ShipHref(s, false) <==> ShipHref(s, true))
  {
    if ShipHref(s, false) {
      var i, p :| ShipHrefAt(s, false, i, p);
      assert ShipHrefAt(s, true, i, p);
    }
    if NoUpper(s) && ShipHref(s, true) {
      var i, p :| ShipHrefAt(s, true, i, p);
      assert forall k :: i + 7 <= k < p ==> s[i + 7..p][k - i - 7] == s[k];
      assert ShipHrefAt(s, false, i, p);
    }
  }

  /** The canonical relative href `/ships/<slug>-<id>` passes the newer
      test whenever the slug is a non-empty run of the slug class. */
  lemma CanonicalHrefIsShipHref(slug: string, id: string)
    requires |slug| > 0 && AllSlugClass(slug, true)
    requires |id| > 0 && AllDigits(id)
    ensures ShipHref("/ships/" + slug + "-" + id, true)
  {
    var s := "/ships/" + slug + "-" + id;
    var p := 7 + |slug|;
    assert s[0..7] == "/ships/";
    assert s[7..p] == slug;
    assert s[p] == '-';
    assert s[p + 1..] == id;
    assert ShipHrefAt(s, true, 0, p);
  }

  // ---------------------------------------------------------------------
  // The older servers' id regexes
  // ---------------------------------------------------------------------

  /** `href.match(/-(\d+)$/)?.[1] || ''` of the older list handler. */
  function DashIdOrEmpty(href: string): (r: string)
    ensures r == "" <==> forall p :: !SepDigitsAt(href, '-', p)
    ensures r != "" ==> r == ExtractShipId(href)
    ensures AllDigits(r) && r != Unknown
  {
    SepDigitsUnique(href, '-');
    var r := SepDigits(href, '-').GetOr("");
    assert r != "" ==> r == href[|href| - |r|..] && AllDigits(r);
    assert !IsDigit(Unknown[0]);
    r
  }

  /** `url.match(/-(-\d+)$/)?.[1]` of the older details handler: a capture
      only for a URL ending in two hyphens and digits, and then it keeps the
      leading `-`. */
  function DoubleDashId(url: string): (r: Option<string>)
    ensures r.Some? ==> |r.value| > 1 && r.value[0] == '-' && IsSuffix(r.value, url)
    ensures r.Some? <==> SepDigits(url, '-').Some? && |url| >= |SepDigits(url, '-').value| + 2
                         && url[|url| - |SepDigits(url, '-').value| - 2] == '-'
  {
    match SepDigits(url, '-')
    case None => None
    case Some(d) =>
      if |url| >= |d| + 2 && url[|url| - |d| - 2] == '-' then
        Some(url[|url| - |d| - 1..])
      else None
  }

  /** On a canonical URL whose slug does not end with `-` the older details
      handler reads no id at all. */
  lemma DoubleDashMissesCanonical(name: string, id: string)
    requires |id| > 0 && AllDigits(id)
    requires |Slug(name)| == 0 || Slug(name)[|Slug(name)| - 1] != '-'
    ensures DoubleDashId(ShipUrl(name, id)).None?
  {
    var u := ShipUrl(name, id);
    var prefix := SiteRoot + "/ships/" + Slug(name);
    assert u == prefix + "-" + id;
    assert u[|prefix| + 1..] == id;
    ExtractDashDigits(u, |prefix|);
    assert u[|prefix| - 1] == prefix[|prefix| - 1];
  }

  /** A name with a trailing space slugs to a trailing `-`, and then the
      older details handler reads the id with a leading `-`. */
  lemma DoubleDashOnPaddedName(w: string, id: string)
    requires NoSpaces(w) && |id| > 0 && AllDigits(id)
    ensures DoubleDashId(ShipUrl(w + " ", id)) == Some("-" + id)
  {
    SlugTrailingSpace(w);
    var pre := SiteRoot + "/ships/" + Lower(w);
    assert ShipUrl(w + " ", id) == pre + "-" + "-" + id;
    DoubleDashOf(pre, id);
  }

  /** `--<digits>` at the end is read as `-<digits>`. */
  lemma DoubleDashOf(pre: string, id: string)
    requires |id| > 0 && AllDigits(id)
    ensures DoubleDashId(pre + "-" + "-" + id) == Some("-" + id)
  {
    var u := pre + "-" + "-" + id;
    assert u == (pre + "-") + "-" + id;
    DashedSepDigits(pre + "-", id);
    assert u[|u| - |id| - 2] == '-';
    assert u[|u| - |id| - 1..] == "-" + id;
  }

  /** The `-(\d+)$` capture of `<pre>-<digits>` is the digits. */
  lemma DashedSepDigits(pre: string, id: string)
    requires |id| > 0 && AllDigits(id)
    ensures SepDigits(pre + "-" + id, '-') == Some(id)
  {
    var u := pre + "-" + id;
    assert u[|pre|] == '-' && u[|pre| + 1..] == id;
    assert SepDigitsAt(u, '-', |pre|);
    SepDigitsUnique(u, '-');
  }

  lemma SlugTrailingSpace(w: string)
    requires NoSpaces(w)
    ensures Slug(w + " ") == Lower(w) + "-"
  {
    var lw := Lower(w);
    LowerIdempotent(w);
    LowerConcat(w, " ");
    assert Lower(" ") == " ";
    assert NoSpaces(lw);
    WiderRun(lw, " ", "");
    assert lw + " " + "" == lw + " ";
  }
}

=== FILE: shiplist.dfy ===
/** `handleListAllShips` of the fixed server and of the older enhanced
    server: which backend lists the ships, the HTTP listing with its
    filter, de-duplication and slice, and the older handler's second pass
    over table rows. */
module ShipList {
  import opened Wrappers
  import opened Seqs
  import opened Text
  import opened Names
  import opened ShipId
  import opened Document
  import opened Fetch
  import opened Listing

  /** Some ship in the list is called `name`. */
  predicate HasName(ships: seq<Ship>, name: string) {
    exists k :: 0 <= k < |ships| && ships[k].name == name
  }

  /** Which backend produced a listing. */
  datatype Backend = Browser | Http | NoBackend

  /** The listing reply: `total_found`, the ships (`returned` is their
      count) and the backend; or the older server's `Could not fetch ship
      list` text. */
  datatype ListReply = ListReply(found: nat, ships: seq<Ship>, backend: Backend) | ListError

  /** A reply together with the id cache after the call. */
  datatype Listed = Listed(reply: ListReply, cache: Cache)

  // ---------------------------------------------------------------------
  // The HTTP listing of the fixed server
  // ---------------------------------------------------------------------

  /** The ship a listing link stands for: trimmed text, absolute URL and
      extracted id. */
  function LinkShip(l: Link): Ship {
    Ship(Trim(l.text), SiteRoot + l.href, ExtractShipId(l.href))
  }

  function LinkShips(links: seq<Link>): (r: seq<Ship>)
    ensures |r| == |links|
    ensures forall i :: 0 <= i < |r| ==> r[i] == LinkShip(links[i])
  {
    if links == [] then [] else [LinkShip(links[0])] + LinkShips(links[1..])
  }

  /** The ships whose name passes the cruise-line filter. */
  function OnLine(ships: seq<Ship>, line: string): (r: seq<Ship>)
    ensures |r| <= |ships|
    ensures forall i :: 0 <= i < |r| ==> PassesLine(r[i].name, line)
    ensures forall s :: s in r <==> s in ships && PassesLine(s.name, line)
  {
    if ships == [] then []
    else
      var rest := OnLine(ships[1..], line);
      assert forall s :: s in ships <==> s == ships[0] || s in ships[1..];
      if PassesLine(ships[0].name, line) then [ships[0]] + rest else rest
  }

  /** `listShipsWithAxios`: every accepted link is cached, then the filter,
      the de-duplication by name and the slice; `total_found` is the
      sliced count. A failed fetch is the empty `Failed` reply. */
  function HttpList(page: Option<Doc>, line: string, limit: nat, cache: Cache): (r: Listed)
    ensures r.reply.ListReply? && r.reply.found == |r.reply.ships| <= limit
    ensures page.None? <==> r.reply.backend == NoBackend
    ensures page.None? ==> r.reply.ships == [] && r.cache == cache
    ensures forall i, j :: 0 <= i < j < |r.reply.ships| ==> r.reply.ships[i].name != r.reply.ships[j].name
    ensures page.Some? ==>
              var unique := HttpUnique(page.value, line);
              && |r.reply.ships| == (if |unique| <= limit then |unique| else limit)
              && r.reply.ships == unique[..|r.reply.ships|]
  {
    match page
    case None => Listed(ListReply(0, [], NoBackend), cache)
    case Some(d) =>
      FirstShips(HttpUnique(d, line), limit, CacheShips(cache, LinkShips(Keep(d.shipLinks, Accepted))))
  }

  /** The HTTP listing's reply over its de-duplicated ships: the first
      `limit` of them, counted as shown. */
  function FirstShips(unique: seq<Ship>, limit: nat, cache: Cache): (r: Listed)
    requires forall i, j :: 0 <= i < j < |unique| ==> unique[i].name != unique[j].name
    ensures r.reply.ListReply? && r.reply.backend == Http && r.cache == cache
    ensures r.reply.found == |r.reply.ships| == (if |unique| <= limit then |unique| else limit)
    ensures r.reply.ships == unique[..|r.reply.ships|]
    ensures forall i, j :: 0 <= i < j < |r.reply.ships| ==> r.reply.ships[i].name != r.reply.ships[j].name
  {
    var shown := Take(unique, limit);
    Listed(ListReply(|shown|, shown, Http), cache)
  }

  /** The fixed handler's list before the slice: the accepted links' ships
      passing the filter, de-duplicated by name. */
  function HttpUnique(d: Doc, line: string): (r: seq<Ship>)
    ensures forall i, j :: 0 <= i < j < |r| ==> r[i].name != r[j].name
  {
    DedupeByName(OnLine(LinkShips(Keep(d.shipLinks, Accepted)), line))
  }

  /** The ship comes from an accepted link and its name passes the
      filter. */
  predicate HttpSourced(d: Doc, line: string, s: Ship) {
    PassesLine(s.name, line) && s in LinkShips(Keep(d.shipLinks, Accepted))
  }

  /** Every ship the HTTP listing returns is an accepted link's ship whose
      name passes the filter. */
  lemma HttpListSound(d: Doc, line: string, limit: nat, cache: Cache)
    ensures forall i :: 0 <= i < |HttpList(Some(d), line, limit, cache).reply.ships| ==>
              HttpSourced(d, line, HttpList(Some(d), line, limit, cache).reply.ships[i])
  {
    HttpUniqueSound(d, line);
    SourcedPrefix(d, line, HttpUnique(d, line), HttpList(Some(d), line, limit, cache).reply.ships);
  }

  /** A prefix of sourced ships holds only sourced ships. */
  lemma SourcedPrefix(d: Doc, line: string, u: seq<Ship>, r: seq<Ship>)
    requires |r| <= |u| && r == u[..|r|]
    requires forall i :: 0 <= i < |u| ==> HttpSourced(d, line, u[i])
    ensures forall i :: 0 <= i < |r| ==> HttpSourced(d, line, r[i])
  {
    forall i | 0 <= i < |r|
      ensures HttpSourced(d, line, r[i])
    {
      assert r[i] == u[i];
    }
  }

  /** A ship the filter keeps is an input ship that passes it. */
  lemma OnLineSound(ships: seq<Ship>, line: string, s: Ship)
    requires s in OnLine(ships, line)
    ensures s in ships && PassesLine(s.name, line)
  {
  }

  lemma HttpUniqueSound(d: Doc, line: string)
    ensures forall i :: 0 <= i < |HttpUnique(d, line)| ==> HttpSourced(d, line, HttpUnique(d, line)[i])
  {
    var filtered := OnLine(LinkShips(Keep(d.shipLinks, Accepted)), line);
    var unique := HttpUnique(d, line);
    assert unique == DedupeByName(filtered);
    DedupeSubset(filtered);
    forall i | 0 <= i < |unique|
      ensures HttpSourced(d, line, unique[i])
    {
      OnLineSound(LinkShips(Keep(d.shipLinks, Accepted)), line, unique[i]);
    }
  }

  /** The HTTP listing caches every accepted link's id, whether or not the
      ship passes the cruise-line filter. */
  lemma HttpCachesUnfiltered(d: Doc, line: string, limit: nat, cache: Cache, j: nat)
    requires j < |d.shipLinks| && Accepted(d.shipLinks[j]) && Cacheable(ExtractShipId(d.shipLinks[j].href))
    ensures CacheKey(Trim(d.shipLinks[j].text)) in HttpList(Some(d), line, limit, cache).cache
  {
    var kept := Keep(d.shipLinks, Accepted);
    var all := LinkShips(kept);
    var l := d.shipLinks[j];
    assert l in kept;
    var i :| 0 <= i < |kept| && kept[i] == l;
    assert all[i] == LinkShip(l);
    var key := CacheKey(Trim(l.text));
    assert Cacheable(all[i].id) && CacheKey(all[i].name) == key;
    CacheWritesReference(cache, all, |all|, key);
  }

  /** The ship of an accepted link whose name passes the filter survives
      the filter. */
  lemma LinkShipFiltered(d: Doc, line: string, j: nat)
    requires j < |d.shipLinks| && Accepted(d.shipLinks[j]) && PassesLine(Trim(d.shipLinks[j].text), line)
    ensures LinkShip(d.shipLinks[j]) in OnLine(LinkShips(Keep(d.shipLinks, Accepted)), line)
  {
    var kept := Keep(d.shipLinks, Accepted);
    var l := d.shipLinks[j];
    assert l in kept;
    var i :| 0 <= i < |kept| && kept[i] == l;
    assert LinkShips(kept)[i] == LinkShip(l);
  }

  /** When nothing is cut by the slice, every accepted link whose name
      passes the filter is listed under that name. */
  lemma HttpListComplete(d: Doc, line: string, limit: nat, cache: Cache, j: nat)
    requires j < |d.shipLinks| && Accepted(d.shipLinks[j]) && PassesLine(Trim(d.shipLinks[j].text), line)
    requires |HttpUnique(d, line)| <= limit
    ensures HasName(HttpList(Some(d), line, limit, cache).reply.ships, Trim(d.shipLinks[j].text))
  {
    var filtered := OnLine(LinkShips(Keep(d.shipLinks, Accepted)), line);
    var s := LinkShip(d.shipLinks[j]);
    LinkShipFiltered(d, line, j);
    var f :| 0 <= f < |filtered| && filtered[f] == s;
    DedupeKeepsEveryName(filtered);
    var unique := HttpUnique(d, line);
    assert unique == DedupeByName(filtered);
    var r := HttpList(Some(d), line, limit, cache).reply.ships;
    assert r == unique;
    var k :| 0 <= k < |r| && r[k].name == filtered[f].name;
  }

  // ---------------------------------------------------------------------
  // The older enhanced server: links, then table rows
  // ---------------------------------------------------------------------

  /** The older link test: an href matching the lowercase-only ship
      expression and a text that is not blank. */
  predicate OldAccepted(l: Link) {
    l.href != "" && ShipHref(l.href, false) && Trim(l.text) != ""
  }

  /** A table row whose first-cell anchor has a non-blank text and an
      href. */
  predicate RowUsable(l: Link) {
    Trim(l.text) != "" && l.href != ""
  }

  /** The older handler's ship for a link or a row: trimmed text, absolute
      URL and the `-<digits>` capture, `""` when there is none. */
  function OldShip(l: Link): Ship {
    Ship(Trim(l.text), SiteRoot + l.href, DashIdOrEmpty(l.href))
  }

  function OldShips(links: seq<Link>): (r: seq<Ship>)
    ensures |r| == |links|
    ensures forall i :: 0 <= i < |r| ==> r[i] == OldShip(links[i])
  {
    if links == [] then [] else [OldShip(links[0])] + OldShips(links[1..])
  }

  /** The older handler caches exactly the truthy ids: the `-<digits>`
      capture is never the `'unknown'` sentinel the cache writes skip. */
  lemma OldCacheableIsTruthy(l: Link)
    ensures Cacheable(OldShip(l).id) <==> DashIdOrEmpty(l.href) != ""
  {
  }

  /** The table pass: each row is appended unless a ship of that name is
      already listed, the rows appended before it included. */
  function MergeRows(ships: seq<Ship>, rows: seq<Ship>): (r: seq<Ship>)
    ensures |ships| <= |r| && r[..|ships|] == ships
    ensures forall i :: 0 <= i < |rows| ==> HasName(r, rows[i].name)
    ensures forall s :: s in r ==> s in ships || s in rows
    decreases |rows|
  {
    if rows == [] then ships
    else
      var next := if HasName(ships, rows[0].name) then ships else ships + [rows[0]];
      var r := MergeRows(next, rows[1..]);
      assert r[..|ships|] == next[..|ships|] == ships;
      assert HasName(next, rows[0].name) by {
        if !HasName(ships, rows[0].name) {
          assert next[|ships|] == rows[0];
        } else {
          var k :| 0 <= k < |ships| && ships[k].name == rows[0].name;
          assert next[k] == ships[k];
        }
      }
      var k :| 0 <= k < |next| && next[k].name == rows[0].name;
      assert r[k] == next[k];
      assert forall i :: 1 <= i < |rows| ==> rows[i] == rows[1..][i - 1];
      r
  }

  /** A table pass whose row names are all listed already adds nothing. */
  lemma {:induction false} MergeRowsKnownNames(ships: seq<Ship>, rows: seq<Ship>)
    requires forall i :: 0 <= i < |rows| ==> HasName(ships, rows[i].name)
    ensures MergeRows(ships, rows) == ships
    decreases |rows|
  {
    if rows != [] {
      assert forall i :: 0 <= i < |rows[1..]| ==> rows[1..][i] == rows[i + 1];
      MergeRowsKnownNames(ships, rows[1..]);
    }
  }

  /** The older handler's link-pass candidates: every accepted link. */
  function OldLinkShips(d: Doc): seq<Ship> {
    OldShips(Keep(d.shipLinks, OldAccepted))
  }

  /** The older handler's table-pass candidates: every usable row. */
  function OldRowShips(d: Doc): seq<Ship> {
    OldShips(Keep(d.rowLinks, RowUsable))
  }

  /** The older handler's list before the slice: the link ships passing
      the filter, the table rows of new names, then the de-duplication by
      name. */
  function OldUnique(d: Doc, line: string): (r: seq<Ship>)
    ensures forall i, j :: 0 <= i < j < |r| ==> r[i].name != r[j].name
  {
    DedupeByName(MergeRows(OnLine(OldLinkShips(d), line), OldRowShips(d)))
  }

  /** The older `handleListAllShips`: the link pass (cache every accepted
      link with an id, keep those passing the filter), the table pass
      (cache every usable row with an id, append rows of new names, with no
      filter), then the de-duplication by name and the slice;
      `total_found` counts before the slice. A failed fetch is the error
      text. The older reply names no method; `Http` records the axios-only
      fetch. */
  function OldList(page: Option<Doc>, line: string, limit: nat, cache: Cache): (r: Listed)
    ensures page.None? <==> r.reply.ListError?
    ensures page.None? ==> r.cache == cache
    ensures r.reply.ListReply? ==>
              && r.reply.backend == Http && |r.reply.ships| <= limit && |r.reply.ships| <= r.reply.found
              && (r.reply.found <= limit ==> |r.reply.ships| == r.reply.found)
    ensures r.reply.ListReply? ==>
              var unique := OldUnique(page.value, line);
              && r.reply.found == |unique|
              && |r.reply.ships| == (if |unique| <= limit then |unique| else limit)
              && r.reply.ships == unique[..|r.reply.ships|]
  {
    match page
    case None => Listed(ListError, cache)
    case Some(d) =>
      var unique := OldUnique(d, line);
      Listed(ListReply(|unique|, Take(unique, limit), Http),
             CacheShips(CacheShips(cache, OldLinkShips(d)), OldRowShips(d)))
  }

  /** The older handler lists no name twice: the table pass appends only
      new names and the de-duplication removes repeated link names. */
  lemma OldListDistinct(d: Doc, line: string, limit: nat, cache: Cache)
    ensures forall i, j :: 0 <= i < j < |OldList(Some(d), line, limit, cache).reply.ships| ==>
              OldList(Some(d), line, limit, cache).reply.ships[i].name != OldList(Some(d), line, limit, cache).reply.ships[j].name
  {
    OldListTakes(d, line, limit, cache);
  }

  /** The ship of a usable row is among the table-pass candidates. */
  lemma RowShipListed(d: Doc, j: nat)
    requires j < |d.rowLinks| && RowUsable(d.rowLinks[j])
    ensures OldShip(d.rowLinks[j]) in OldRowShips(d)
  {
    var kept := Keep(d.rowLinks, RowUsable);
    assert d.rowLinks[j] in kept;
    var i :| 0 <= i < |kept| && kept[i] == d.rowLinks[j];
    assert OldShips(kept)[i] == OldShip(d.rowLinks[j]);
  }

  /** The table pass ignores the cruise-line filter: when nothing is cut
      by the slice, every usable row is listed under its name, whether or
      not the name passes the filter. */
  lemma OldRowsIgnoreFilter(d: Doc, line: string, limit: nat, cache: Cache, j: nat)
    requires j < |d.rowLinks| && RowUsable(d.rowLinks[j])
    requires OldList(Some(d), line, limit, cache).reply.found <= limit
    ensures HasName(OldList(Some(d), line, limit, cache).reply.ships, Trim(d.rowLinks[j].text))
  {
    var rows := OldRowShips(d);
    var merged := MergeRows(OnLine(OldLinkShips(d), line), rows);
    var s := OldShip(d.rowLinks[j]);
    RowShipListed(d, j);
    var i :| 0 <= i < |rows| && rows[i] == s;
    assert HasName(merged, s.name);
    var f :| 0 <= f < |merged| && merged[f].name == s.name;
    DedupeKeepsEveryName(merged);
    var r := OldList(Some(d), line, limit, cache).reply.ships;
    assert r == DedupeByName(merged);
    var k :| 0 <= k < |r| && r[k].name == merged[f].name;
  }

  /** A ship the older handler may show: a link ship on the line, or a
      table-row ship. */
  predicate OldSourced(d: Doc, line: string, s: Ship)
  {
    || (s in OldLinkShips(d) && PassesLine(s.name, line))
    || s in OldRowShips(d)
  }

  /** Every ship of the de-duplicated older list is a link ship that
      passes the filter or a table-row ship. */
  lemma OldUniqueSound(d: Doc, line: string)
    ensures forall i :: 0 <= i < |OldUnique(d, line)| ==> OldSourced(d, line, OldUnique(d, line)[i])
  {
    var links := OldLinkShips(d);
    var merged := MergeRows(OnLine(links, line), OldRowShips(d));
    var r := OldUnique(d, line);
    DedupeKeepsLast(merged);
    forall i | 0 <= i < |r|
      ensures OldSourced(d, line, r[i])
    {
      var p := LastPos(Named(merged), r[i].name, |merged|);
      assert r[i] == merged[p];
      MergedSourced(d, line, merged[p]);
    }
  }

  /** A member of the merged list is a link ship on the line or a row. */
  lemma MergedSourced(d: Doc, line: string, s: Ship)
    requires s in MergeRows(OnLine(OldLinkShips(d), line), OldRowShips(d))
    ensures OldSourced(d, line, s)
  {
    assert s in OnLine(OldLinkShips(d), line) || s in OldRowShips(d);
  }

  /** Every ship the older handler lists is a link ship that passes the
      filter or a table-row ship. */
  lemma OldListSound(d: Doc, line: string, limit: nat, cache: Cache)
    ensures forall i :: 0 <= i < |OldList(Some(d), line, limit, cache).reply.ships| ==>
              OldSourced(d, line, OldList(Some(d), line, limit, cache).reply.ships[i])
  {
    OldUniqueSound(d, line);
    OldListTakes(d, line, limit, cache);
  }

  /** The older handler shows a prefix of its de-duplicated list. */
  lemma OldListTakes(d: Doc, line: string, limit: nat, cache: Cache)
    ensures OldList(Some(d), line, limit, cache).reply.ships == OldUnique(d, line)[..|OldList(Some(d), line, limit, cache).reply.ships|]
  {
  }

  /** The older handler caches the id of every usable row that has one,
      whatever the filter; the table pass writes after the link pass. */
  lemma OldCachesRows(d: Doc, line: string, limit: nat, cache: Cache, j: nat)
    requires j < |d.rowLinks| && RowUsable(d.rowLinks[j]) && DashIdOrEmpty(d.rowLinks[j].href) != ""
    ensures CacheKey(Trim(d.rowLinks[j].text)) in OldList(Some(d), line, limit, cache).cache
  {
    var rows := OldRowShips(d);
    var s := OldShip(d.rowLinks[j]);
    RowShipListed(d, j);
    var i :| 0 <= i < |rows| && rows[i] == s;
    var key := CacheKey(s.name);
    assert Cacheable(rows[i].id) && CacheKey(rows[i].name) == key;
    CacheWritesReference(CacheShips(cache, OldLinkShips(d)), rows, |rows|, key);
  }

  // ---------------------------------------------------------------------
  // The fixed server's dispatch
  // ---------------------------------------------------------------------

  /** The fixed `handleListAllShips`: on Render the HTTP listing; otherwise
      the browser scan of the listing page, falling back to the HTTP
      listing when the browser fails or finds no ship link (the wait for
      `a[href*="/ships/"]` throws). The browser reply counts what it
      returns. */
  function ListAllShips(b: Backends, line: string, limit: nat, cache: Cache): (r: Listed)
    ensures r.reply.ListReply? && r.reply.found == |r.reply.ships| <= limit
    ensures r.reply.backend == Browser ==> !IsRender(b.env) && b.browser(ShipsListingUrl).Some?
    ensures r.reply.backend == NoBackend <==> b.http(ShipsListingUrl).None? && r.reply.backend != Browser
  {
    var page := b.browser(ShipsListingUrl);
    if !IsRender(b.env) && page.Some? && |page.value.shipLinks| > 0 then
      var ships := ScanResult(page.value.shipLinks, BrowserScan(line, limit));
      BrowserScanBounded(page.value.shipLinks, line, limit);
      Listed(ListReply(|ships|, ships, Browser), CacheShips(cache, ships))
    else
      HttpList(HttpFetcher(b)(ShipsListingUrl), line, limit, cache)
  }

  /** On Render the browser is never consulted: any other browser gives
      the same listing, and it is the HTTP listing. */
  lemma RenderSkipsBrowser(b: Backends, other: Fetcher, line: string, limit: nat, cache: Cache)
    requires IsRender(b.env)
    ensures ListAllShips(b, line, limit, cache) == ListAllShips(b.(browser := other), line, limit, cache)
    ensures ListAllShips(b, line, limit, cache).reply.backend != Browser
  {
  }

  /** The browser listing caches exactly what it returns, in order. */
  lemma BrowserListingCaches(b: Backends, line: string, limit: nat, cache: Cache)
    requires ListAllShips(b, line, limit, cache).reply.backend == Browser
    ensures ListAllShips(b, line, limit, cache).cache == CacheShips(cache, ListAllShips(b, line, limit, cache).reply.ships)
  {
  }

  /** Whatever the backend, every listed ship passes the cruise-line
      filter. */
  lemma ListAllShipsFiltered(b: Backends, line: string, limit: nat, cache: Cache)
    ensures forall i :: 0 <= i < |ListAllShips(b, line, limit, cache).reply.ships| ==>
              PassesLine(ListAllShips(b, line, limit, cache).reply.ships[i].name, line)
  {
    var page := b.browser(ShipsListingUrl);
    if !IsRender(b.env) && page.Some? && |page.value.shipLinks| > 0 {
      BrowserScanBounded(page.value.shipLinks, line, limit);
    } else {
      var h := HttpFetcher(b)(ShipsListingUrl);
      if h.Some? {
        HttpListSound(h.value, line, limit, cache);
      }
    }
  }
}

=== FILE: specs.dfy ===
/** Specification extraction from a ship page: nodes are visited in
    document order and, for every node, a list of rules in order. A rule
    names a key, and says whether a later match overwrites the stored value
    (`details.gross_tonnage = …`) or only fills a falsy one
    (`if (match && !specs[key])`). The amenity filter sits here too. */
module Specs {
  import opened Wrappers
  import opened Text
  import opened Seqs

  /** The extracted values, by key. */
  type SpecMap = map<string, string>

  /** `specs[key]` read as a JavaScript condition: present and non-empty. */
  predicate Truthy(specs: SpecMap, key: string) {
    key in specs && specs[key] != ""
  }

  /** What a rule reads out of one trimmed node text: `None` when it does
      not match, otherwise the value it would store. */
  type Capture = (string, string) -> Option<string>

  datatype Rule = Rule(key: string, overwrite: bool)

  predicate DistinctKeys(rules: seq<Rule>) {
    forall i, j :: 0 <= i < j < |rules| ==> rules[i].key != rules[j].key
  }

  /** One rule applied to one node. */
  function Step(specs: SpecMap, r: Rule, cap: Capture, text: string): (out: SpecMap)
    ensures forall k :: k != r.key ==> (k in out <==> k in specs) && (k in specs ==> out[k] == specs[k])
    ensures r.key in out <==> r.key in specs || cap(r.key, text).Some?
    ensures Truthy(specs, r.key) && !r.overwrite ==> out == specs
  {
    match cap(r.key, text)
    case None => specs
    case Some(v) => if r.overwrite || !Truthy(specs, r.key) then specs[r.key := v] else specs
  }

  /** All rules, in order, applied to one node. */
  function ScanNode(specs: SpecMap, rules: seq<Rule>, cap: Capture, text: string): (out: SpecMap)
    ensures forall k :: (forall i :: 0 <= i < |rules| ==> rules[i].key != k) ==>
              (k in out <==> k in specs) && (k in specs ==> out[k] == specs[k])
    decreases |rules|
  {
    if |rules| == 0 then specs
    else ScanNode(Step(specs, rules[0], cap, text), rules[1..], cap, text)
  }

  /** The extractor over a sequence of nodes: every node's text is trimmed
      and scanned, the first node first. */
  function Extract(nodes: seq<string>, rules: seq<Rule>, cap: Capture): (out: SpecMap)
    ensures forall k :: k in out ==> exists i :: 0 <= i < |rules| && rules[i].key == k
    decreases |nodes|
  {
    if |nodes| == 0 then map[]
    else ScanNode(Extract(nodes[..|nodes| - 1], rules, cap), rules, cap, Trim(nodes[|nodes| - 1]))
  }

  // ---------------------------------------------------------------------
  // Reference definitions, one key at a time
  // ---------------------------------------------------------------------

  /** The value a key holds, as an option. */
  function Get(specs: SpecMap, k: string): Option<string> {
    if k in specs then Some(specs[k]) else None
  }

  predicate Falsy(o: Option<string>) {
    o.None? || o.value == ""
  }

  /** What one key's rule reads out of every node, in node order. */
  function Captures(cap: Capture, k: string, nodes: seq<string>): (cs: seq<Option<string>>)
    ensures |cs| == |nodes|
    ensures forall i :: 0 <= i < |nodes| ==> cs[i] == cap(k, Trim(nodes[i]))
  {
    seq(|nodes|, i => if 0 <= i < |nodes| then cap(k, Trim(nodes[i])) else None)
  }

  /** For a fill-only key: the first non-empty capture; failing that `""`
      if anything matched; failing that nothing. */
  function FirstTruthy(cs: seq<Option<string>>): (r: Option<string>)
    ensures r.None? <==> forall i :: 0 <= i < |cs| ==> cs[i].None?
    ensures r == Some("") ==> forall i :: 0 <= i < |cs| ==> Falsy(cs[i])
    ensures !Falsy(r) ==> exists i :: 0 <= i < |cs| && cs[i] == r && forall j :: 0 <= j < i ==> Falsy(cs[j])
    decreases |cs|
  {
    if |cs| == 0 then None
    else
      var rest := FirstTruthy(cs[1..]);
      assert forall i :: 1 <= i < |cs| ==> cs[i] == cs[1..][i - 1];
      if !Falsy(cs[0]) then cs[0]
      else if rest.None? then cs[0]
      else rest
  }

  /** For an overwriting key: the last capture. */
  function LastCapture(cs: seq<Option<string>>): (r: Option<string>)
    ensures IsLastCapture(cs, r)
    decreases |cs|
  {
    if |cs| == 0 then None
    else
      var n := |cs| - 1;
      var rest := LastCapture(cs[..n]);
      if cs[n].Some? then
        assert NoneAfter(cs, n);
        cs[n]
      else
        LastCaptureSkips(cs, rest);
        rest
  }

  /** `r` is the last present capture of `cs`, with nothing after it, and
      is absent exactly when every capture is. */
  predicate IsLastCapture(cs: seq<Option<string>>, r: Option<string>) {
    && (r.None? <==> forall i :: 0 <= i < |cs| ==> cs[i].None?)
    && (r.Some? ==> exists i :: 0 <= i < |cs| && cs[i] == r && NoneAfter(cs, i))
  }

  /** No capture after position `i` is present. */
  predicate NoneAfter(cs: seq<Option<string>>, i: nat) {
    forall j :: i < j < |cs| ==> cs[j].None?
  }

  /** An absent last capture leaves the answer of the rest in place. */
  lemma LastCaptureSkips(cs: seq<Option<string>>, r: Option<string>)
    requires |cs| > 0 && cs[|cs| - 1].None? && IsLastCapture(cs[..|cs| - 1], r)
    ensures IsLastCapture(cs, r)
  {
    var n := |cs| - 1;
    assert forall i :: 0 <= i < n ==> cs[..n][i] == cs[i];
    if r.Some? {
      var i :| 0 <= i < n && cs[..n][i] == r && NoneAfter(cs[..n], i);
      assert cs[i] == r && NoneAfter(cs, i);
    }
  }

  /** What a key holds after one more node, given what it held before. */
  function StepValue(before: Option<string>, c: Option<string>, overwrite: bool): Option<string> {
    match c
    case None => before
    case Some(v) => if overwrite || Falsy(before) then Some(v) else before
  }

  lemma {:induction false} FirstTruthySnoc(cs: seq<Option<string>>, c: Option<string>)
    ensures FirstTruthy(cs + [c]) == StepValue(FirstTruthy(cs), c, false)
    decreases |cs|
  {
    if |cs| > 0 {
      assert (cs + [c])[1..] == cs[1..] + [c];
      FirstTruthySnoc(cs[1..], c);
    }
  }

  lemma LastCaptureSnoc(cs: seq<Option<string>>, c: Option<string>)
    ensures LastCapture(cs + [c]) == StepValue(LastCapture(cs), c, true)
  {
    assert (cs + [c])[..|cs|] == cs;
  }

  lemma StepGet(specs: SpecMap, r: Rule, cap: Capture, text: string)
    ensures Get(Step(specs, r, cap, text), r.key) == StepValue(Get(specs, r.key), cap(r.key, text), r.overwrite)
  {
  }

  /** Within one node, a key is touched only by its own rule. */
  lemma {:induction false} ScanNodeGet(specs: SpecMap, rules: seq<Rule>, cap: Capture, text: string, i: nat)
    requires DistinctKeys(rules) && i < |rules|
    ensures Get(ScanNode(specs, rules, cap, text), rules[i].key)
            == StepValue(Get(specs, rules[i].key), cap(rules[i].key, text), rules[i].overwrite)
    decreases |rules|
  {
    var s1 := Step(specs, rules[0], cap, text);
    if i == 0 {
      StepGet(specs, rules[0], cap, text);
      assert forall j :: 0 <= j < |rules[1..]| ==> rules[1..][j].key != rules[0].key by {
        forall j | 0 <= j < |rules[1..]| ensures rules[1..][j].key != rules[0].key {
          assert rules[1..][j] == rules[j + 1];
        }
      }
    } else {
      assert rules[1..][i - 1] == rules[i];
      assert DistinctKeys(rules[1..]) by {
        forall a, b | 0 <= a < b < |rules[1..]| ensures rules[1..][a].key != rules[1..][b].key {
          assert rules[1..][a] == rules[a + 1] && rules[1..][b] == rules[b + 1];
        }
      }
      ScanNodeGet(s1, rules[1..], cap, text, i - 1);
      assert rules[0].key != rules[i].key;
    }
  }

  /** The extractor agrees, key by key, with the reference definitions:
      a fill-only key holds its first non-empty capture (or `""`), an
      overwriting key its last capture. */
  lemma {:induction false} ExtractMatchesReference(nodes: seq<string>, rules: seq<Rule>, cap: Capture, i: nat)
    requires DistinctKeys(rules) && i < |rules|
    ensures !rules[i].overwrite ==>
              Get(Extract(nodes, rules, cap), rules[i].key) == FirstTruthy(Captures(cap, rules[i].key, nodes))
    ensures rules[i].overwrite ==>
              Get(Extract(nodes, rules, cap), rules[i].key) == LastCapture(Captures(cap, rules[i].key, nodes))
    decreases |nodes|
  {
    if |nodes| > 0 {
      var n := |nodes| - 1;
      var k := rules[i].key;
      var init := nodes[..n];
      ExtractMatchesReference(init, rules, cap, i);
      var before := Extract(init, rules, cap);
      assert Extract(nodes, rules, cap) == ScanNode(before, rules, cap, Trim(nodes[n]));
      ScanNodeGet(before, rules, cap, Trim(nodes[n]), i);
      var c := cap(k, Trim(nodes[n]));
      var cs := Captures(cap, k, init);
      CapturesSnoc(cap, k, nodes);
      if rules[i].overwrite {
        LastCaptureSnoc(cs, c);
      } else {
        FirstTruthySnoc(cs, c);
      }
    }
  }

  lemma CapturesSnoc(cap: Capture, k: string, nodes: seq<string>)
    requires |nodes| > 0
    ensures Captures(cap, k, nodes)
            == Captures(cap, k, nodes[..|nodes| - 1]) + [cap(k, Trim(nodes[|nodes| - 1]))]
  {
  }

  // ---------------------------------------------------------------------
  // The registries
  // ---------------------------------------------------------------------

  /** The twelve keys of the fixed and older enhanced servers' registry, in
      registry order. */
  const SpecKeys: seq<string> := ["gross_tonnage", "passengers", "crew", "length", "beam", "draft",
                                  "decks", "cabins", "year_built", "last_refurbished", "speed", "cruise_line"]

  /** The five keys of the real-ships script's registry. */
  const TestSpecKeys: seq<string> := ["gross_tonnage", "passengers", "crew", "year_built", "cruise_line"]

  /** A regular-expression registry as an abstract matcher: the first
      capture group of `key`'s pattern on a text, if the pattern matches. */
  type Matcher = (string, string) -> Option<string>

  /** A registry pattern stores its capture trimmed. */
  function RegistryCapture(m: Matcher): Capture {
    (k, text) => match m(k, text) case None => None case Some(c) => Some(Trim(c))
  }

  function FillOnly(keys: seq<string>): (rules: seq<Rule>)
    ensures |rules| == |keys|
    ensures forall i :: 0 <= i < |keys| ==> rules[i] == Rule(keys[i], false)
  {
    seq(|keys|, i => Rule(if 0 <= i < |keys| then keys[i] else "", false))
  }

  /** The registry extractor (`for (const [key, pattern] of
      Object.entries(patterns))` over `$('table td, div')`). */
  function RegistrySpecs(nodes: seq<string>, keys: seq<string>, m: Matcher): (specs: SpecMap)
    ensures specs.Keys <= set k | k in keys
  {
    var out := Extract(nodes, FillOnly(keys), RegistryCapture(m));
    assert forall k :: k in out ==> k in keys;
    out
  }

  lemma SpecKeysDistinct()
    ensures DistinctKeys(FillOnly(SpecKeys)) && DistinctKeys(FillOnly(TestSpecKeys))
  {
  }

  /** First match wins in the registry: for each registry key, the stored
      value is the trimmed capture of the first node whose trimmed capture
      is non-empty; a stored empty value is replaced by a later match. */
  lemma RegistryFirstMatchWins(nodes: seq<string>, keys: seq<string>, m: Matcher, i: nat)
    requires DistinctKeys(FillOnly(keys)) && i < |keys|
    ensures Get(RegistrySpecs(nodes, keys, m), keys[i]) == FirstTruthy(Captures(RegistryCapture(m), keys[i], nodes))
  {
    ExtractMatchesReference(nodes, FillOnly(keys), RegistryCapture(m), i);
  }

  /** The real-ships script's five-pattern extractor is the fixed server's
      on the five keys they share: same patterns give same values. */
  lemma TestRegistryAgrees(nodes: seq<string>, m: Matcher, i: nat, j: nat)
    requires i < |TestSpecKeys| && j < |SpecKeys| && TestSpecKeys[i] == SpecKeys[j]
    ensures Get(RegistrySpecs(nodes, TestSpecKeys, m), TestSpecKeys[i])
            == Get(RegistrySpecs(nodes, SpecKeys, m), SpecKeys[j])
  {
    SpecKeysDistinct();
    RegistryFirstMatchWins(nodes, TestSpecKeys, m, i);
    RegistryFirstMatchWins(nodes, SpecKeys, m, j);
  }

  // ---------------------------------------------------------------------
  // The plain server's label-strip extractor
  // ---------------------------------------------------------------------

  /** `gross_tonnage` and `passengers` are overwritten by every matching
      node; `length`, `decks` and `year_built` are only filled. */
  const LabelRules: seq<Rule> := [Rule("gross_tonnage", true), Rule("passengers", true),
                                  Rule("length", false), Rule("decks", false), Rule("year_built", false)]

  /** The label each key looks for. */
  function LabelOf(key: string): string {
    if key == "gross_tonnage" then "Gross tonnage:"
    else if key == "passengers" then "Passengers:"
    else if key == "length" then "Length:"
    else if key == "decks" then "Decks:"
    else "Year built:"
  }

  /** `if (text.includes(label)) value = text.replace(label, '').trim()`. */
  function LabelCapture(key: string, text: string): (r: Option<string>)
    ensures r.Some? <==> Contains(text, LabelOf(key))
    ensures r.Some? ==> |r.value| <= |text| - |LabelOf(key)|
    ensures r.Some? ==>
              r.value == StripLabel(text, LabelOf(key))
  {
    var marker := LabelOf(key);
    if Contains(text, marker) then
      var v := StripLabel(text, marker);
      assert |v| <= |text| - |marker|;
      Some(v)
    else
      None
  }

  /** A node holding its key's label yields the text with the label's
      leftmost occurrence cut out, then trimmed. */
  lemma LabelCaptureValue(key: string, text: string)
    requires Contains(text, LabelOf(key))
    ensures var m := LabelOf(key);
            var k := IndexOf(text, m).value;
            LabelCapture(key, text) == Some(Trim(text[..k] + text[k + |m|..]))
  {
  }

  /** `text.replace(marker, '').trim()` for a text holding the marker. */
  function StripLabel(text: string, marker: string): (v: string)
    requires Contains(text, marker)
    ensures |v| <= |text| - |marker|
    ensures var k := IndexOf(text, marker).value;
            v == Trim(text[..k] + text[k + |marker|..])
  {
    var k := IndexOf(text, marker).value;
    var rest := RemoveFirst(text, marker);
    assert rest == text[..k] + text[k + |marker|..];
    Trim(rest)
  }

  /** The plain server's details extractor over `$('div, span, td')`. */
  function LabelSpecs(nodes: seq<string>): SpecMap {
    Extract(nodes, LabelRules, LabelCapture)
  }

  /** Last match wins for gross tonnage and passengers, first non-empty
      match for length, decks and year built; nothing else is stored. */
  lemma LabelSpecsReference(nodes: seq<string>)
    ensures Get(LabelSpecs(nodes), "gross_tonnage") == LastCapture(Captures(LabelCapture, "gross_tonnage", nodes))
    ensures Get(LabelSpecs(nodes), "passengers") == LastCapture(Captures(LabelCapture, "passengers", nodes))
    ensures Get(LabelSpecs(nodes), "length") == FirstTruthy(Captures(LabelCapture, "length", nodes))
    ensures Get(LabelSpecs(nodes), "decks") == FirstTruthy(Captures(LabelCapture, "decks", nodes))
    ensures Get(LabelSpecs(nodes), "year_built") == FirstTruthy(Captures(LabelCapture, "year_built", nodes))
    ensures forall k :: k in LabelSpecs(nodes) ==> exists i :: 0 <= i < |LabelRules| && LabelRules[i].key == k
  {
    assert DistinctKeys(LabelRules);
    ExtractMatchesReference(nodes, LabelRules, LabelCapture, 0);
    ExtractMatchesReference(nodes, LabelRules, LabelCapture, 1);
    ExtractMatchesReference(nodes, LabelRules, LabelCapture, 2);
    ExtractMatchesReference(nodes, LabelRules, LabelCapture, 3);
    ExtractMatchesReference(nodes, LabelRules, LabelCapture, 4);
  }

  // ---------------------------------------------------------------------
  // Amenities
  // ---------------------------------------------------------------------

  /** A list item counts as an amenity when its trimmed text has between 6
      and 99 characters. */
  predicate AmenityText(t: string) {
    5 < |t| < 100
  }

  /** Every list item's text, trimmed. */
  function TrimAll(items: seq<string>): (ts: seq<string>)
    ensures |ts| == |items|
    ensures forall i :: 0 <= i < |items| ==> ts[i] == Trim(items[i])
  {
    seq(|items|, i => if 0 <= i < |items| then Trim(items[i]) else "")
  }

  /** `details.amenities`: absent when nothing passes the filter, else the
      first twenty that do, in page order. */
  function Amenities(items: seq<string>): (r: Option<seq<string>>)
    ensures var ts := TrimAll(items);
            && (r.None? <==> forall i :: 0 <= i < |ts| ==> !AmenityText(ts[i]))
            && (r.Some? ==> var kept := Keep(ts, AmenityText);
                            && |r.value| == (if |kept| < 20 then |kept| else 20)
                            && r.value == kept[..|r.value|]
                            && forall i :: 0 <= i < |r.value| ==> AmenityText(r.value[i]))
  {
    var all := Keep(TrimAll(items), AmenityText);
    if |all| == 0 then None
    else
      assert all[0] in all;
      Some(Take(all, 20))
  }

  /** Amenities follow page order: one more list item is appended to the
      list exactly when its trimmed text passes and fewer than twenty are
      already listed; otherwise the result is unchanged. */
  lemma AmenitiesSnoc(items: seq<string>, x: string)
    ensures var before := Amenities(items);
            var after := Amenities(items + [x]);
            var t := Trim(x);
            && (before.None? ==> after == if AmenityText(t) then Some([t]) else None)
            && (before.Some? && |before.value| < 20 ==>
                  after == Some(before.value + if AmenityText(t) then [t] else []))
            && (before.Some? && |before.value| == 20 ==> after == before)
  {
    var t := Trim(x);
    var e: seq<string> := if AmenityText(t) then [t] else [];
    var kept := Keep(TrimAll(items), AmenityText);
    AmenitiesOfKept(items);
    AmenitiesOfKept(items + [x]);
    KeptSnoc(items, x);
    TakeAppendOne(kept, e, 20);
    if |kept| == 0 {
      assert kept + e == e;
    }
  }

  /** Amenities in terms of the kept list. */
  lemma AmenitiesOfKept(items: seq<string>)
    ensures var kept := Keep(TrimAll(items), AmenityText);
            Amenities(items) == if |kept| == 0 then None else Some(Take(kept, 20))
  {
  }

  /** The kept list grows by the new item's trimmed text when it passes. */
  lemma KeptSnoc(items: seq<string>, x: string)
    ensures Keep(TrimAll(items + [x]), AmenityText)
            == Keep(TrimAll(items), AmenityText) + if AmenityText(Trim(x)) then [Trim(x)] else []
  {
    TrimAllSnoc(items, x);
    KeepSnoc(TrimAll(items), Trim(x), AmenityText);
  }

  /** Trimming works item by item. */
  lemma TrimAllSnoc(items: seq<string>, x: string)
    ensures TrimAll(items + [x]) == TrimAll(items) + [Trim(x)]
  {
    var a, b := TrimAll(items), TrimAll(items + [x]);
    forall i | 0 <= i < |a|
      ensures b[i] == a[i]
    {
      assert (items + [x])[i] == items[i];
    }
    assert b[|a|] == Trim(x) by {
      assert (items + [x])[|items|] == x;
    }
    assert b == a + [Trim(x)];
  }
}

=== FILE: tables.dfy ===
/** Table-to-record mapping: the schedule tables of a ship page (cells
    stored under their column's header text) and the port tables (cells
    mapped to ship/arrival/departure/date/line by header keyword, or by
    column index in the plain server); plus the itinerary links. */
module Tables {
  import opened Wrappers
  import opened Text
  import opened Names
  import opened Document
  import opened Seqs

  // ---------------------------------------------------------------------
  // Records with string keys (a JavaScript object built by assignment)
  // ---------------------------------------------------------------------

  /** An object's own properties in insertion order. */
  type Record = seq<(string, string)>

  predicate DistinctKeys(rec: Record) {
    forall i, j :: 0 <= i < j < |rec| ==> rec[i].0 != rec[j].0
  }

  /** `rec[k]`, `None` when the property is missing. */
  function Lookup(rec: Record, k: string): (r: Option<string>)
    ensures r.None? <==> forall i :: 0 <= i < |rec| ==> rec[i].0 != k
    ensures r.Some? ==> exists i :: 0 <= i < |rec| && rec[i] == (k, r.value)
    decreases |rec|
  {
    if |rec| == 0 then None
    else if rec[0].0 == k then Some(rec[0].1)
    else
      assert forall i :: 1 <= i < |rec| ==> rec[i] == rec[1..][i - 1];
      Lookup(rec[1..], k)
  }

  /** `rec[k] = v`: an existing property keeps its place and takes the new
      value, a new one is appended. */
  function Put(rec: Record, k: string, v: string): (r: Record)
    requires DistinctKeys(rec)
    ensures DistinctKeys(r)
    ensures Lookup(r, k) == Some(v)
    ensures forall k' :: k' != k ==> Lookup(r, k') == Lookup(rec, k')
    ensures |r| == if Lookup(rec, k).Some? then |rec| else |rec| + 1
    decreases |rec|
  {
    if |rec| == 0 then [(k, v)]
    else if rec[0].0 == k then
      assert forall i :: 1 <= i < |rec| ==> rec[i] == rec[1..][i - 1];
      [(k, v)] + rec[1..]
    else
      assert forall i :: 1 <= i < |rec| ==> rec[i] == rec[1..][i - 1];
      var tail := Put(rec[1..], k, v);
      assert Lookup(tail, rec[0].0) == Lookup(rec[1..], rec[0].0) == None;
      [rec[0]] + tail
  }

  /** An assignment to an existing key keeps every position's key, so
      the key order is unchanged. */
  lemma {:induction false} PutKeepsKeys(rec: Record, k: string, v: string)
    requires DistinctKeys(rec) && Lookup(rec, k).Some?
    ensures |Put(rec, k, v)| == |rec|
    ensures forall i :: 0 <= i < |rec| ==> Put(rec, k, v)[i].0 == rec[i].0
    decreases |rec|
  {
    if rec[0].0 != k {
      var tail := rec[1..];
      assert forall i :: 1 <= i < |rec| ==> rec[i] == tail[i - 1];
      PutKeepsKeys(tail, k, v);
      var r := Put(rec, k, v);
      assert r == [rec[0]] + Put(tail, k, v);
      forall i | 1 <= i < |rec|
        ensures r[i].0 == rec[i].0
      {
        assert r[i] == Put(tail, k, v)[i - 1];
      }
    }
  }

  /** An assignment to a new key appends it after the existing ones. */
  lemma {:induction false} PutAppendsNewKey(rec: Record, k: string, v: string)
    requires DistinctKeys(rec) && Lookup(rec, k).None?
    ensures Put(rec, k, v) == rec + [(k, v)]
    decreases |rec|
  {
    if |rec| > 0 {
      var tail := rec[1..];
      assert forall i :: 1 <= i < |rec| ==> rec[i] == tail[i - 1];
      assert rec[0].0 != k && Lookup(tail, k).None?;
      PutAppendsNewKey(tail, k, v);
      assert Put(rec, k, v) == [rec[0]] + Put(tail, k, v);
      HeadSnoc(rec, (k, v));
    }
  }

  // ---------------------------------------------------------------------
  // Schedule tables
  // ---------------------------------------------------------------------

  /** A schedule table is one with a header mentioning `date` or `port`,
      case-insensitively. */
  predicate IsScheduleTable(t: Table) {
    exists i :: 0 <= i < |t.headers| && (Contains(Lower(t.headers[i]), "date") || Contains(Lower(t.headers[i]), "port"))
  }

  /** The headers as the servers collect them: each `th` text trimmed. */
  function TrimmedHeaders(t: Table): (hs: seq<string>)
    ensures |hs| == |t.headers|
    ensures forall i :: 0 <= i < |hs| ==> hs[i] == Trim(t.headers[i])
  {
    seq(|t.headers|, i => if 0 <= i < |t.headers| then Trim(t.headers[i]) else "")
  }

  /** The record of the first `n` cells of a row: cell `k` goes under
      `headers[k]` when that header is a non-empty string. */
  function RowPrefix(headers: seq<string>, cells: seq<string>, n: nat): (r: Record)
    requires n <= |cells|
    ensures DistinctKeys(r)
    decreases n
  {
    if n == 0 then []
    else
      var before := RowPrefix(headers, cells, n - 1);
      var k := n - 1;
      if k < |headers| && headers[k] != "" then Put(before, headers[k], Trim(cells[k])) else before
  }

  /** One schedule row: `rowData[headers[k]] = cell.trim()` for every cell
      with a header. */
  function ScheduleRow(headers: seq<string>, cells: seq<string>): Record {
    RowPrefix(headers, cells, |cells|)
  }

  /** Column `k` is the last of the first `n` whose header is `h`. */
  predicate LastColumn(headers: seq<string>, h: string, k: nat, n: nat) {
    k < n && k < |headers| && headers[k] == h
    && forall j :: k < j < n && j < |headers| ==> headers[j] != h
  }

  /** None of the first `n` columns is headed `h`. */
  predicate NoColumn(headers: seq<string>, h: string, n: nat) {
    forall k :: 0 <= k < n && k < |headers| ==> headers[k] != h
  }

  /** Reference: the trimmed text of the last cell among the first `n`
      whose header is `h`. */
  function LastCellUnder(headers: seq<string>, cells: seq<string>, h: string, n: nat): (r: Option<string>)
    requires n <= |cells|
    ensures IsLastCell(headers, cells, h, n, r)
    decreases n
  {
    if n == 0 then None
    else if n - 1 < |headers| && headers[n - 1] == h then
      var k := n - 1;
      assert LastColumn(headers, h, k, n);
      ColumnNotAbsent(headers, h, k, n);
      Some(Trim(cells[k]))
    else
      var k := n - 1;
      var r := LastCellUnder(headers, cells, h, k);
      LastCellSkips(headers, cells, h, k, r);
      r
  }

  /** `r` is the trimmed cell under the last header `h` among the first
      `n`, and is absent exactly when no such header occurs. */
  predicate IsLastCell(headers: seq<string>, cells: seq<string>, h: string, n: nat, r: Option<string>) {
    && (r.None? <==> NoColumn(headers, h, n))
    && (r.Some? ==> exists k: nat :: LastColumn(headers, h, k, n) && k < |cells| && r.value == Trim(cells[k]))
  }

  /** A column not headed `h` leaves the answer for the earlier columns in
      place. */
  lemma LastCellSkips(headers: seq<string>, cells: seq<string>, h: string, m: nat, r: Option<string>)
    requires m < |cells| && !(m < |headers| && headers[m] == h)
    requires IsLastCell(headers, cells, h, m, r)
    ensures IsLastCell(headers, cells, h, m + 1, r)
  {
    if r.Some? {
      var k: nat :| LastColumn(headers, h, k, m) && k < |cells| && r.value == Trim(cells[k]);
      LastColumnExtends(headers, h, k, m);
      ColumnNotAbsent(headers, h, k, m + 1);
    } else {
      NoColumnExtends(headers, h, m);
    }
  }

  lemma LastColumnExtends(headers: seq<string>, h: string, k: nat, m: nat)
    requires LastColumn(headers, h, k, m) && !(m < |headers| && headers[m] == h)
    ensures LastColumn(headers, h, k, m + 1)
  {
  }

  lemma NoColumnExtends(headers: seq<string>, h: string, m: nat)
    requires NoColumn(headers, h, m) && !(m < |headers| && headers[m] == h)
    ensures NoColumn(headers, h, m + 1)
  {
  }

  lemma ColumnNotAbsent(headers: seq<string>, h: string, k: nat, n: nat)
    requires LastColumn(headers, h, k, n)
    ensures !NoColumn(headers, h, n)
  {
  }

  /** Every header holds its column's last cell; later duplicates of a
      header overwrite earlier ones; the empty header holds nothing. */
  lemma {:induction false} RowPrefixReference(headers: seq<string>, cells: seq<string>, n: nat, h: string)
    requires n <= |cells|
    ensures |h| > 0 ==> Lookup(RowPrefix(headers, cells, n), h) == LastCellUnder(headers, cells, h, n)
    ensures |h| == 0 ==> Lookup(RowPrefix(headers, cells, n), h).None?
    decreases n
  {
    if n > 0 {
      var k := n - 1;
      RowPrefixReference(headers, cells, k, h);
      RowPrefixStep(headers, cells, k, h);
    } else {
      assert RowPrefix(headers, cells, n) == [];
    }
  }

  /** The step of the induction: one more cell keeps the row record in
      agreement with the reference. */
  lemma RowPrefixStep(headers: seq<string>, cells: seq<string>, k: nat, h: string)
    requires k < |cells|
    requires |h| > 0 ==> Lookup(RowPrefix(headers, cells, k), h) == LastCellUnder(headers, cells, h, k)
    requires |h| == 0 ==> Lookup(RowPrefix(headers, cells, k), h).None?
    ensures |h| > 0 ==> Lookup(RowPrefix(headers, cells, k + 1), h) == LastCellUnder(headers, cells, h, k + 1)
    ensures |h| == 0 ==> Lookup(RowPrefix(headers, cells, k + 1), h).None?
  {
    var n := k + 1;
    var before := RowPrefix(headers, cells, k);
    assert LastCellUnder(headers, cells, h, n) ==
             if k < |headers| && headers[k] == h then Some(Trim(cells[k])) else LastCellUnder(headers, cells, h, k);
    if k < |headers| && headers[k] != "" {
      assert RowPrefix(headers, cells, n) == Put(before, headers[k], Trim(cells[k]));
    } else {
      assert RowPrefix(headers, cells, n) == before;
    }
  }

  /** A row yields a record exactly when one of its cells sits under a
      non-empty header. */
  lemma {:induction false} RowEmptyIff(headers: seq<string>, cells: seq<string>, n: nat)
    requires n <= |cells|
    ensures RowPrefix(headers, cells, n) == [] <==> forall k :: 0 <= k < n && k < |headers| ==> headers[k] == ""
    decreases n
  {
    if n > 0 {
      RowEmptyIff(headers, cells, n - 1);
      var before := RowPrefix(headers, cells, n - 1);
      var k := n - 1;
      if k < |headers| && headers[k] != "" {
        assert |RowPrefix(headers, cells, n)| >= |before|;
        assert Lookup(RowPrefix(headers, cells, n), headers[k]).Some?;
      }
    }
  }

  predicate NonEmpty(r: Record) {
    r != []
  }

  /** Every row's record, empty ones included. */
  function RowRecords(headers: seq<string>, rows: seq<seq<string>>): (rs: seq<Record>)
    ensures |rs| == |rows|
    ensures forall j :: 0 <= j < |rows| ==> rs[j] == ScheduleRow(headers, rows[j])
    decreases |rows|
  {
    if |rows| == 0 then [] else [ScheduleRow(headers, rows[0])] + RowRecords(headers, rows[1..])
  }

  /** The non-empty records of a schedule table's rows after the first. */
  function TableRecords(headers: seq<string>, rows: seq<seq<string>>): (rs: seq<Record>)
    ensures |rs| <= |rows|
    ensures forall i :: 0 <= i < |rs| ==> rs[i] != []
    ensures forall j :: 0 <= j < |rows| && ScheduleRow(headers, rows[j]) != [] ==> ScheduleRow(headers, rows[j]) in rs
    ensures forall x :: x in rs ==> exists j :: 0 <= j < |rows| && x == ScheduleRow(headers, rows[j])
  {
    var all := RowRecords(headers, rows);
    var rs := Keep(all, NonEmpty);
    assert forall j :: 0 <= j < |rows| ==> all[j] in all;
    rs
  }

  /** All schedule records of a page, table by table: a table counts only
      if it is a schedule table, and its first row is the header row. */
  function ScheduleRecords(tables: seq<Table>): (rs: seq<Record>)
    ensures forall i :: 0 <= i < |rs| ==> rs[i] != []
    decreases |tables|
  {
    if |tables| == 0 then []
    else
      var t := tables[0];
      var here := if IsScheduleTable(t) && |t.rows| > 0 then TableRecords(TrimmedHeaders(t), t.rows[1..]) else [];
      here + ScheduleRecords(tables[1..])
  }

  /** Tables that are not schedule tables contribute nothing, wherever they
      stand. */
  lemma {:induction false} ScheduleRecordsAppend(a: seq<Table>, b: seq<Table>)
    ensures ScheduleRecords(a + b) == ScheduleRecords(a) + ScheduleRecords(b)
    decreases |a|
  {
    if |a| > 0 {
      assert (a + b)[1..] == a[1..] + b;
      ScheduleRecordsAppend(a[1..], b);
    } else {
      assert a + b == b;
    }
  }

  lemma IgnoredTable(t: Table)
    requires !IsScheduleTable(t)
    ensures ScheduleRecords([t]) == []
  {
  }

  /** The header row is skipped: a table with nothing but a header row has
      no records. */
  lemma HeaderOnlyTable(t: Table)
    requires |t.rows| <= 1
    ensures ScheduleRecords([t]) == []
  {
  }

  /** The schedule block of a ship page, showing at most `limit` records
      (20 in the enhanced servers, 10 in the plain one). */
  function Schedules(tables: seq<Table>, limit: nat): (l: Page<Record>)
    ensures l.found == |ScheduleRecords(tables)|
    ensures |l.shown| == if l.found <= limit then l.found else limit
    ensures forall i :: 0 <= i < |l.shown| ==> l.shown[i] == ScheduleRecords(tables)[i]
  {
    PageOf(ScheduleRecords(tables), limit)
  }

  // ---------------------------------------------------------------------
  // Itinerary links
  // ---------------------------------------------------------------------

  datatype Itinerary = Itinerary(title: string, url: string)

  /** A link is listed when its trimmed text and its href are non-empty. */
  predicate Listed(l: Link) {
    Trim(l.text) != "" && l.href != ""
  }

  /** A listed link as title and absolute URL. */
  function ToItinerary(l: Link): (it: Itinerary)
    ensures it.title == Trim(l.text)
    ensures |it.url| == |SiteRoot| + |l.href| && it.url[|SiteRoot|..] == l.href
  {
    Itinerary(Trim(l.text), SiteRoot + l.href)
  }

  /** `itineraries`: the listed links in document order, as titles and
      absolute URLs. */
  function Itineraries(links: seq<Link>): (r: seq<Itinerary>)
    ensures |r| == |Keep(links, Listed)|
    ensures forall i :: 0 <= i < |r| ==> r[i] == ToItinerary(Keep(links, Listed)[i])
  {
    var kept := Keep(links, Listed);
    seq(|kept|, i => if 0 <= i < |kept| then ToItinerary(kept[i]) else Itinerary("", ""))
  }

  /** Every itinerary comes from a listed link, and every listed link
      gives one. */
  lemma ItinerariesFromListedLinks(links: seq<Link>)
    ensures forall i :: 0 <= i < |Itineraries(links)| ==> Itineraries(links)[i].title != ""
    ensures forall l :: l in links && Listed(l) ==> ToItinerary(l) in Itineraries(links)
  {
    forall l | l in links && Listed(l) ensures ToItinerary(l) in Itineraries(links) {
      ListedGivesItinerary(links, l);
    }
  }

  /** A listed link's itinerary is among the itineraries. */
  lemma ListedGivesItinerary(links: seq<Link>, l: Link)
    requires l in links && Listed(l)
    ensures ToItinerary(l) in Itineraries(links)
  {
    var kept := Keep(links, Listed);
    var i :| 0 <= i < |kept| && kept[i] == l;
    assert Itineraries(links)[i] == ToItinerary(l);
  }

  // ---------------------------------------------------------------------
  // Port tables
  // ---------------------------------------------------------------------

  /** One port call; a missing field is a property that was never set. */
  datatype PortCall = PortCall(ship: Option<string>, arrival: Option<string>, departure: Option<string>,
                               date: Option<string>, cruiseLine: Option<string>)

  const NoCall := PortCall(None, None, None, None, None)

  /** The field a header keyword selects, tried in the order ship,
      arrival, departure, date, line. */
  datatype Column = ShipCol | ArrivalCol | DepartureCol | DateCol | LineCol | NoCol

  function ColumnOf(header: string): Column {
    if Contains(header, "ship") then ShipCol
    else if Contains(header, "arrival") then ArrivalCol
    else if Contains(header, "departure") then DepartureCol
    else if Contains(header, "date") then DateCol
    else if Contains(header, "line") then LineCol
    else NoCol
  }

  function SetColumn(c: PortCall, col: Column, text: string): (r: PortCall)
    ensures col == NoCol ==> r == c
  {
    match col
    case ShipCol => c.(ship := Some(text))
    case ArrivalCol => c.(arrival := Some(text))
    case DepartureCol => c.(departure := Some(text))
    case DateCol => c.(date := Some(text))
    case LineCol => c.(cruiseLine := Some(text))
    case NoCol => c
  }

  /** The fixed and older enhanced servers' port row over its first `n`
      cells: cell `k` sets the field its (lowercased, trimmed) header
      selects; a later cell for the same field overwrites. */
  function KeywordRow(headers: seq<string>, cells: seq<string>, n: nat): PortCall
    requires n <= |cells|
    decreases n
  {
    if n == 0 then NoCall
    else
      var c := KeywordRow(headers, cells, n - 1);
      var k := n - 1;
      if k < |headers| && headers[k] != "" then SetColumn(c, ColumnOf(headers[k]), Trim(cells[k])) else c
  }

  /** The plain server's port row: cells 0 to 3 are ship, arrival,
      departure and date; any further cell is ignored. */
  function IndexRow(cells: seq<string>): (c: PortCall)
    ensures |cells| > 0 ==> c.ship == Some(Trim(cells[0]))
    ensures |cells| > 1 ==> c.arrival == Some(Trim(cells[1]))
    ensures |cells| > 2 ==> c.departure == Some(Trim(cells[2]))
    ensures |cells| > 3 ==> c.date == Some(Trim(cells[3]))
    ensures |cells| <= 0 ==> c.ship.None?
    ensures |cells| <= 1 ==> c.arrival.None?
    ensures |cells| <= 2 ==> c.departure.None?
    ensures |cells| <= 3 ==> c.date.None?
    ensures c.cruiseLine.None?
  {
    PortCall(if |cells| > 0 then Some(Trim(cells[0])) else None,
             if |cells| > 1 then Some(Trim(cells[1])) else None,
             if |cells| > 2 then Some(Trim(cells[2])) else None,
             if |cells| > 3 then Some(Trim(cells[3])) else None,
             None)
  }

  /** A row is kept when its `ship` is a non-empty string. */
  predicate KeptCall(c: PortCall) {
    c.ship.Some? && c.ship.value != ""
  }

  /** The headers of the keyword mapping: `th` text trimmed, lowercased. */
  function PortHeaders(t: Table): (hs: seq<string>)
    ensures |hs| == |t.headers|
    ensures forall i :: 0 <= i < |hs| ==> hs[i] == Lower(Trim(t.headers[i])) && NoUpper(hs[i])
  {
    LowerTrimAll(t.headers)
  }

  function LowerTrimAll(hs: seq<string>): (r: seq<string>)
    ensures |r| == |hs|
    ensures forall i :: 0 <= i < |hs| ==> r[i] == Lower(Trim(hs[i])) && NoUpper(r[i])
  {
    LowerTrimmedNoUpper(hs);
    seq(|hs|, i => if 0 <= i < |hs| then Lower(Trim(hs[i])) else "")
  }

  /** Lowercased headers hold no upper-case letter. */
  lemma LowerTrimmedNoUpper(hs: seq<string>)
    ensures forall i :: 0 <= i < |hs| ==> NoUpper(Lower(Trim(hs[i])))
  {
    forall i | 0 <= i < |hs|
      ensures NoUpper(Lower(Trim(hs[i])))
    {
      LowerIdempotent(Trim(hs[i]));
    }
  }

  /** A port table is one with a header mentioning ship, arrival or date. */
  predicate IsPortTable(hs: seq<string>) {
    exists i :: 0 <= i < |hs| && (Contains(hs[i], "ship") || Contains(hs[i], "arrival") || Contains(hs[i], "date"))
  }

  /** Every row's port call by keyword. */
  function KeywordRows(headers: seq<string>, rows: seq<seq<string>>): (cs: seq<PortCall>)
    ensures |cs| == |rows|
    ensures forall j :: 0 <= j < |rows| ==> cs[j] == KeywordRow(headers, rows[j], |rows[j]|)
    decreases |rows|
  {
    if |rows| == 0 then [] else [KeywordRow(headers, rows[0], |rows[0]|)] + KeywordRows(headers, rows[1..])
  }

  /** Every row's port call by column index. */
  function IndexRows(rows: seq<seq<string>>): (cs: seq<PortCall>)
    ensures |cs| == |rows|
    ensures forall j :: 0 <= j < |rows| ==> cs[j] == IndexRow(rows[j])
    decreases |rows|
  {
    if |rows| == 0 then [] else [IndexRow(rows[0])] + IndexRows(rows[1..])
  }

  /** The fixed server's port calls: port tables only, keyword mapping. */
  function KeywordCalls(tables: seq<Table>): (cs: seq<PortCall>)
    ensures forall i :: 0 <= i < |cs| ==> KeptCall(cs[i])
    decreases |tables|
  {
    if |tables| == 0 then []
    else
      var t := tables[0];
      var hs := PortHeaders(t);
      var here := if IsPortTable(hs) && |t.rows| > 0 then Keep(KeywordRows(hs, t.rows[1..]), KeptCall) else [];
      here + KeywordCalls(tables[1..])
  }

  /** The plain server's port calls: every table, index mapping. */
  function IndexCalls(tables: seq<Table>): (cs: seq<PortCall>)
    ensures forall i :: 0 <= i < |cs| ==> KeptCall(cs[i])
    decreases |tables|
  {
    if |tables| == 0 then []
    else
      var t := tables[0];
      var here := if |t.rows| > 0 then Keep(IndexRows(t.rows[1..]), KeptCall) else [];
      here + IndexCalls(tables[1..])
  }

  /** Tables contribute their port calls in document order. */
  lemma {:induction false} KeywordCallsAppend(a: seq<Table>, b: seq<Table>)
    ensures KeywordCalls(a + b) == KeywordCalls(a) + KeywordCalls(b)
    decreases |a|
  {
    if |a| > 0 {
      assert (a + b)[1..] == a[1..] + b;
      KeywordCallsAppend(a[1..], b);
    } else {
      assert a + b == b;
    }
  }

  lemma {:induction false} IndexCallsAppend(a: seq<Table>, b: seq<Table>)
    ensures IndexCalls(a + b) == IndexCalls(a) + IndexCalls(b)
    decreases |a|
  {
    if |a| > 0 {
      assert (a + b)[1..] == a[1..] + b;
      IndexCallsAppend(a[1..], b);
    } else {
      assert a + b == b;
    }
  }

  /** The port call of row `j` of a table, by header keyword (the enhanced
      servers) or by column index (the plain server). */
  function RowCall(t: Table, byKeyword: bool, j: nat): PortCall
    requires j < |t.rows|
  {
    if byKeyword then KeywordRow(PortHeaders(t), t.rows[j], |t.rows[j]|) else IndexRow(t.rows[j])
  }

  /** The keyword mapping reads port tables only; the index mapping reads
      every table. */
  predicate TableRead(t: Table, byKeyword: bool) {
    !byKeyword || IsPortTable(PortHeaders(t))
  }

  /** Reference, one row at a time: the kept calls of rows 1 to `m - 1` of
      a table read by the mapping, row 0 being the header row. */
  function TableCallsUpTo(t: Table, byKeyword: bool, m: nat): (r: seq<PortCall>)
    requires m <= |t.rows|
    decreases m
  {
    if m <= 1 || !TableRead(t, byKeyword) then []
    else
      var c := RowCall(t, byKeyword, m - 1);
      TableCallsUpTo(t, byKeyword, m - 1) + if KeptCall(c) then [c] else []
  }

  /** Reference, one table at a time: every table's kept calls, in
      document order. */
  function CallsReference(tables: seq<Table>, byKeyword: bool): seq<PortCall>
    decreases |tables|
  {
    if |tables| == 0 then []
    else
      var t := tables[|tables| - 1];
      CallsReference(tables[..|tables| - 1], byKeyword) + TableCallsUpTo(t, byKeyword, |t.rows|)
  }

  /** The calls of every row after the header, before the filter. */
  function AllRowCalls(t: Table, byKeyword: bool): (cs: seq<PortCall>)
    requires |t.rows| > 0
    ensures |cs| == |t.rows| - 1
    ensures forall j :: 0 <= j < |cs| ==> cs[j] == RowCall(t, byKeyword, j + 1)
  {
    if byKeyword then KeywordRows(PortHeaders(t), t.rows[1..]) else IndexRows(t.rows[1..])
  }

  /** The filter over the first `k` rows after the header is the
      reference up to row `k + 1`. */
  lemma {:induction false} TableCallsKeep(t: Table, byKeyword: bool, k: nat)
    requires k < |t.rows| && TableRead(t, byKeyword)
    ensures TableCallsUpTo(t, byKeyword, k + 1) == Keep(AllRowCalls(t, byKeyword)[..k], KeptCall)
    decreases k
  {
    if k > 0 {
      var j := k - 1;
      TableCallsKeep(t, byKeyword, j);
      TableCallsStep(t, byKeyword, j);
    } else {
      assert AllRowCalls(t, byKeyword)[..0] == [];
    }
  }

  /** One more row appends its call exactly when it is kept. */
  lemma TableCallsStep(t: Table, byKeyword: bool, j: nat)
    requires j + 1 < |t.rows| && TableRead(t, byKeyword)
    requires TableCallsUpTo(t, byKeyword, j + 1) == Keep(AllRowCalls(t, byKeyword)[..j], KeptCall)
    ensures TableCallsUpTo(t, byKeyword, j + 2) == Keep(AllRowCalls(t, byKeyword)[..j + 1], KeptCall)
  {
    var all := AllRowCalls(t, byKeyword);
    var c := RowCall(t, byKeyword, j + 1);
    assert TableCallsUpTo(t, byKeyword, j + 2) == TableCallsUpTo(t, byKeyword, j + 1) + if KeptCall(c) then [c] else [];
    AllRowCallsSnoc(t, byKeyword, j);
    KeepSnoc(all[..j], c, KeptCall);
  }

  lemma AllRowCallsSnoc(t: Table, byKeyword: bool, j: nat)
    requires j + 1 < |t.rows|
    ensures AllRowCalls(t, byKeyword)[..j + 1] == AllRowCalls(t, byKeyword)[..j] + [RowCall(t, byKeyword, j + 1)]
  {
    var all := AllRowCalls(t, byKeyword);
    TakeSnoc(all, j);
    assert all[j] == RowCall(t, byKeyword, j + 1);
  }

  /** One table's share of the calls is the reference over its rows. */
  lemma OneTableCalls(t: Table, byKeyword: bool)
    ensures (if byKeyword then KeywordCalls([t]) else IndexCalls([t])) == TableCallsUpTo(t, byKeyword, |t.rows|)
  {
    var one := [t];
    assert one[0] == t && one[1..] == [];
    if |t.rows| > 0 && TableRead(t, byKeyword) {
      TableCallsKeep(t, byKeyword, |t.rows| - 1);
      var all := AllRowCalls(t, byKeyword);
      assert all[..|t.rows| - 1] == all;
    }
  }

  /** Both servers keep exactly the rows after each header row whose
      `ship` is a non-empty string, table by table and row by row in
      document order (the enhanced servers in port tables only). */
  lemma {:induction false} PortCallsReference(tables: seq<Table>, byKeyword: bool)
    ensures (if byKeyword then KeywordCalls(tables) else IndexCalls(tables)) == CallsReference(tables, byKeyword)
    decreases |tables|
  {
    if |tables| > 0 {
      var n := |tables| - 1;
      var init, t := tables[..n], tables[n];
      assert tables == init + [t];
      PortCallsReference(init, byKeyword);
      OneTableCalls(t, byKeyword);
      if byKeyword {
        KeywordCallsAppend(init, [t]);
      } else {
        IndexCallsAppend(init, [t]);
      }
    }
  }

  /** `ships_found` and `ships.slice(0, limit)`: 30 in the fixed server, 20
      in the plain one. */
  function PortShips(calls: seq<PortCall>, limit: nat): (l: Page<PortCall>)
    ensures l.found == |calls|
    ensures |l.shown| == if |calls| <= limit then |calls| else limit
    ensures forall i :: 0 <= i < |l.shown| ==> l.shown[i] == calls[i]
  {
    PageOf(calls, limit)
  }

  /** A needle whose first character the haystack lacks does not occur. */
  lemma MissingFirstChar(s: string, t: string)
    requires |t| > 0 && forall i :: 0 <= i < |s| ==> s[i] != t[0]
    ensures !Contains(s, t)
  {
    if Contains(s, t) { ContainsSharesChar(s, t); }
  }

  /** An occurrence starts at most `|s| - |t|` characters in. */
  lemma NoEarlyStart(s: string, t: string)
    requires |t| > 0 && forall i :: 0 <= i <= |s| - |t| ==> s[i] != t[0]
    ensures !Contains(s, t)
  {
    if Contains(s, t) { ContainsSharesChar(s, t); }
  }

  lemma ShipColumn()
    ensures ColumnOf("ship") == ShipCol
  {
    ContainsSelf("ship");
  }

  lemma ArrivalColumn()
    ensures ColumnOf("arrival") == ArrivalCol
  {
    MissingFirstChar("arrival", "ship");
    ContainsSelf("arrival");
  }

  lemma DepartureColumn()
    ensures ColumnOf("departure") == DepartureCol
  {
    MissingFirstChar("departure", "ship");
    DepartureNotArrival();
    ContainsSelf("departure");
  }

  lemma DepartureNotArrival()
    ensures !Contains("departure", "arrival")
  {
    NoEarlyStart("departure", "arrival");
  }

  lemma DateColumn()
    ensures ColumnOf("date") == DateCol
  {
    MissingFirstChar("date", "ship");
    NoEarlyStart("date", "arrival");
    NoEarlyStart("date", "departure");
    ContainsSelf("date");
  }

  /** Where the first four headers select ship, arrival, departure and
      date and no further header exists (as `Ship | Arrival | Departure |
      Date` do, by the four lemmas above), the fixed server's keyword
      mapping and the plain server's column-index mapping build the same
      port call. */
  lemma {:induction false} KeywordMatchesIndex(hs: seq<string>, cells: seq<string>, n: nat)
    requires |hs| == 4 && forall k :: 0 <= k < 4 ==> hs[k] != ""
    requires ColumnOf(hs[0]) == ShipCol && ColumnOf(hs[1]) == ArrivalCol
    requires ColumnOf(hs[2]) == DepartureCol && ColumnOf(hs[3]) == DateCol
    requires n <= |cells|
    ensures KeywordRow(hs, cells, n) == IndexRow(cells[..n])
    decreases n
  {
    if n > 0 {
      KeywordMatchesIndex(hs, cells, n - 1);
      assert cells[..n][..n - 1] == cells[..n - 1];
      assert cells[..n][n - 1] == cells[n - 1];
    }
  }

  /** Headers that select ship, arrival, departure and date in the first
      four columns and have no fifth. */
  predicate StandardColumns(hs: seq<string>) {
    && |hs| == 4 && (forall k :: 0 <= k < 4 ==> hs[k] != "")
    && ColumnOf(hs[0]) == ShipCol && ColumnOf(hs[1]) == ArrivalCol
    && ColumnOf(hs[2]) == DepartureCol && ColumnOf(hs[3]) == DateCol
  }

  /** On pages whose every table has standard headers, the fixed server
      and the plain server find the same port calls. */
  lemma {:induction false} PortTablesAgree(tables: seq<Table>)
    requires forall t :: t in tables ==> StandardColumns(PortHeaders(t))
    ensures KeywordCalls(tables) == IndexCalls(tables)
    decreases |tables|
  {
    if |tables| > 0 {
      var t := tables[0];
      var hs := PortHeaders(t);
      StandardIsPortTable(hs);
      var rows := if |t.rows| > 0 then t.rows[1..] else [];
      if |t.rows| > 0 {
        RowCallsAgree(hs, rows);
      }
      assert forall t :: t in tables[1..] ==> t in tables;
      PortTablesAgree(tables[1..]);
      assert KeywordCalls(tables) == Keep(KeywordRows(hs, rows), KeptCall) + KeywordCalls(tables[1..]);
      assert IndexCalls(tables) == Keep(IndexRows(rows), KeptCall) + IndexCalls(tables[1..]);
    }
  }

  lemma StandardIsPortTable(hs: seq<string>)
    requires StandardColumns(hs)
    ensures IsPortTable(hs)
  {
    assert Contains(hs[0], "ship");
  }

  lemma RowCallsAgree(hs: seq<string>, rows: seq<seq<string>>)
    requires StandardColumns(hs)
    ensures KeywordRows(hs, rows) == IndexRows(rows)
  {
    var byKeyword, byIndex := KeywordRows(hs, rows), IndexRows(rows);
    forall j | 0 <= j < |rows|
      ensures byKeyword[j] == byIndex[j]
    {
      KeywordMatchesIndex(hs, rows[j], |rows[j]|);
      assert rows[j][..|rows[j]|] == rows[j];
    }
  }
}

=== FILE: text.dfy ===
/** Character classes and the JavaScript string primitives the scrapers
    rely on: `\s`, `\d`, `toLowerCase`, `trim`, `includes`, `indexOf`,
    `replace(string, '')`, `replace(/\s+/g, sep)` and `split(/\s+/)`. */
module Text {
  import opened Wrappers

  /** JavaScript's `\s`: the WhiteSpace and LineTerminator code points.
      `String.prototype.trim` strips exactly the same set. */
  predicate IsSpace(c: char) {
    || c == ' ' || c == '\t' || c == '\n' || c == '\r'
    || c == '\U{000B}' || c == '\U{000C}' || c == '\U{00A0}' || c == '\U{1680}'
    || ('\U{2000}' <= c <= '\U{200A}')
    || c == '\U{2028}' || c == '\U{2029}' || c == '\U{202F}' || c == '\U{205F}'
    || c == '\U{3000}' || c == '\U{FEFF}'
  }

  /** The characters a regular-expression `.` refuses to match. */
  predicate IsLineTerminator(c: char) {
    c == '\n' || c == '\r' || c == '\U{2028}' || c == '\U{2029}'
  }

  /** JavaScript's `\d`. */
  predicate IsDigit(c: char) {
    '0' <= c <= '9'
  }

  predicate IsUpper(c: char) {
    'A' <= c <= 'Z'
  }

  predicate NoSpaces(s: string) {
    forall i :: 0 <= i < |s| ==> !IsSpace(s[i])
  }

  predicate AllSpaces(s: string) {
    forall i :: 0 <= i < |s| ==> IsSpace(s[i])
  }

  predicate AllDigits(s: string) {
    forall i :: 0 <= i < |s| ==> IsDigit(s[i])
  }

  predicate NoUpper(s: string) {
    forall i :: 0 <= i < |s| ==> !IsUpper(s[i])
  }

  predicate IsSuffix(d: string, s: string) {
    |d| <= |s| && s[|s| - |d|..] == d
  }

  // ---------------------------------------------------------------------
  // Case folding
  // ---------------------------------------------------------------------

  function LowerChar(c: char): char {
    if IsUpper(c) then (c as int + 32) as char else c
  }

  /** `String.prototype.toLowerCase`, restricted to the ASCII letters. */
  function Lower(s: string): (r: string)
    ensures |r| == |s|
    ensures forall i :: 0 <= i < |s| ==> r[i] == LowerChar(s[i])
  {
    seq(|s|, i => if 0 <= i < |s| then LowerChar(s[i]) else ' ')
  }

  /** Lowercasing folds every letter and leaves whitespace where it was, so
      a second pass changes nothing. */
  lemma LowerIdempotent(s: string)
    ensures NoUpper(Lower(s))
    ensures Lower(Lower(s)) == Lower(s)
    ensures forall i :: 0 <= i < |s| ==> (IsSpace(Lower(s)[i]) <==> IsSpace(s[i]))
  {
  }

  lemma LowerConcat(a: string, b: string)
    ensures Lower(a + b) == Lower(a) + Lower(b)
  {
  }

  lemma LowerOfNoUpper(s: string)
    requires NoUpper(s)
    ensures Lower(s) == s
  {
  }

  // ---------------------------------------------------------------------
  // Searching
  // ---------------------------------------------------------------------

  predicate StartsWith(s: string, p: string) {
    |p| <= |s| && s[..|p|] == p
  }

  /** `t` occurs in `s` at position `j`. */
  predicate MatchAt(s: string, t: string, j: nat) {
    j + |t| <= |s| && s[j..j + |t|] == t
  }

  lemma MatchAtShift(s: string, t: string)
    requires |s| > 0
    ensures forall j: nat :: 0 < j ==> (MatchAt(s, t, j) <==> MatchAt(s[1..], t, j - 1))
  {
    forall j: nat | 0 < j
      ensures MatchAt(s, t, j) <==> MatchAt(s[1..], t, j - 1)
    {
      if j + |t| <= |s| {
        var u := s[1..];
        var a, b := s[j..j + |t|], u[j - 1..j - 1 + |t|];
        assert forall k :: 0 <= k < |t| ==> a[k] == s[j + k] == b[k];
        assert a == b;
      }
    }
  }

  /** `s.indexOf(t)`, with `None` for `-1`: the leftmost position at which
      `t` occurs in `s`. */
  function IndexOf(s: string, t: string): (r: Option<nat>)
    ensures r.Some? ==> MatchAt(s, t, r.value)
    ensures r.Some? ==> forall j: nat :: j < r.value ==> !MatchAt(s, t, j)
    ensures r.None? ==> forall j: nat :: !MatchAt(s, t, j)
    decreases |s|
  {
    if MatchAt(s, t, 0) then Some(0)
    else if |s| == 0 then None
    else
      MatchAtShift(s, t);
      match IndexOf(s[1..], t)
      case Some(k) => Some(k + 1)
      case None => None
  }

  /** `s.includes(t)`. */
  predicate Contains(s: string, t: string) {
    IndexOf(s, t).Some?
  }

  lemma ContainsAt(s: string, t: string, i: nat)
    requires MatchAt(s, t, i)
    ensures Contains(s, t)
  {
  }

  lemma ContainsEmpty(s: string)
    ensures Contains(s, "")
  {
    assert MatchAt(s, "", 0);
  }

  lemma ContainsSelf(s: string)
    ensures Contains(s, s)
  {
    assert MatchAt(s, s, 0);
  }

  /** A non-empty occurrence shares its first character with the haystack,
      at a position that leaves room for the rest of the needle. */
  lemma ContainsSharesChar(s: string, t: string)
    requires Contains(s, t) && |t| > 0
    ensures exists i :: 0 <= i < |s| && s[i] == t[0]
    ensures exists i :: 0 <= i <= |s| - |t| && s[i] == t[0]
  {
    var k := IndexOf(s, t).value;
    assert s[k..k + |t|][0] == s[k];
  }

  // ---------------------------------------------------------------------
  // Trimming
  // ---------------------------------------------------------------------

  /** `s` without its leading whitespace. */
  function TrimStart(s: string): (r: string)
    ensures IsSuffix(r, s)
    ensures AllSpaces(s[..|s| - |r|])
    ensures r == [] || !IsSpace(r[0])
    decreases |s|
  {
    if |s| > 0 && IsSpace(s[0]) then TrimStart(s[1..]) else s
  }

  /** `s` without its trailing whitespace. */
  function TrimEnd(s: string): (r: string)
    ensures StartsWith(s, r)
    ensures AllSpaces(s[|r|..])
    ensures r == [] || !IsSpace(r[|r| - 1])
    decreases |s|
  {
    if |s| > 0 && IsSpace(s[|s| - 1]) then
      var r := TrimEnd(s[..|s| - 1]);
      assert s[|r|..] == s[..|s| - 1][|r|..] + [s[|s| - 1]];
      r
    else s
  }

  /** `r` is `s` with some whitespace prefix and some whitespace suffix
      cut off. */
  predicate OuterSpacesCut(s: string, r: string) {
    exists i, j :: 0 <= i <= j <= |s| && r == s[i..j] && AllSpaces(s[..i]) && AllSpaces(s[j..])
  }

  /** `String.prototype.trim`. */
  function Trim(s: string): (r: string)
    ensures |r| <= |s|
    ensures r == [] || (!IsSpace(r[0]) && !IsSpace(r[|r| - 1]))
    ensures r == [] <==> AllSpaces(s)
    ensures OuterSpacesCut(s, r)
  {
    TrimFacts(s);
    TrimSlice(s);
    TrimEnd(TrimStart(s))
  }

  /** Trimming keeps a middle slice of the text and drops only whitespace
      around it. */
  lemma TrimSlice(s: string)
    ensures OuterSpacesCut(s, TrimEnd(TrimStart(s)))
  {
    CutBothEnds(s, TrimStart(s), TrimEnd(TrimStart(s)));
  }

  /** A whitespace prefix cut from `s`, then a whitespace suffix cut from
      what is left, is one cut of both ends. */
  lemma CutBothEnds(s: string, a: string, r: string)
    requires IsSuffix(a, s) && AllSpaces(s[..|s| - |a|])
    requires StartsWith(a, r) && AllSpaces(a[|r|..])
    ensures OuterSpacesCut(s, r)
  {
    var i := |s| - |a|;
    var j := i + |r|;
    assert a == s[i..];
    assert r == a[..|r|];
    assert r == s[i..j];
    assert s[j..] == a[|r|..];
  }

  /** No whitespace at either end. */
  predicate NoOuterSpace(t: string) {
    t == [] || (!IsSpace(t[0]) && !IsSpace(t[|t| - 1]))
  }

  /** `trim` is the only cut of outer whitespace that leaves no whitespace
      at either end. */
  lemma TrimCharacterised(s: string, t: string)
    requires OuterSpacesCut(s, t) && NoOuterSpace(t)
    ensures t == Trim(s)
  {
    CutsAgree(s, t, Trim(s));
  }

  /** Two cuts of outer whitespace with no whitespace left at their ends
      are equal. */
  lemma CutsAgree(s: string, t: string, r: string)
    requires OuterSpacesCut(s, t) && NoOuterSpace(t)
    requires OuterSpacesCut(s, r) && NoOuterSpace(r)
    ensures t == r
  {
    if AllSpaces(s) {
      CutOfSpaces(s, t);
      CutOfSpaces(s, r);
    } else {
      var i, j :| 0 <= i <= j <= |s| && t == s[i..j] && AllSpaces(s[..i]) && AllSpaces(s[j..]);
      var i2, j2 :| 0 <= i2 <= j2 <= |s| && r == s[i2..j2] && AllSpaces(s[..i2]) && AllSpaces(s[j2..]);
      SameCut(s, i, j, i2, j2);
    }
  }

  /** Two cuts of text that is not all whitespace, both leaving no
      whitespace at their ends, keep the same slice. */
  lemma SameCut(s: string, i: nat, j: nat, i2: nat, j2: nat)
    requires !AllSpaces(s)
    requires i <= j <= |s| && AllSpaces(s[..i]) && AllSpaces(s[j..]) && NoOuterSpace(s[i..j])
    requires i2 <= j2 <= |s| && AllSpaces(s[..i2]) && AllSpaces(s[j2..]) && NoOuterSpace(s[i2..j2])
    ensures s[i..j] == s[i2..j2]
  {
    CutNonEmpty(s, i, j);
    CutNonEmpty(s, i2, j2);
    assert s[i..j][0] == s[i] && s[i..j][j - i - 1] == s[j - 1];
    assert s[i2..j2][0] == s[i2] && s[i2..j2][j2 - i2 - 1] == s[j2 - 1];
    CutUnique(s, i, j, i2, j2);
  }

  /** Whitespace has only the empty cut without outer whitespace. */
  lemma CutOfSpaces(s: string, r: string)
    requires AllSpaces(s) && OuterSpacesCut(s, r) && NoOuterSpace(r)
    ensures r == []
  {
    var i, j :| 0 <= i <= j <= |s| && r == s[i..j] && AllSpaces(s[..i]) && AllSpaces(s[j..]);
  }

  /** Text that is not all whitespace keeps something after any cut of
      outer whitespace. */
  lemma CutNonEmpty(s: string, i: nat, j: nat)
    requires !AllSpaces(s) && i <= j <= |s| && AllSpaces(s[..i]) && AllSpaces(s[j..])
    ensures i < j
  {
    if i == j {
      SpacesAround(s, i);
    }
  }

  /** Whitespace on both sides of a position is whitespace throughout. */
  lemma SpacesAround(s: string, i: nat)
    requires i <= |s| && AllSpaces(s[..i]) && AllSpaces(s[i..])
    ensures AllSpaces(s)
  {
    forall k | 0 <= k < |s|
      ensures IsSpace(s[k])
    {
      if k < i {
        assert s[..i][k] == s[k];
      } else {
        assert s[i..][k - i] == s[k];
      }
    }
  }

  /** Two cuts whose kept slices start and end with a non-space are the
      same cut. */
  lemma CutUnique(s: string, i: nat, j: nat, i2: nat, j2: nat)
    requires i < j <= |s| && i2 < j2 <= |s|
    requires AllSpaces(s[..i]) && AllSpaces(s[j..]) && !IsSpace(s[i]) && !IsSpace(s[j - 1])
    requires AllSpaces(s[..i2]) && AllSpaces(s[j2..]) && !IsSpace(s[i2]) && !IsSpace(s[j2 - 1])
    ensures i == i2 && j == j2
  {
  }

  lemma TrimFacts(s: string)
    ensures TrimEnd(TrimStart(s)) == [] <==> AllSpaces(s)
  {
    var a := TrimStart(s);
    var r := TrimEnd(a);
    var n := |s| - |a|;
    if r == [] {
      assert AllSpaces(a[|r|..]);
      assert AllSpaces(s[..n]);
      forall i | 0 <= i < |s| ensures IsSpace(s[i]) {
        if i >= n {
          assert s[i] == a[i - n];
        } else {
          assert s[i] == s[..n][i];
        }
      }
    }
  }

  // ---------------------------------------------------------------------
  // Digit runs
  // ---------------------------------------------------------------------

  /** The maximal run of digits at the end of `s`. */
  function TrailingDigits(s: string): (d: string)
    ensures IsSuffix(d, s) && AllDigits(d)
    ensures |d| < |s| ==> !IsDigit(s[|s| - |d| - 1])
    decreases |s|
  {
    if |s| == 0 || !IsDigit(s[|s| - 1]) then ""
    else
      var d := TrailingDigits(s[..|s| - 1]);
      d + [s[|s| - 1]]
  }

  /** The maximal digit suffix is unique: any all-digit suffix not preceded
      by a digit is it. */
  lemma TrailingDigitsUnique(s: string, d: string)
    requires IsSuffix(d, s) && AllDigits(d)
    requires |d| < |s| ==> !IsDigit(s[|s| - |d| - 1])
    ensures TrailingDigits(s) == d
  {
  }

  /** The maximal run of digits at the start of `s`. */
  function LeadingDigits(s: string): (d: string)
    ensures StartsWith(s, d) && AllDigits(d)
    ensures |d| < |s| ==> !IsDigit(s[|d|])
    decreases |s|
  {
    if |s| == 0 || !IsDigit(s[0]) then "" else [s[0]] + LeadingDigits(s[1..])
  }

  // ---------------------------------------------------------------------
  // Whitespace runs
  // ---------------------------------------------------------------------

  /** `s.replace(/\s+/g, [sep])`: every maximal whitespace run becomes one
      `sep`; nothing is trimmed. */
  function ReplaceSpaceRuns(s: string, sep: char): (r: string)
    ensures |r| <= |s|
    ensures !IsSpace(sep) ==> NoSpaces(r)
    ensures NoUpper(s) && !IsUpper(sep) ==> NoUpper(r)
    decreases |s|
  {
    if |s| == 0 then ""
    else if IsSpace(s[0]) then [sep] + ReplaceSpaceRuns(TrimStart(s), sep)
    else [s[0]] + ReplaceSpaceRuns(s[1..], sep)
  }

  /** Text without whitespace passes through unchanged. */
  lemma {:induction false} ReplaceSpaceRunsWord(a: string, b: string, sep: char)
    requires NoSpaces(a)
    ensures ReplaceSpaceRuns(a + b, sep) == a + ReplaceSpaceRuns(b, sep)
    decreases |a|
  {
    if |a| > 0 {
      var ab := a + b;
      assert ab[0] == a[0] && !IsSpace(ab[0]);
      assert ab[1..] == a[1..] + b;
      assert ReplaceSpaceRuns(ab, sep) == [a[0]] + ReplaceSpaceRuns(a[1..] + b, sep);
      ReplaceSpaceRunsWord(a[1..], b, sep);
      ConsSplit(a, ReplaceSpaceRuns(b, sep));
    } else {
      assert a + b == b;
    }
  }

  /** Joining three pieces of text does not depend on the grouping. */
  lemma TextAssoc(x: string, y: string, z: string)
    ensures x + y + z == x + (y + z)
  {
  }

  /** Putting the head back in front of the tail. */
  lemma ConsSplit(a: string, r: string)
    requires |a| > 0
    ensures [a[0]] + (a[1..] + r) == a + r
  {
    assert a == [a[0]] + a[1..];
  }

  /** A whole whitespace run, however long, becomes exactly one `sep`. */
  lemma ReplaceSpaceRunsRun(w: string, b: string, sep: char)
    requires |w| > 0 && AllSpaces(w)
    requires b == [] || !IsSpace(b[0])
    ensures ReplaceSpaceRuns(w + b, sep) == [sep] + ReplaceSpaceRuns(b, sep)
  {
    TrimStartSpaces(w, b);
  }

  lemma {:induction false} TrimStartSpaces(w: string, b: string)
    requires AllSpaces(w)
    requires b == [] || !IsSpace(b[0])
    ensures TrimStart(w + b) == b
    decreases |w|
  {
    if |w| > 0 {
      assert (w + b)[1..] == w[1..] + b;
      TrimStartSpaces(w[1..], b);
    }
  }

  /** Collapsing whitespace runs to single spaces first does not change
      the result of replacing runs by `sep`. */
  lemma {:induction false} ReplaceSpaceRunsCollapse(s: string, sep: char)
    ensures ReplaceSpaceRuns(ReplaceSpaceRuns(s, ' '), sep) == ReplaceSpaceRuns(s, sep)
    decreases |s|
  {
    if |s| == 0 {
    } else if IsSpace(s[0]) {
      var t := TrimStart(s);
      var x := ReplaceSpaceRuns(t, ' ');
      ReplaceSpaceRunsCollapse(t, sep);
      assert x == [] || !IsSpace(x[0]);
      ReplaceSpaceRunsRun(" ", x, sep);
    } else {
      ReplaceSpaceRunsCollapse(s[1..], sep);
      ReplaceSpaceRunsWord([s[0]], ReplaceSpaceRuns(s[1..], ' '), sep);
    }
  }

  /** `s.split(/\s+/)`: the fields between maximal whitespace runs, keeping
      the empty field before a leading run and after a trailing run
      (`''.split(/\s+/)` is `['']`). */
  function SplitSpaces(s: string): (r: seq<string>)
    ensures |r| >= 1
    ensures forall i :: 0 <= i < |r| ==> NoSpaces(r[i])
    decreases |s|
  {
    if |s| == 0 then [""]
    else if IsSpace(s[0]) then [""] + SplitSpaces(TrimStart(s))
    else
      var rest := SplitSpaces(s[1..]);
      [[s[0]] + rest[0]] + rest[1..]
  }

  /** `parts.join([sep])`. */
  function Join(parts: seq<string>, sep: char): string
    decreases |parts|
  {
    if |parts| == 0 then ""
    else if |parts| == 1 then parts[0]
    else parts[0] + [sep] + Join(parts[1..], sep)
  }

  lemma JoinConsHead(c: char, parts: seq<string>, sep: char)
    requires |parts| >= 1
    ensures Join([[c] + parts[0]] + parts[1..], sep) == [c] + Join(parts, sep)
  {
    var q := [[c] + parts[0]] + parts[1..];
    assert q[1..] == parts[1..];
  }

  /** Splitting on whitespace runs and joining with one space is the same
      as collapsing every run to one space. */
  lemma {:induction false} JoinSplitSpaces(s: string)
    ensures Join(SplitSpaces(s), ' ') == ReplaceSpaceRuns(s, ' ')
    decreases |s|
  {
    if |s| == 0 {
    } else if IsSpace(s[0]) {
      var t := TrimStart(s);
      JoinSplitSpaces(t);
      var rest := SplitSpaces(t);
      assert ([""] + rest)[1..] == rest;
    } else {
      JoinSplitSpaces(s[1..]);
      JoinConsHead(s[0], SplitSpaces(s[1..]), ' ');
    }
  }

  /** A string ending in whitespace splits with a trailing empty field. */
  lemma {:induction false} SplitTrailingSpace(s: string)
    requires |s| > 0 && IsSpace(s[|s| - 1])
    ensures SplitSpaces(s)[|SplitSpaces(s)| - 1] == ""
    decreases |s|
  {
    if IsSpace(s[0]) {
      var t := TrimStart(s);
      if |t| > 0 {
        assert t[|t| - 1] == s[|s| - 1];
        SplitTrailingSpace(t);
      }
    } else {
      var u := s[1..];
      assert u[|u| - 1] == s[|s| - 1];
      SplitTrailingSpace(u);
    }
  }

  /** A string with no leading or trailing whitespace splits into non-empty
      fields. */
  lemma {:induction false} SplitTrimmedNonEmpty(s: string)
    requires |s| > 0 && !IsSpace(s[0]) && !IsSpace(s[|s| - 1])
    ensures forall i :: 0 <= i < |SplitSpaces(s)| ==> |SplitSpaces(s)[i]| > 0
    decreases |s|
  {
    var u := s[1..];
    if |u| == 0 {
    } else if IsSpace(u[0]) {
      var t := TrimStart(u);
      assert |t| > 0 by {
        if |t| == 0 {
          assert u[|u| - 1] == s[|s| - 1];
        }
      }
      assert t[|t| - 1] == s[|s| - 1];
      SplitTrimmedNonEmpty(t);
      assert SplitSpaces(u) == [""] + SplitSpaces(t);
    } else {
      assert u[|u| - 1] == s[|s| - 1];
      SplitTrimmedNonEmpty(u);
    }
  }

  /** Every character of every field is a character of the split string. */
  lemma {:induction false} SplitFieldChars(s: string, i: nat, j: nat)
    requires i < |SplitSpaces(s)| && j < |SplitSpaces(s)[i]|
    ensures exists k :: 0 <= k < |s| && s[k] == SplitSpaces(s)[i][j]
    decreases |s|
  {
    if |s| == 0 {
    } else if IsSpace(s[0]) {
      var t := TrimStart(s);
      assert SplitSpaces(s)[i] == SplitSpaces(t)[i - 1];
      SplitFieldChars(t, i - 1, j);
      var k :| 0 <= k < |t| && t[k] == SplitSpaces(t)[i - 1][j];
      assert s[|s| - |t| + k] == t[k];
    } else {
      var rest := SplitSpaces(s[1..]);
      if i == 0 && j == 0 {
        assert s[0] == SplitSpaces(s)[0][0];
      } else if i == 0 {
        assert SplitSpaces(s)[0][j] == rest[0][j - 1];
        SplitFieldChars(s[1..], 0, j - 1);
        var k :| 0 <= k < |s[1..]| && s[1..][k] == rest[0][j - 1];
        assert s[k + 1] == s[1..][k];
      } else {
        assert SplitSpaces(s)[i] == rest[i];
        SplitFieldChars(s[1..], i, j);
        var k :| 0 <= k < |s[1..]| && s[1..][k] == rest[i][j];
        assert s[k + 1] == s[1..][k];
      }
    }
  }

  // ---------------------------------------------------------------------
  // Replacing a substring
  // ---------------------------------------------------------------------

  /** `s.replace(t, '')` with a string pattern: the first occurrence of `t`
      is removed and the rest is left alone. */
  function RemoveFirst(s: string, t: string): (r: string)
    ensures IndexOf(s, t).None? ==> r == s
    ensures IndexOf(s, t).Some? ==>
              var k := IndexOf(s, t).value;
              |r| == |s| - |t| && r[..k] == s[..k] && r[k..] == s[k + |t|..]
  {
    match IndexOf(s, t)
    case None => s
    case Some(k) => s[..k] + s[k + |t|..]
  }
}

=== FILE: validator.dfy ===
/** `validateShipPage`: does a fetched page belong to the queried ship?
    A token-overlap heuristic between the query and the page's `title`
    and first `h1`, with JavaScript's `split(/\s+/)` and `includes`. */
module Validator {
  import opened Text

  /** `a.includes(b) || b.includes(a)`. */
  predicate Related(a: string, b: string) {
    Contains(a, b) || Contains(b, a)
  }

  /** `tokens.some(t => t.includes(word) || word.includes(t))`. */
  function AnyRelated(word: string, tokens: seq<string>): (b: bool)
    ensures b <==> exists i :: 0 <= i < |tokens| && Related(tokens[i], word)
    decreases |tokens|
  {
    if |tokens| == 0 then false
    else Related(tokens[0], word) || AnyRelated(word, tokens[1..])
  }

  /** `words.some(w => w.length > 2 && <w related to some token>)`. */
  function AnyLongWordRelated(words: seq<string>, tokens: seq<string>): (b: bool)
    ensures b <==> exists i :: 0 <= i < |words| && |words[i]| > 2 && AnyRelated(words[i], tokens)
    decreases |words|
  {
    if |words| == 0 then false
    else (|words[0]| > 2 && AnyRelated(words[0], tokens)) || AnyLongWordRelated(words[1..], tokens)
  }

  /** The token test of one page text against the query. */
  predicate TokenMatch(text: string, name: string) {
    AnyLongWordRelated(SplitSpaces(Lower(name)), SplitSpaces(Lower(text)))
  }

  /** The whole lowercased query occurs in the lowercased page text. */
  predicate FullNameIn(text: string, name: string) {
    Contains(Lower(text), Lower(name))
  }

  /** `validateShipPage($, shipName, url)` for a page with the given
      `title` text and first-`h1` text. */
  function ValidateShipPage(title: string, h1: string, name: string): (valid: bool)
    ensures FullNameIn(title, name) || FullNameIn(h1, name) ==> valid
  {
    TokenMatch(title, name) || TokenMatch(h1, name) || FullNameIn(title, name) || FullNameIn(h1, name)
  }

  /** The strict check of the fixes script: the lowercased full name in the
      lowercased title or h1. */
  function StrictNameCheck(title: string, h1: string, name: string): (ok: bool)
    ensures ok ==> ValidateShipPage(title, h1, name)
  {
    FullNameIn(title, name) || FullNameIn(h1, name)
  }

  /** A query without a word longer than two characters validates exactly
      when the page contains the whole query. */
  lemma ShortWordsNeedFullName(title: string, h1: string, name: string)
    requires forall i :: 0 <= i < |SplitSpaces(Lower(name))| ==> |SplitSpaces(Lower(name))[i]| <= 2
    ensures ValidateShipPage(title, h1, name) <==> StrictNameCheck(title, h1, name)
  {
  }

  /** `''.split(/\s+/)` is `['']`, and a leading run of whitespace also
      leaves an empty first field. */
  lemma SplitLeadingSpace(s: string)
    requires s == [] || IsSpace(s[0])
    ensures SplitSpaces(s)[0] == ""
  {
  }

  /** A page whose title or h1 is empty or starts or ends with whitespace
      has an empty token, which every query word contains: such a page
      validates for any query with a word longer than two characters. */
  lemma PaddedTextValidates(title: string, h1: string, name: string, i: nat)
    requires var t := Lower(title); t == [] || IsSpace(t[0]) || IsSpace(t[|t| - 1])
    requires i < |SplitSpaces(Lower(name))| && |SplitSpaces(Lower(name))[i]| > 2
    ensures ValidateShipPage(title, h1, name)
  {
    var t := Lower(title);
    var tokens := SplitSpaces(t);
    var k: nat;
    if t == [] || IsSpace(t[0]) {
      SplitLeadingSpace(t);
      k := 0;
    } else {
      SplitTrailingSpace(t);
      k := |tokens| - 1;
    }
    assert tokens[k] == "";
    var w := SplitSpaces(Lower(name))[i];
    ContainsEmpty(w);
    assert Related(tokens[k], w);
    assert AnyRelated(w, tokens);
    assert TokenMatch(title, name);
  }

  /** The empty-title case on its own: a page with no title text validates
      for every query with a word longer than two characters. */
  lemma EmptyTitleValidates(h1: string, name: string, i: nat)
    requires i < |SplitSpaces(Lower(name))| && |SplitSpaces(Lower(name))[i]| > 2
    ensures ValidateShipPage("", h1, name)
  {
    PaddedTextValidates("", h1, name, i);
  }

  /** Nothing shared, nothing valid: a non-empty query none of whose
      characters appears in a title and h1 without outer whitespace fails
      validation. */
  lemma DisjointPageFails(title: string, h1: string, name: string)
    requires |name| > 0
    requires var t := Lower(title); |t| > 0 && !IsSpace(t[0]) && !IsSpace(t[|t| - 1])
    requires var h := Lower(h1); |h| > 0 && !IsSpace(h[0]) && !IsSpace(h[|h| - 1])
    requires forall a, b :: 0 <= a < |name| && 0 <= b < |title| ==> Lower(name)[a] != Lower(title)[b]
    requires forall a, b :: 0 <= a < |name| && 0 <= b < |h1| ==> Lower(name)[a] != Lower(h1)[b]
    ensures !ValidateShipPage(title, h1, name)
  {
    DisjointTextFails(title, name);
    DisjointTextFails(h1, name);
  }

  lemma DisjointTextFails(text: string, name: string)
    requires |name| > 0
    requires var t := Lower(text); |t| > 0 && !IsSpace(t[0]) && !IsSpace(t[|t| - 1])
    requires forall a, b :: 0 <= a < |name| && 0 <= b < |text| ==> Lower(name)[a] != Lower(text)[b]
    ensures !TokenMatch(text, name) && !FullNameIn(text, name)
  {
    var n, t := Lower(name), Lower(text);
    if FullNameIn(text, name) {
      ContainsSharesChar(t, n);
    }
    var words, tokens := SplitSpaces(n), SplitSpaces(t);
    SplitTrimmedNonEmpty(t);
    forall i, j | 0 <= i < |words| && 0 <= j < |tokens| && |words[i]| > 2
      ensures !Related(tokens[j], words[i])
    {
      var w, tok := words[i], tokens[j];
      SplitFieldChars(t, j, 0);
      var b :| 0 <= b < |t| && t[b] == tok[0];
      SplitFieldChars(n, i, 0);
      var a :| 0 <= a < |n| && n[a] == w[0];
      if Contains(tok, w) {
        ContainsSharesChar(tok, w);
        var c :| 0 <= c < |tok| && tok[c] == w[0];
        SplitFieldChars(t, j, c);
      }
      if Contains(w, tok) {
        ContainsSharesChar(w, tok);
        var c :| 0 <= c < |w| && w[c] == tok[0];
        SplitFieldChars(n, i, c);
      }
    }
  }

  /** Splitting a word followed by whitespace and more text yields the word
      as the first field. */
  lemma {:induction false} SplitFirstWord(w: string, rest: string)
    requires NoSpaces(w) && |rest| > 0 && IsSpace(rest[0])
    ensures SplitSpaces(w + rest)[0] == w
    decreases |w|
  {
    if |w| > 0 {
      var s := w + rest;
      assert s[1..] == w[1..] + rest;
      SplitFirstWord(w[1..], rest);
      assert w == [w[0]] + w[1..];
    } else {
      assert w + rest == rest;
    }
  }

  lemma {:induction false} SplitWord(w: string)
    requires NoSpaces(w)
    ensures SplitSpaces(w) == [w]
    decreases |w|
  {
    if |w| > 0 {
      SplitWord(w[1..]);
      assert w == [w[0]] + w[1..];
    }
  }

  /** The lenient validator accepts more than the strict check: a page
      titled with the query's first word alone (say `Liberty` for `Liberty
      of the Seas`) passes validation but not the full-name check. */
  lemma LenientBeyondStrict(title: string, name: string, rest: string)
    requires NoSpaces(Lower(title)) && |title| > 2
    requires Lower(name) == Lower(title) + rest && |rest| > 0 && IsSpace(rest[0])
    ensures ValidateShipPage(title, title, name)
    ensures !StrictNameCheck(title, title, name)
  {
    var t := Lower(title);
    SplitWord(t);
    SplitFirstWord(t, rest);
    ContainsSelf(t);
    assert Related(SplitSpaces(t)[0], SplitSpaces(Lower(name))[0]);
    assert AnyRelated(SplitSpaces(Lower(name))[0], SplitSpaces(t));
    assert TokenMatch(title, name);
    assert !FullNameIn(title, name);
  }
}

=== FILE: wrappers.dfy ===
/** The optional-value type used throughout the model: JavaScript's `null`,
    `undefined` and "not found" results are all `None`. */
module Wrappers {

  datatype Option<+T> = None | Some(value: T) {

    /** The value, or `default` when absent (JavaScript's `x || default`
        for values that are never falsy when present). */
    function GetOr(default: T): T {
      match this
      case Some(v) => v
      case None => default
    }
  }
}
